=== FILE: README.md ===
# japtools lesson engine — a Dafny model

japtools is a spaced-repetition study app for Japanese radicals, kanji and
vocabulary (subjects of the WaniKani curriculum). This project models the
core of its lesson engine and proves properties of the model.

- **Subject kinds** (`SubjectKinds`, subject_kinds.dfy). A subject record is a
  radical, a kanji or a vocabulary item. It is classified by which fields it
  has: `get_subject_type` and the three `is_*_data` guards.
- **Reading uniqueness** (`UniqueReadings`, unique_readings.dfy).
  `has_duplicates`, `arr_identical` and `get_unique_readings` decide which
  readings of a subject can be asked without ambiguity.
- **Reading decomposition** (`Decomposition`, decomposition.dfy). A greedy
  scan lines up a vocabulary word with one of its readings. For each
  character it records the kanji reading type used, or "not a kanji".
- **Lesson synthesis** (`Lessons`, lessons.dfy). For each (subject, skill
  level), `get_lessons` builds the quiz variants, picks one at random and
  filters the result by the level table.
- **The older lesson generator** (`LegacyLessons`, legacy_lessons.dfy). It keeps
  every variant and uses a different scan. As written it keys each scan by
  the reading left over; the model keys it by the reading itself (see
  Findings).
- **Review intervals** (`DateGen`, date_gen.dfy). These are the hour offset
  after n successful reviews and its inverse search.
- **Subject indexes** (`Corpus`, corpus.dfy). These are the in-memory level,
  reading and kanji-symbol indexes over the bundled subject data, and the
  `get_*` lookups over them.
- **Session assembly** (`Session`, session.dfy). `POST
  /api/user/get_lesson_subjects` fills a batch in this order:
  1. due reviews;
  2. near-due reviews with a high skill level;
  3. new subjects of the user's level, which are written to the progress
     store.

  It then removes duplicate subjects.
- **Older session assembly** (`LegacySession`, legacy_session.dfy). Two older
  versions of that endpoint return only the due reviews. They add new
  subjects under a daily limit of 20.

Modelling choices:
- **External inputs are parameters.** The progress database is a
  `ProgressStore` object, and "now" is a parameter. The fetched kanji map is
  a `map<char, seq<Candidate>>`, and `isKanji` (a library call) is a
  function parameter. `sample` and the random sort key are nondeterministic
  choices.
- **The interval step is abstract.** The floating-point step `acc + acc **
  1.12 + 1.1` is a function parameter over reals. It is assumed to grow by
  at least 1.1 on non-negative values, which that expression does.
- **Errors are values.** Every thrown error is a `Result` error value.
- **Some JavaScript behaviour is spelt out:**
  - the integer-key order of `Object.entries` (`Corpus.Ordered`);
  - `parseInt` (`Corpus.ParseInt`);
  - `id.toString()` (`Corpus.IntString`);
  - property assignment on a plain object (`LegacyLessons.Upsert`).
- **The two generators stay apart.** The newer and the older lesson generator
  have their own lesson types and level tables, so `Lessons.Texts` and
  `Lessons.FilterByLevel` have counterparts in `LegacyLessons` (`AllTexts`,
  `FilterByLevel`) over the older types, as the two source files have.

## Model

| member | source | states |
|---|---|---|
| SubjectKinds.GetSubjectType | apps/web/src/lib/scripts/universal/datatypes.ts:112-119 | KANJI exactly for kanji records (the only schema with `reading_hint`), VOCABULARY exactly for vocabulary records (`reading_mnemonic` without `reading_hint`), RADICAL for everything else |
| SubjectKinds.ExactlyOneKind | apps/web/src/lib/scripts/universal/datatypes.ts:121-131 | exactly one of `is_kanji_data`, `is_vocabulary_data`, `is_radical_data` holds for every subject |
| SubjectKinds.RadicalSchemaAllowsNeitherAndBoth | apps/web/src/lib/scripts/universal/datatypes.ts:52-64 | the radical schema admits a radical with neither `characters` nor `image_url`, and one with both |
| SubjectKinds.ParseLessonSubject | apps/web/src/lib/scripts/universal/datatypes.ts:144-149 | a lesson subject is accepted exactly when its skill level is non-negative, and keeps its id and level |
| UniqueReadings.HasDuplicates | apps/web/src/routes/lessons/get_lessons.ts:30-32 | true exactly when two positions hold equal elements |
| UniqueReadings.ArrIdentical | apps/web/src/routes/lessons/get_lessons.ts:34-40 | an error exactly when either array has a duplicate; otherwise true exactly when both hold the same set of elements |
| UniqueReadings.EveryIdentical | apps/web/src/routes/lessons/get_lessons.ts:49 | when it succeeds, true exactly when every mapped subject has the same reading set; it can fail only on a duplicate, and does not fail without one |
| UniqueReadings.KeepReading | apps/web/src/routes/lessons/get_lessons.ts:46-51 | keeps a reading exactly when it maps to one subject or every mapped subject has this subject's readings; fails only on a missing map entry or a duplicate |
| UniqueReadings.FilterUnique | apps/web/src/routes/lessons/get_lessons.ts:46-51 | the kept readings are an order-preserving subsequence; a candidate is kept exactly when it is unique |
| UniqueReadings.GetUniqueReadings | apps/web/src/routes/lessons/get_lessons.ts:42-52 | an order-preserving subsequence of the readings, holding exactly the unique ones |
| UniqueReadings.UniqueReadingsSucceed | apps/web/src/routes/lessons/get_lessons.ts:42-52 | with every reading in the map and no duplicate reading lists, the filter does not fail |
| Decomposition.Viable | apps/web/src/routes/lessons/get_lessons.ts:252-254 | the viable candidates are exactly the kanji's candidates that are prefixes of the remaining reading |
| Decomposition.ViableSubsequence | apps/web/src/routes/lessons/get_lessons.ts:252-254 | the viable candidates keep the map order: an order-preserving subsequence of the kanji's candidates |
| Decomposition.ViableFirst | apps/web/src/routes/lessons/get_lessons.ts:252-270 | the first viable candidate is the first candidate, in map order, whose reading starts the remaining reading |
| Decomposition.DecideKanji | apps/web/src/routes/lessons/get_lessons.ts:255-277 | no viable candidate gives "unresolved"; otherwise the FIRST viable candidate's type is recorded and its length consumed when every viable candidate of its length has its text, else "Multiple viable" |
| Decomposition.NeverAmbiguous | apps/web/src/routes/lessons/get_lessons.ts:258-277 | two viable candidates of equal length are both prefixes of the reading and so equal: "Multiple viable" can never be thrown |
| Decomposition.FirstViableNotLongest | apps/web/src/routes/lessons/get_lessons.ts:258-270 | with た listed before たべ, the scan of たべる takes た: the first viable candidate is used, not the longest |
| Decomposition.DecomposeReading | apps/web/src/routes/lessons/get_lessons.ts:238-284 | the `while` loop computes the recursive decomposition `DecomposeFrom`, whose properties are the lemmas below |
| Decomposition.ResolvedShape | apps/web/src/routes/lessons/get_lessons.ts:241-284 | a finished decomposition has exactly one entry per character of the word, and leaves a suffix of the reading |
| Decomposition.ResolvedTypesAreKanjiReadings | apps/web/src/routes/lessons/get_lessons.ts:242-270 | a recorded type sits at a kanji with kanji data and is the type of one of its readings |
| Decomposition.UnresolvedNamesKanji | apps/web/src/routes/lessons/get_lessons.ts:255-257 | an entry keyed by a kanji with value undefined names a kanji of the word that has kanji data |
| Decomposition.InvalidCharacterIsNotKanji | apps/web/src/routes/lessons/get_lessons.ts:278-282 | "Invalid character" is raised only at a character that neither passes through nor is a kanji |
| Decomposition.TabeRuExample | apps/web/src/routes/lessons/get_lessons.ts:241-284 | 食べる read たべる decomposes as [kunyomi, undefined, undefined] |
| Decomposition.LeftoverReadingAccepted | apps/web/src/routes/lessons/get_lessons.ts:241 | the loop stops when the characters run out, even with reading left over |
| Decomposition.SmallTsuConsumesOneCharacter | apps/web/src/routes/lessons/get_lessons.ts:243-248 | with the small tsu, と against っと passes through, records undefined and consumes one reading character |
| Decomposition.TsuLiteralNeverMatches | apps/web/src/routes/lessons/get_lessons.ts:243-245 | with the literal as written, the small-tsu disjunct never holds |
| Decomposition.TsuLiteralExample | apps/web/src/routes/lessons/get_lessons.ts:243-245 | と against っと: the intended test passes it through, the test as written does not |
| Lessons.FindPrimary | apps/web/src/routes/lessons/get_lessons.ts:102-103 | none exactly when no reading is primary; otherwise the first primary reading of the subject, as `find` returns |
| Lessons.OfType | apps/web/src/routes/lessons/get_lessons.ts:105-107 | the readings of the given type, in order |
| Lessons.RadicalDisplay | apps/web/src/routes/lessons/get_lessons.ts:319-327 | non-empty characters are shown; else the image URL; an error exactly when there is neither |
| Lessons.ComputeKanjiTypes | apps/web/src/routes/lessons/get_lessons.ts:236-286 | computes the per-reading decompositions `KanjiTypesOf`, whose properties are the lemmas below |
| Lessons.KanjiTypesShape | apps/web/src/routes/lessons/get_lessons.ts:236-286 | on success every reading decomposed; the object is empty exactly when there are no readings; when all are resolved, each reading maps to its own per-character types |
| Lessons.KanjiTypesErrorIsReadingError | apps/web/src/routes/lessons/get_lessons.ts:236-286 | a failure is the decomposition failure of one of the readings |
| Lessons.KanjiTypesErrorSticks | apps/web/src/routes/lessons/get_lessons.ts:237-285 | the first failing reading decides the failure (`map` stops at the first throw) |
| Lessons.KanjiLessons | apps/web/src/routes/lessons/get_lessons.ts:101-138 | is `KanjiOutcome`: no primary reading is the "no primary reading" error and a uniqueness failure is passed on, these being the only errors; otherwise "to meanings" appears exactly when a unique reading has the primary type, and asks those readings; "to readings" always appears and carries every reading of the primary type |
| Lessons.PushKanjiVariants | apps/web/src/routes/lessons/get_lessons.ts:108-137 | the two pushes build exactly the kanji pushes whose properties KanjiPushesMeetVariants states |
| Lessons.KanjiPushesMeetVariants | apps/web/src/routes/lessons/get_lessons.ts:108-137 | the kanji pushes are input-taking quizzes about the subject; "to meanings" appears exactly when a unique reading has the primary type, asks exactly those readings and the meanings, and comes before "to readings" |
| Lessons.VariantsShape | apps/web/src/routes/lessons/get_lessons.ts:63-358 | every successful outcome is about the subject and at its level: level 0 gives only the `new_subject` lesson, above 0 only input-taking quizzes, and kanji and vocabulary outcomes meet their kind's variant rules |
| Lessons.VocabularyLessons | apps/web/src/routes/lessons/get_lessons.ts:156-314 | fails exactly when the readings are not unique-checkable, a reading does not decompose, or there are no readings, with those errors taking precedence in that order; otherwise "reading to meanings" exactly when some reading is unique; "to readings" and text "to symbol" (with every reading) always; text "to meanings" exactly when the word is not one of its unique readings; nothing else |
| Lessons.VocabularyOutcomeCases | apps/web/src/routes/lessons/get_lessons.ts:156-314 | the vocabulary outcome fails exactly on a uniqueness failure, a decomposition failure or no readings, each giving its own error in that order of precedence; success meets the vocabulary variant rules |
| Lessons.PushVocabularyVariants | apps/web/src/routes/lessons/get_lessons.ts:156-221 | the four pushes build exactly the vocabulary pushes whose properties VocabularyPushesMeetVariants states |
| Lessons.VocabularyPushesAboutSubject | apps/web/src/routes/lessons/get_lessons.ts:156-221 | the vocabulary pushes are input-taking quizzes about the subject, at its level |
| Lessons.VocabularyPushesMeetVariants | apps/web/src/routes/lessons/get_lessons.ts:156-221 | with readings present the vocabulary pushes are exactly the variants the vocabulary rules allow, each "to meanings" quiz asking the unique readings or the word itself |
| Lessons.VocabularyPushParts | apps/web/src/routes/lessons/get_lessons.ts:156-221 | the vocabulary pushes are, in order: "reading to meanings" over the unique readings when there are any, "to readings" over every reading, text "to meanings" when the word is not a unique reading, and text "to symbol" |
| Lessons.RadicalLessons | apps/web/src/routes/lessons/get_lessons.ts:315-354 | level 0 gives the single new-subject lesson; otherwise one text "to meanings" quiz; an error exactly when there are neither characters nor an image URL |
| Lessons.SubjectLessons | apps/web/src/routes/lessons/get_lessons.ts:64-357 | is `Variants`: per kind, an error exactly when that kind's failure conditions hold (radicals: no characters and no image, at every level); every variant is about the subject, of its kind and at its level; level 0 gives exactly one `new_subject` lesson without input; above 0 only quizzes that take input, per the kind's rules |
| Lessons.FilterByLevel | apps/web/src/routes/lessons/get_lessons.ts:362-364 | an order-preserving subsequence holding exactly the lessons whose table level is at most their skill level |
| Lessons.FilterByLevelKeepsPassing | apps/web/src/routes/lessons/get_lessons.ts:22-28 | when every lesson meets the table, the filter keeps all of them |
| Lessons.PickLesson | apps/web/src/routes/lessons/get_lessons.ts:64-360 | fails exactly when the subject's variants fail, with their error; otherwise one of those variants, with the subject's id and level, `new_subject` exactly at level 0, meeting the level table |
| Lessons.ChooseLessons | apps/web/src/routes/lessons/get_lessons.ts:54-361 | succeeds exactly when every subject's variants do, otherwise with the error of a failing subject; on success one picked lesson per subject, in order |
| Lessons.GetLessons | apps/web/src/routes/lessons/get_lessons.ts:54-365 | succeeds exactly when every subject's variants do, and otherwise fails with the error of a failing subject; on success one lesson per subject, in order, chosen among that subject's variants, with its id and level; `new_subject` exactly at level 0; all meet the level table |
| LegacyLessons.Nones | src/routes/lessons/get_lessons.ts:159-161 | n undefined entries |
| LegacyLessons.CountSomeAppend | src/routes/lessons/get_lessons.ts:159-162 | the count of recorded types adds up over concatenation |
| LegacyLessons.CountSomeNones | src/routes/lessons/get_lessons.ts:159-161 | undefined entries record no type |
| LegacyLessons.ScanReading | src/routes/lessons/get_lessons.ts:144-175 | the `while` loop computes the recursive scan `ScanFrom` |
| LegacyLessons.ScanKanjiStep | src/routes/lessons/get_lessons.ts:150-163 | a successful kanji step pushes one undefined per character of the agreed reading, then its type, and consumes that reading |
| LegacyLessons.ScanCounting | src/routes/lessons/get_lessons.ts:146-175 | a successful scan leaves a suffix of the reading; entries plus characters equal consumed reading characters plus twice the number of kanji |
| LegacyLessons.SpeltOutRecordsNothing | src/routes/lessons/get_lessons.ts:147-149 | characters that match the reading pass through and record nothing |
| LegacyLessons.DisagreeingCandidatesThrow | src/routes/lessons/get_lessons.ts:156-170 | た and たべ both viable for たべる: the older scan throws "Multiple viable" where the newer one succeeds |
| LegacyLessons.UpsertKeys | src/routes/lessons/get_lessons.ts:138-177 | setting a key adds exactly that key to the key set |
| LegacyLessons.UpsertGrows | src/routes/lessons/get_lessons.ts:138-177 | setting a key grows the object by one entry exactly when the key is new |
| LegacyLessons.UpsertDistinct | src/routes/lessons/get_lessons.ts:138-177 | setting a key keeps the keys distinct |
| LegacyLessons.VocabularyTypes | src/routes/lessons/get_lessons.ts:179-185 | more than one entry throws "Multiple Vocabulary reading", none throws "No Vocabulary reading"; exactly one yields its types |
| LegacyLessons.ReadingKeyedEntries | src/routes/lessons/get_lessons.ts:138-177 | keyed by reading, the object has one distinct key per distinct reading |
| LegacyLessons.ReadingKeyedSingle | src/routes/lessons/get_lessons.ts:179-185 | keyed by reading, a word gets its types exactly when it has one distinct reading |
| LegacyLessons.ScanOfHi | src/routes/lessons/get_lessons.ts:146-175 | 日 read ひ scans to leftover "" and [undefined, kunyomi] |
| LegacyLessons.ScanOfNichi | src/routes/lessons/get_lessons.ts:146-175 | 日 read にち scans to leftover "" and [undefined, undefined, onyomi] |
| LegacyLessons.LeftoverKeyCollapsesReadings | src/routes/lessons/get_lessons.ts:138-177 | as written, the readings ひ and にち of 日 share the key "" and collapse into one entry |
| LegacyLessons.LeftoverKeyAcceptsTwoReadings | src/routes/lessons/get_lessons.ts:175-185 | as written, that two-reading word passes the single-reading check; keyed by reading it throws |
| LegacyLessons.TextsOfType | src/routes/lessons/get_lessons.ts:30-38 | the reading texts of one type, in order: an order-preserving subsequence of all reading texts that lists every reading of that type and no reading of another |
| LegacyLessons.ReadingTypesPartition | src/routes/lessons/get_lessons.ts:26-43 | the kunyomi, onyomi and nanori lists together hold exactly the readings |
| LegacyLessons.StringMap | src/routes/lessons/get_lessons.ts:190 | one entry per type: "not_a_kanji" exactly for undefined, otherwise the type |
| LegacyLessons.SubjectLessons | src/routes/lessons/get_lessons.ts:21-212 | is `LessonsOf`, whose outcomes per kind the four lemmas above state |
| LegacyLessons.LessonsOfAboutSubject | src/routes/lessons/get_lessons.ts:21-212 | every lesson of a subject carries its id, level and object name, and one of them needs level 0 |
| LegacyLessons.KanjiLessonsOf | src/routes/lessons/get_lessons.ts:24-69 | kanji always succeed with three lessons: the readings split by type, then both reading/meaning directions over every reading and the meanings |
| LegacyLessons.VocabularyLessonsOf | src/routes/lessons/get_lessons.ts:70-196 | a failed scan is the vocabulary error; after a successful scan, success exactly when the word has one distinct reading; then five lessons, both symbol directions, both reading directions and the kanji types |
| LegacyLessons.RadicalLessonsOf | src/routes/lessons/get_lessons.ts:197-211 | a radical succeeds exactly when it has characters, with one symbol "to meanings" lesson, else "No characters"; any other object is an unsupported subject type |
| LegacyLessons.FilterByLevel | src/routes/lessons/get_lessons.ts:217 | an order-preserving subsequence holding exactly the lessons whose older table level is at most their skill level |
| LegacyLessons.FilterByLevelCount | src/routes/lessons/get_lessons.ts:217 | the filter keeps every copy of a lesson that meets the older table and no copy of one that does not |
| LegacyLessons.FilterByLevelPermutes | src/routes/lessons/get_lessons.ts:216-217 | filtering a reordering gives a reordering of the filtered lessons |
| LegacyLessons.BatchFromSubjects | src/routes/lessons/get_lessons.ts:20-215 | appending a subject's lessons keeps every lesson tied to a subject |
| LegacyLessons.BatchIntroduces | src/routes/lessons/get_lessons.ts:20-215 | appending a subject's lessons, which include a level-0 one, keeps a level-0 lesson of every subject so far |
| LegacyLessons.AllLessonsFromSubjects | src/routes/lessons/get_lessons.ts:20-215 | every lesson of the concatenated subject lessons carries a subject's id and level, and every subject has a level-0 lesson among them |
| LegacyLessons.FilterFromSubjects | src/routes/lessons/get_lessons.ts:216-217 | reordering and filtering keep every lesson tied to a subject |
| LegacyLessons.FilterKeepsIntroductions | src/routes/lessons/get_lessons.ts:216-217 | reordering and filtering keep a lesson of every subject with a non-negative level |
| LegacyLessons.AllLessonsStep | src/routes/lessons/get_lessons.ts:20-215 | one more subject appends its lessons, in order, to the concatenation of the earlier subjects' lessons |
| LegacyLessons.CollectLessons | src/routes/lessons/get_lessons.ts:20-215 | succeeds exactly when every subject's lessons do, otherwise with the error of a failing subject; on success exactly the concatenated lessons of all subjects |
| LegacyLessons.GetLessons | src/routes/lessons/get_lessons.ts:16-218 | succeeds exactly when every subject's lessons do, and otherwise fails with the error of a failing subject; on success a reordering of exactly the lessons of all subjects that meet the older table, none dropped and none added; ordered by skill level; every subject with a non-negative level keeps a lesson |
| DateGen.GetNextDateOffset | apps/web/src/lib/scripts/universal/date_gen.ts:7-14 | offset(n) is 0 for n <= 1 |
| DateGen.OffsetIsFold | apps/web/src/lib/scripts/universal/date_gen.ts:7-14 | for n >= 1 the offset is the accumulator after n-1 steps from 0; negative n behaves like 0 |
| DateGen.FoldNonNegative | apps/web/src/lib/scripts/universal/date_gen.ts:12 | with an increasing step the accumulator stays non-negative |
| DateGen.FoldLowerBound | apps/web/src/lib/scripts/universal/date_gen.ts:12 | after k steps the accumulator is at least 1.1·k |
| DateGen.FoldStrictlyIncreasing | apps/web/src/lib/scripts/universal/date_gen.ts:12 | more steps give a strictly larger accumulator |
| DateGen.OffsetStrictlyIncreasing | apps/web/src/lib/scripts/universal/date_gen.ts:7-14 | the offset strictly increases from n = 1 on |
| DateGen.OffsetMonotone | apps/web/src/lib/scripts/universal/date_gen.ts:7-14 | the offset is non-decreasing in n |
| DateGen.NextDateAfterNow | apps/web/src/lib/scripts/universal/date_gen.ts:16-18 | the next date is now plus offset hours: never before now, and later for more reviews |
| DateGen.ReverseGetNextDate | apps/web/src/lib/scripts/universal/date_gen.ts:20-26 | returns the least n whose offset reaches the given hours |
| DateGen.ReverseOfNonPositive | apps/web/src/lib/scripts/universal/date_gen.ts:21-22 | the search returns 0 for every non-positive offset |
| DateGen.ReverseRoundTrip | apps/web/src/lib/scripts/universal/date_gen.ts:7-26 | searching for offset(n) returns n for n >= 2, and 0 for n <= 1 |
| Corpus.Digit | src/lib/scripts/universal/wanikani_data.ts:175-177 | a digit value's character is a decimal digit |
| Corpus.DigitValue | src/lib/scripts/universal/wanikani_data.ts:175-177 | the value of a decimal digit character, inverse of `Digit` |
| Corpus.Decimal | src/lib/scripts/universal/wanikani_data.ts:175-177 | a non-empty string of decimal digits |
| Corpus.IntString | src/lib/scripts/universal/wanikani_data.ts:175-177 | `toString` of a non-negative id is its decimal; of a negative id it starts with a non-digit |
| Corpus.LeadingDigits | src/lib/scripts/universal/wanikani_data/wanikani_data.ts:10 | the length of the longest all-digit prefix |
| Corpus.ParseInt | src/lib/scripts/universal/wanikani_data/wanikani_data.ts:10 | NaN exactly for a string that does not start with a digit |
| Corpus.DecimalValue | src/lib/scripts/universal/wanikani_data.ts:175-177 | the decimal digits of n have value n |
| Corpus.ParseDecimal | src/lib/scripts/universal/wanikani_data/wanikani_data.ts:10 | `parseInt` reads back the decimal of n as n |
| Corpus.DecimalInjective | src/lib/scripts/universal/wanikani_data.ts:175-177 | different ids have different decimal keys |
| Corpus.ValuesFor | src/lib/scripts/universal/wanikani_data/wanikani_data.ts:12-17 | the values paired with a key, in order: exactly those pairs' values |
| Corpus.ValuesForAppend | src/lib/scripts/universal/wanikani_data/wanikani_data.ts:12-17 | a new pair extends the list of its own key only |
| Corpus.GroupByLookup | src/lib/scripts/universal/wanikani_data/wanikani_data.ts:12-17 | the grouped map holds a key exactly when some pair has it, and then lists that key's values in order |
| Corpus.LevelPairs | src/lib/scripts/universal/wanikani_data/wanikani_data.ts:8-11 | one (level, id) pair per entry, in entry order |
| Corpus.BuildLevelIndex | src/lib/scripts/universal/wanikani_data/wanikani_data.ts:7-17 | the `reduce` loop builds the grouping of the (level, id) pairs |
| Corpus.AtLevel | src/lib/scripts/universal/wanikani_data/wanikani_data.ts:7-17 | the entries of a level |
| Corpus.LevelValues | src/lib/scripts/universal/wanikani_data/wanikani_data.ts:7-17 | the ids grouped under a level are the ids of that level's entries, in entry order |
| Corpus.LevelIndexLists | src/lib/scripts/universal/wanikani_data.ts:149-159 | the level index holds a level exactly when some subject has it, and lists every such id under it in entry order |
| Corpus.EntryReadingPairs | src/lib/scripts/universal/wanikani_data/wanikani_data.ts:22-29 | one (reading, id) pair per reading of a non-radical subject, none for a radical |
| Corpus.PushReadings | src/lib/scripts/universal/wanikani_data/wanikani_data.ts:23-29 | the inner `forEach` appends the subject's id under each of its readings |
| Corpus.BuildReadingIndex | src/lib/scripts/universal/wanikani_data/wanikani_data.ts:19-31 | the `reduce` loop builds the grouping of the (reading, id) pairs |
| Corpus.ReadingPairsMembers | src/lib/scripts/universal/wanikani_data/wanikani_data.ts:19-31 | a (reading, id) pair occurs exactly when a non-radical subject with that id has that reading |
| Corpus.ReadingIndexLists | src/lib/scripts/universal/wanikani_data.ts:161-173 | the reading index holds a reading exactly when a non-radical subject has it, and lists exactly the ids of those subjects |
| Corpus.BuildKanjiIndex | src/lib/scripts/universal/wanikani_data/wanikani_data.ts:32-47 | the `reduce` loop computes `KanjiIndexOf`, stopping at the first duplicate |
| Corpus.KanjiIndexErrorSticks | src/lib/scripts/universal/wanikani_data/wanikani_data.ts:40-41 | once a duplicate symbol throws, the later entries do not matter |
| Corpus.KanjiIndexDistinct | src/lib/scripts/universal/wanikani_data/wanikani_data.ts:32-47 | the kanji index is built exactly when the kanji symbols are distinct, and then has one key per kanji symbol |
| Corpus.KanjiIndexMaps | src/lib/scripts/universal/wanikani_data/wanikani_data.ts:38-44 | each kanji's symbol maps to its id |
| Corpus.KanjiIndexErrorIsDuplicate | src/lib/scripts/universal/wanikani_data/wanikani_data.ts:40-41 | the only error while building is "Duplicate symbol" |
| Corpus.KanjiSymbolsOf | src/lib/scripts/universal/wanikani_data/wanikani_data.ts:35-38 | a symbol is listed exactly when some kanji entry has it |
| Corpus.IdIndexLookup | src/lib/scripts/universal/wanikani_data/wanikani_data.ts:6 | the id index holds a key exactly when it is the decimal of an entry's id, and maps it to that entry |
| Corpus.Load | src/lib/scripts/universal/wanikani_data/wanikani_data.ts:6-47 | loading succeeds exactly when the kanji symbols are distinct, and then yields the four indexes of the entries; otherwise "Duplicate symbol" |
| Corpus.GetSubjectByIdFinds | src/lib/scripts/universal/wanikani_data/wanikani_data.ts:49-51 | every entry is found by its id |
| Corpus.GetSubjectByIdNegative | src/lib/scripts/universal/wanikani_data.ts:175-177 | a negative id finds nothing |
| Corpus.GetSubjectByKeyFinds | src/lib/scripts/universal/wanikani_data/wanikani_data.ts:66 | every entry is found by the `parseInt` of its decimal key |
| Corpus.Found | src/lib/scripts/universal/wanikani_data/wanikani_data.ts:58 | each entry's subject, in order |
| Corpus.GetSubjectsByLevelSpec | src/lib/scripts/universal/wanikani_data/wanikani_data.ts:53-59 | throws exactly for a level with no subjects; otherwise returns that level's subjects in entry order |
| Corpus.GetSubjectsByReadingSpec | src/lib/scripts/universal/wanikani_data/wanikani_data.ts:61-67 | throws exactly for a reading no non-radical subject has; otherwise returns exactly the subjects with that reading |
| Corpus.GetSubjectByKanjiSpec | src/lib/scripts/universal/wanikani_data/wanikani_data.ts:69-79 | never throws (the index holds only kanji); undefined exactly for an unknown symbol; otherwise the kanji with that symbol |
| Session.ValidateAmount | apps/web/src/routes/api/user/get_lesson_subjects/+server.ts:16-21 | the amount is accepted exactly in 1..100; otherwise a 400 |
| Session.ProgressStore.FindDue | apps/web/src/routes/api/user/get_lesson_subjects/+server.ts:23-39 | min(amount, due count) of the progress' due rows, latest first; no left-out due row is later than a returned one |
| Session.ProgressStore.FindNextDay | apps/web/src/routes/api/user/get_lesson_subjects/+server.ts:42-58 | exactly the rows with now <= next_review < now + 24 h, latest first |
| Session.ProgressStore.TrackedAt | apps/web/src/routes/api/user/get_lesson_subjects/+server.ts:83-93 | exactly the subject ids the progress tracks at the level |
| Session.ProgressStore.Create | apps/web/src/routes/api/user/get_lesson_subjects/+server.ts:106-113 | the new record is appended; the current levels are unchanged |
| Session.DueRows | apps/web/src/routes/api/user/get_lesson_subjects/+server.ts:24-29 | exactly the progress' rows with next_review <= now |
| Session.WindowRows | apps/web/src/routes/api/user/get_lesson_subjects/+server.ts:43-49 | exactly the progress' rows in [from, until) |
| Session.TrackedIds | apps/web/src/routes/api/user/get_lesson_subjects/+server.ts:83-93 | exactly the subject ids of the progress' rows at the level |
| Session.DueBefore | apps/web/src/routes/api/user/get_lesson_subjects/+server.ts:26-28 | every due row has next_review <= now |
| Session.TakeLatest | apps/web/src/routes/api/user/get_lesson_subjects/+server.ts:30-38 | the first n rows of a latest-first ordering are latest-first, come from the rows, and none of the rest is later |
| Session.HighSkill | apps/web/src/routes/api/user/get_lesson_subjects/+server.ts:63-65 | exactly the lessons with skill level above 5, in order |
| Session.HighSkillAppend | apps/web/src/routes/api/user/get_lesson_subjects/+server.ts:59-66 | the admitted lessons of a concatenation are those of each part |
| Session.Take | apps/web/src/routes/api/user/get_lesson_subjects/+server.ts:103 | `slice(0, n)`: the first min(n, length) elements |
| Session.HighSkillStep | apps/web/src/routes/api/user/get_lesson_subjects/+server.ts:63-65 | one more next-day row adds itself to the admitted lessons exactly when its skill level is above 5 |
| Session.BackfillStep | apps/web/src/routes/api/user/get_lesson_subjects/+server.ts:59-66 | one pass of the loop keeps the batch equal to the earlier lessons followed by the admitted next-day rows seen so far |
| Session.BackfillStops | apps/web/src/routes/api/user/get_lesson_subjects/+server.ts:59-62 | stopping when the batch is full, or at the end of the rows, leaves exactly the first admitted lessons that fit |
| Session.Backfill | apps/web/src/routes/api/user/get_lesson_subjects/+server.ts:59-66 | the batch gains the next-day lessons with skill level above 5, in order, until it holds `amount` |
| Session.Untracked | apps/web/src/routes/api/user/get_lesson_subjects/+server.ts:95-102 | an order-preserving subsequence of the level's subjects, holding exactly those not tracked yet |
| Session.NewRows | apps/web/src/routes/api/user/get_lesson_subjects/+server.ts:106-113 | one record per id: that subject, due now, at the level |
| Session.AddNewSubjects | apps/web/src/routes/api/user/get_lesson_subjects/+server.ts:68-120 | 500 without a current level; otherwise the first `amount_to_add` untracked subjects of the level are created in catalogue order and returned |
| Session.CreateRows | apps/web/src/routes/api/user/get_lesson_subjects/+server.ts:104-116 | one record is created per id, in order, and its lesson returned |
| Session.Dedup | apps/web/src/routes/api/user/get_lesson_subjects/+server.ts:125-134 | never longer than the batch |
| Session.DedupKeepsFirst | apps/web/src/routes/api/user/get_lesson_subjects/+server.ts:125-134 | a lesson is kept exactly when it sits at the first position of its subject id, so of a repeated subject the first copy is kept |
| Session.DedupIds | apps/web/src/routes/api/user/get_lesson_subjects/+server.ts:125-134 | the kept subject ids are exactly the batch's subject ids: none lost, none added |
| Session.DedupDistinct | apps/web/src/routes/api/user/get_lesson_subjects/+server.ts:125-134 | the kept subject ids are pairwise distinct |
| Session.DedupSubsequence | apps/web/src/routes/api/user/get_lesson_subjects/+server.ts:125-134 | the kept lessons are an order-preserving subsequence of the batch |
| Session.DedupOfDistinct | apps/web/src/routes/api/user/get_lesson_subjects/+server.ts:125-134 | a batch without repeated subjects is kept whole |
| Session.FillBatch | apps/web/src/routes/api/user/get_lesson_subjects/+server.ts:22-122 | the due stage answers with the latest `amount` due rows; when it falls short the next-day stage answers with the day's rows; the batch is the due rows topped up with high-skill next-day rows, then the created records, which are appended to the store; a 500 exactly when the batch is short and the progress has no current level, with nothing created; never more than `amount`, all admissible |
| Session.TopUp | apps/web/src/routes/api/user/get_lesson_subjects/+server.ts:41-122 | after a short due stage, the batch is the due rows plus the first high-skill next-day rows, then the records created for the missing places, which are appended to the store; a 500 exactly without a current level, with nothing created; within `amount`, admissible; created records are new subjects of the current level, due now |
| Session.BackfillAdmissible | apps/web/src/routes/api/user/get_lesson_subjects/+server.ts:59-66 | backfilled lessons are next-day rows with skill level above 5 |
| Session.NewRowsAdmissible | apps/web/src/routes/api/user/get_lesson_subjects/+server.ts:83-120 | at most `amount_to_add` records are created, each for an untracked subject of the current level, due now, and appended after the existing records |
| Session.StagesAdmissible | apps/web/src/routes/api/user/get_lesson_subjects/+server.ts:22-122 | whatever the two queries answer, the backfilled batch stays within `amount` and admissible; the new-subject stage fails only with a 500 for a short batch without a current level, and otherwise keeps the batch within `amount`, every created record being a new subject of the current level, due now |
| Session.AssembleSession | apps/web/src/routes/api/user/get_lesson_subjects/+server.ts:14-149 | a 400 exactly for an amount outside 1..100; a 500 exactly when the backfilled batch is short and the progress has no current level, with nothing created; otherwise the de-duplicated concatenation of the backfilled batch and the created records, which are appended to the store; at most `amount` lessons with distinct subject ids, each a due row, a high-skill next-day row or a created record |
| LegacySession.AssembleLegacySession | src/routes/api/user/get_lesson_subjects/+server.ts:10-115 | a 400 exactly for a bad amount; a 500 exactly when records are to be added and the current level is falsy, has no subjects or yields an unknown subject, with nothing created; otherwise the latest min(amount, due) due rows, latest first, none later left out; records are created only when due < amount and due + next-day < 20, exactly the first 20 − total untracked subjects of the current level |
| LegacySession.LegacyToAdd | src/routes/api/user/get_lesson_subjects/+server.ts:54-88 | at most 20 minus the due and next-day total, all untracked subjects of the level |
| LegacySession.OldestEndpoint | src/routes/api/user/get_lesson_subjects.ts:17-151 | a 401 with the store unchanged on failed authentication; otherwise the same outcome rules as the staged assembly: 400 exactly for a bad amount, 500 exactly when adding fails, the latest due rows as the response and the new records appended only when adding |

## Left out

- Fetching and I/O are not modelled. This covers the `fetch` of the kanji map, `get_lesson_subjects`, `get_by_readings` and the Prisma queries. Their results are parameters, or reads of the `ProgressStore` object.
- The subject attached to each session lesson is not modelled. In the web app `get_subject_by_id` reads it from the database. The backend repository (`wanikani_data.server`) is not part of this model.
- The newer session endpoint takes its catalogue from that same repository, so the catalogue is a map from level to ids. A level missing from the map gives no new subjects.
- Authentication and request-body parsing are not modelled. `get_auth_user_data` and `get_request_body` are not part of this model. The session methods receive the progress id and the amount, and the oldest endpoint receives the authentication result.
- The error message bodies are not modelled. For example, the 401 body's message and the text of "Multiple viable" are left out; only the error kind and the HTTP status are kept.
- `sample`, `Math.random` and the order of rows with equal `next_review` are nondeterministic choices. The model proves what holds for every choice.
- The floating-point interval step is a parameter over reals, so floating-point rounding is not captured.
- The initial `skill_level` of a created progress record is taken as 0 (`Session.InitialSkill`). The database schema that sets it is not part of this model.
- The kanji map's readings lose their ids. `arr_identical` compares reading objects by reference; the model compares reading values.
- Promise.all's concurrency is not modelled. The model creates records and builds lessons one subject at a time, in order. Which failing subject's error `Promise.all` rejects with depends on timing, so the lesson contracts only promise the error of some failing subject.
- In the older endpoints, a subject unknown to `get_subject_by_id` throws inside `map`, before any Prisma query is awaited. The model therefore creates nothing in that case.
- `Corpus.ParseInt` does not handle signs or leading whitespace, and the model does not need them: every key it parses is produced by `toString` of a non-negative id.
- The entries of the bundled data are assumed to be in ascending id order (`Corpus.Ordered`), which is the order `Object.entries` gives integer keys.
- Progress ids are integers, of which only equality is used. The amount is an integer, although the endpoint's zod schema also accepts non-integer numbers.
- Skill levels are natural numbers (`SubjectKinds.ParseLessonSubject`), although the lesson-subject schema (`z.number().min(0)`) also accepts non-integer levels.
- LegacyLessons.SubjectLessons: keys each vocabulary scan by its reading (the corrected behaviour, see Findings), not by the leftover reading as written. So 日 read ひ and にち is refused with "Multiple Vocabulary reading" here, where the code as written accepts it; `LessonsOf`, `VocabularyLessonsOf`, `CollectLessons` and `GetLessons` follow the same correction, and `LeftoverKeyAcceptsTwoReadings` models the code as written.
- Strings are sequences of characters. JavaScript strings index UTF-16 code units, so `character_string[0]`, `slice(1)` and `length` differ from the model on characters outside the Basic Multilingual Plane (some rare kanji).
- Decomposition.DecomposeReading: passes a character through after the small tsu `っ` that the literal evidently stands for, not after the literal as written; see Findings.
- The unused `date_diff` is not modelled, and neither are the commented-out `kanji_nan_kun_on_yomi` and `vocabulary_kun_on_yomi` pushes of the newer generator.

## Findings

| source | as written | input that shows it | evidently intended | confidence | as-written member | corrected member |
|---|---|---|---|---|---|---|
| apps/web/src/routes/lessons/get_lessons.ts:244 | the small-tsu literal is the two characters U+00E3 U+00A3, so `'ã£' + c` has three characters and never equals the two-character `r.slice(0, 2)` | word と with reading っと: the passthrough test fails, and と (not a kanji) throws "Invalid character" | `'っ' + c === r.slice(0, 2)`, letting a character preceded by a small tsu pass through | high, not executed | Decomposition.TsuLiteralNeverMatches | Decomposition.SmallTsuConsumesOneCharacter |
| src/routes/lessons/get_lessons.ts:175 | each entry is keyed by the leftover reading `r`, so every fully consumed reading gets the key "" and later ones overwrite earlier ones | 日 with readings ひ and にち: one entry, so the "Multiple Vocabulary reading" check at line 179 passes | key by the reading `r_ref.reading`, so a word with two readings throws at line 179 | high, not executed | LegacyLessons.LeftoverKeyAcceptsTwoReadings | LegacyLessons.ReadingKeyedSingle |

=== FILE: corpus.dfy ===
/** The in-memory subject indexes of the older app
    (src/lib/scripts/universal/wanikani_data/wanikani_data.ts, and the earlier
    src/lib/scripts/universal/wanikani_data.ts whose level and reading
    indexes and getters are the same code). The corpus is a record keyed by
    the decimal string of each subject id; at load time it is folded into a
    level index, a reading index and a kanji-symbol index, and the `get_*`
    functions read those indexes back. */
module Corpus {
  import opened Results
  import opened SeqUtil
  import opened SubjectKinds

  /** An outer subject record: its `object` kind and the fields of `data`
      the indexes read. */
  datatype CorpusSubject = CorpusSubject(kind: SubjectType, level: int, characters: string, readings: seq<string>)

  /** One `[key, value]` pair of `Object.entries` over the corpus record: the
      key is the decimal string of `id`. */
  datatype Entry = Entry(id: nat, subject: CorpusSubject)

  /** `Object.entries` lists integer-like keys in ascending numeric order. */
  predicate Ordered(es: seq<Entry>)
  {
    forall i, j :: 0 <= i < j < |es| ==> es[i].id < es[j].id
  }

  datatype CorpusError =
    | DuplicateSymbol(symbol: string)
    | NoSubjectsForLevel(level: int)
    | NoSubjectsForReading(reading: string)
    | NotAKanji(id: string)
    | UndefinedSubject(id: string)     // `.object` read on `undefined`

  // ---------------------------------------------------------------------
  // Decimal keys: `id.toString()` and `parseInt(id)`

  predicate IsDigit(c: char)
  {
    '0' <= c <= '9'
  }

  function Digit(d: nat): (c: char)
    requires d < 10
    ensures IsDigit(c)
  {
    (('0' as int) + d) as char
  }

  function DigitValue(c: char): (d: nat)
    requires IsDigit(c)
    ensures d < 10 && Digit(d) == c
  {
    (c as int) - ('0' as int)
  }

  /** `n.toString()` for a natural number. */
  function Decimal(n: nat): (s: string)
    ensures |s| > 0 && forall i :: 0 <= i < |s| ==> IsDigit(s[i])
  {
    if n < 10 then [Digit(n)] else Decimal(n / 10) + [Digit(n % 10)]
  }

  /** `i.toString()` for any integer: a minus sign before a negative one. */
  function IntString(i: int): (s: string)
    ensures i >= 0 ==> s == Decimal(i)
    ensures i < 0 ==> |s| > 0 && !IsDigit(s[0])
  {
    if i < 0 then "-" + Decimal(-i) else Decimal(i)
  }

  function DigitsValue(s: string): nat
    requires forall i :: 0 <= i < |s| ==> IsDigit(s[i])
  {
    if s == [] then 0 else DigitsValue(s[..|s| - 1]) * 10 + DigitValue(s[|s| - 1])
  }

  /** The length of the run of digits at the front of s. */
  function LeadingDigits(s: string): (k: nat)
    ensures k <= |s|
    ensures forall i :: 0 <= i < k ==> IsDigit(s[i])
    ensures k < |s| ==> !IsDigit(s[k])
  {
    if s == [] || !IsDigit(s[0]) then 0 else 1 + LeadingDigits(s[1..])
  }

  /** `parseInt(s)`: the value of the leading digits, or NaN (None) when
      there are none. Signs and leading blanks are not modelled: every key
      of the corpus is a decimal. */
  function ParseInt(s: string): (r: Option<nat>)
    ensures r.None? <==> s == [] || !IsDigit(s[0])
  {
    var k := LeadingDigits(s);
    if k == 0 then None else Some(DigitsValue(s[..k]))
  }

  lemma {:induction false} DecimalValue(n: nat)
    ensures DigitsValue(Decimal(n)) == n
  {
    if n >= 10 {
      DecimalValue(n / 10);
      var s := Decimal(n);
      assert s[..|s| - 1] == Decimal(n / 10);
    }
  }

  /** `parseInt(id.toString())` gives the id back. */
  lemma ParseDecimal(n: nat)
    ensures ParseInt(Decimal(n)) == Some(n)
  {
    var s := Decimal(n);
    assert LeadingDigits(s) == |s|;
    assert s[..|s|] == s;
    DecimalValue(n);
  }

  /** Different ids have different keys. */
  lemma DecimalInjective(m: nat, n: nat)
    requires Decimal(m) == Decimal(n)
    ensures m == n
  {
    ParseDecimal(m);
    ParseDecimal(n);
  }

  // ---------------------------------------------------------------------
  // Grouping into a `Map<K, Array<V>>`

  /** The map a sequence of pairs is folded into by `get(k) ?? []`, `push`
      and `set`: each value is appended under its key. */
  function GroupBy<K, V>(ps: seq<(K, V)>): map<K, seq<V>>
  {
    if ps == [] then map[]
    else
      var g := GroupBy(ps[..|ps| - 1]);
      var p := ps[|ps| - 1];
      g[p.0 := (if p.0 in g then g[p.0] else []) + [p.1]]
  }

  /** One more pair appends its value under its key. */
  lemma GroupBySnoc<K, V>(ps: seq<(K, V)>, p: (K, V))
    ensures var g := GroupBy(ps);
            GroupBy(ps + [p]) == g[p.0 := (if p.0 in g then g[p.0] else []) + [p.1]]
  {
    assert (ps + [p])[..|ps|] == ps;
  }

  /** The values paired with k, in order. */
  function ValuesFor<K(==, !new), V(!new)>(ps: seq<(K, V)>, k: K): (vs: seq<V>)
    ensures forall v :: v in vs <==> (k, v) in ps
  {
    if ps == [] then []
    else
      var rest := ValuesFor(ps[1..], k);
      assert forall p :: p in ps <==> p == ps[0] || p in ps[1..];
      (if ps[0].0 == k then [ps[0].1] else []) + rest
  }

  lemma {:induction false} ValuesForAppend<K(!new), V(!new)>(ps: seq<(K, V)>, p: (K, V), k: K)
    ensures ValuesFor(ps + [p], k) == ValuesFor(ps, k) + (if p.0 == k then [p.1] else [])
  {
    if ps != [] {
      assert (ps + [p])[1..] == ps[1..] + [p];
      ValuesForAppend(ps[1..], p, k);
    } else {
      assert [p][1..] == [];
    }
  }

  /** A key is in the grouped map exactly when some pair carries it, and it
      then maps to all the values paired with it, in order. */
  lemma {:induction false} GroupByLookup<K(!new), V(!new)>(ps: seq<(K, V)>, k: K)
    ensures k in GroupBy(ps) <==> ValuesFor(ps, k) != []
    ensures k in GroupBy(ps) ==> GroupBy(ps)[k] == ValuesFor(ps, k)
  {
    if ps != [] {
      var init, p := ps[..|ps| - 1], ps[|ps| - 1];
      assert ps == init + [p];
      GroupByLookup(init, k);
      ValuesForAppend(init, p, k);
    }
  }

  // ---------------------------------------------------------------------
  // The level index

  /** The `[level, parseInt(id)]` pairs of the corpus. */
  function LevelPairs(es: seq<Entry>): (ps: seq<(int, nat)>)
    ensures |ps| == |es| && forall i :: 0 <= i < |es| ==> ps[i] == (es[i].subject.level, es[i].id)
  {
    seq(|es|, i requires 0 <= i < |es| => (es[i].subject.level, es[i].id))
  }

  /** The level index (the `reduce` over the pairs). */
  method BuildLevelIndex(es: seq<Entry>) returns (index: map<int, seq<nat>>)
    ensures index == GroupBy(LevelPairs(es))
  {
    var pairs := LevelPairs(es);
    index := map[];
    for i := 0 to |pairs|
      invariant index == GroupBy(pairs[..i])
    {
      var (level, id) := pairs[i];
      var ids := if level in index then index[level] else [];
      ids := ids + [id];
      index := index[level := ids];
      assert pairs[..i + 1][..i] == pairs[..i];
    }
    assert pairs[..|pairs|] == pairs;
  }

  /** The entries at one level, in corpus order. */
  function AtLevel(es: seq<Entry>, level: int): (r: seq<Entry>)
    ensures forall e :: e in r <==> e in es && e.subject.level == level
  {
    if es == [] then []
    else
      assert forall e :: e in es <==> e == es[0] || e in es[1..];
      (if es[0].subject.level == level then [es[0]] else []) + AtLevel(es[1..], level)
  }

  function Ids(es: seq<Entry>): (ids: seq<nat>)
    ensures |ids| == |es| && forall i :: 0 <= i < |es| ==> ids[i] == es[i].id
  {
    seq(|es|, i requires 0 <= i < |es| => es[i].id)
  }

  lemma {:induction false} LevelValues(es: seq<Entry>, level: int)
    ensures ValuesFor(LevelPairs(es), level) == Ids(AtLevel(es, level))
  {
    if es != [] {
      assert LevelPairs(es)[1..] == LevelPairs(es[1..]);
      LevelValues(es[1..], level);
    }
  }

  /** The level index lists, under each level that occurs, the ids of the
      subjects at that level in corpus order, and has no other key. */
  lemma LevelIndexLists(es: seq<Entry>, level: int)
    ensures var index := GroupBy(LevelPairs(es));
            && (level in index <==> AtLevel(es, level) != [])
            && (level in index ==> index[level] == Ids(AtLevel(es, level)))
  {
    GroupByLookup(LevelPairs(es), level);
    LevelValues(es, level);
  }

  // ---------------------------------------------------------------------
  // The reading index

  /** The readings an entry indexes: a radical's are not read. */
  function IndexedReadings(s: CorpusSubject): seq<string>
  {
    if s.kind != RADICAL then s.readings else []
  }

  /** The `[reading, id]` pairs one entry pushes, in its reading order. */
  function EntryReadingPairs(e: Entry): (ps: seq<(string, string)>)
    ensures |ps| == |IndexedReadings(e.subject)|
    ensures forall j :: 0 <= j < |ps| ==> ps[j] == (IndexedReadings(e.subject)[j], Decimal(e.id))
  {
    var rs := IndexedReadings(e.subject);
    seq(|rs|, j requires 0 <= j < |rs| => (rs[j], Decimal(e.id)))
  }

  /** All `[reading, id]` pairs of the corpus, entry by entry. */
  function ReadingPairs(es: seq<Entry>): seq<(string, string)>
  {
    if es == [] then [] else ReadingPairs(es[..|es| - 1]) + EntryReadingPairs(es[|es| - 1])
  }

  /** The inner `forEach`: push the entry's id under each of its readings. */
  method PushReadings(index: map<string, seq<string>>, ghost done: seq<(string, string)>, e: Entry)
    returns (updated: map<string, seq<string>>)
    requires index == GroupBy(done)
    ensures updated == GroupBy(done + EntryReadingPairs(e))
  {
    var id := Decimal(e.id);
    var readings := if e.subject.kind != RADICAL then e.subject.readings else [];
    ghost var pairs := EntryReadingPairs(e);
    updated := index;
    assert done + pairs[..0] == done;
    for k := 0 to |readings|
      invariant updated == GroupBy(done + pairs[..k])
    {
      var reading := readings[k];
      assert pairs[k] == (reading, id);
      assert done + pairs[..k + 1] == (done + pairs[..k]) + [(reading, id)];
      GroupBySnoc(done + pairs[..k], (reading, id));
      if reading in updated {
        updated := updated[reading := updated[reading] + [id]];
      } else {
        ghost var none: seq<string> := [];
        assert none + [id] == [id];
        updated := updated[reading := [id]];
      }
    }
    assert pairs[..|readings|] == pairs;
  }

  /** The reading index (the `reduce` over the entries). */
  method BuildReadingIndex(es: seq<Entry>) returns (index: map<string, seq<string>>)
    ensures index == GroupBy(ReadingPairs(es))
  {
    index := map[];
    for i := 0 to |es|
      invariant index == GroupBy(ReadingPairs(es[..i]))
    {
      assert es[..i + 1][..i] == es[..i];
      index := PushReadings(index, ReadingPairs(es[..i]), es[i]);
    }
    assert es[..|es|] == es;
  }

  /** A subject that the reading index lists under a reading. */
  predicate HasIndexedReading(e: Entry, reading: string)
  {
    e.subject.kind != RADICAL && reading in e.subject.readings
  }

  /** Some kanji or vocabulary subject with this key has this reading. */
  ghost predicate IndexedUnder(es: seq<Entry>, reading: string, id: string)
  {
    exists i :: 0 <= i < |es| && HasIndexedReading(es[i], reading) && id == Decimal(es[i].id)
  }

  lemma {:induction false} ReadingPairsMembers(es: seq<Entry>, reading: string, id: string)
    ensures (reading, id) in ReadingPairs(es) <==> IndexedUnder(es, reading, id)
  {
    if es != [] {
      var init, e := es[..|es| - 1], es[|es| - 1];
      ReadingPairsMembers(init, reading, id);
      var pairs := EntryReadingPairs(e);
      if (reading, id) in pairs {
        var j :| 0 <= j < |pairs| && pairs[j] == (reading, id);
        assert IndexedReadings(e.subject)[j] == reading;
        assert HasIndexedReading(es[|es| - 1], reading);
      }
      if HasIndexedReading(e, reading) && id == Decimal(e.id) {
        var j :| 0 <= j < |e.subject.readings| && e.subject.readings[j] == reading;
        assert pairs[j] == (reading, id);
      }
      if IndexedUnder(es, reading, id) {
        var i :| 0 <= i < |es| && HasIndexedReading(es[i], reading) && id == Decimal(es[i].id);
        if i < |es| - 1 {
          assert init[i] == es[i];
        }
      }
      if IndexedUnder(init, reading, id) {
        var i :| 0 <= i < |init| && HasIndexedReading(init[i], reading) && id == Decimal(init[i].id);
        assert init[i] == es[i];
      }
    }
  }

  /** The reading index lists under a reading the keys of exactly the kanji
      and vocabulary subjects with that reading, and has a key exactly for
      the readings some such subject has. */
  lemma ReadingIndexLists(es: seq<Entry>, reading: string)
    ensures var index := GroupBy(ReadingPairs(es));
            && (reading in index <==> exists i :: 0 <= i < |es| && HasIndexedReading(es[i], reading))
            && (reading in index ==> forall id :: id in index[reading] <==> IndexedUnder(es, reading, id))
  {
    var ps := ReadingPairs(es);
    GroupByLookup(ps, reading);
    forall id ensures id in ValuesFor(ps, reading) <==> IndexedUnder(es, reading, id) {
      ReadingPairsMembers(es, reading, id);
    }
    if exists i :: 0 <= i < |es| && HasIndexedReading(es[i], reading) {
      var i :| 0 <= i < |es| && HasIndexedReading(es[i], reading);
      assert IndexedUnder(es, reading, Decimal(es[i].id));
    }
    if ValuesFor(ps, reading) != [] {
      assert IndexedUnder(es, reading, ValuesFor(ps, reading)[0]);
    }
  }

  // ---------------------------------------------------------------------
  // The kanji index

  /** The symbols of the kanji entries, in corpus order. */
  function KanjiSymbols(es: seq<Entry>): seq<string>
  {
    if es == [] then []
    else
      var e := es[|es| - 1];
      KanjiSymbols(es[..|es| - 1]) + (if e.subject.kind == KANJI then [e.subject.characters] else [])
  }

  /** The kanji index as a fold: a kanji symbol already present throws. */
  function KanjiIndexOf(es: seq<Entry>): Result<map<string, string>, CorpusError>
  {
    if es == [] then Ok(map[])
    else
      var e := es[|es| - 1];
      match KanjiIndexOf(es[..|es| - 1])
      case Err(err) => Err(err)
      case Ok(m) =>
        if e.subject.kind != KANJI then Ok(m)
        else if e.subject.characters in m then Err(DuplicateSymbol(e.subject.characters))
        else Ok(m[e.subject.characters := Decimal(e.id)])
  }

  lemma {:induction false} KanjiIndexErrorSticks(es: seq<Entry>, i: nat)
    requires i <= |es| && KanjiIndexOf(es[..i]).Err?
    ensures KanjiIndexOf(es) == KanjiIndexOf(es[..i])
    decreases |es| - i
  {
    if i < |es| {
      assert es[..i + 1][..i] == es[..i];
      KanjiIndexErrorSticks(es, i + 1);
    } else {
      assert es[..i] == es;
    }
  }

  /** The kanji index (the `reduce` that throws on a duplicate symbol). */
  method BuildKanjiIndex(es: seq<Entry>) returns (r: Result<map<string, string>, CorpusError>)
    ensures r == KanjiIndexOf(es)
  {
    var index: map<string, string> := map[];
    for i := 0 to |es|
      invariant KanjiIndexOf(es[..i]) == Ok(index)
    {
      assert es[..i + 1][..i] == es[..i];
      if es[i].subject.kind != KANJI {
        continue;
      }
      var symbol := es[i].subject.characters;
      if symbol in index {
        KanjiIndexErrorSticks(es, i + 1);
        return Err(DuplicateSymbol(symbol));
      }
      index := index[symbol := Decimal(es[i].id)];
    }
    assert es[..|es|] == es;
    r := Ok(index);
  }

  /** Loading succeeds exactly when no two kanji share a symbol, and the
      index then has exactly the kanji symbols as keys. */
  lemma {:induction false} KanjiIndexDistinct(es: seq<Entry>)
    ensures KanjiIndexOf(es).Ok? <==> Distinct(KanjiSymbols(es))
    ensures KanjiIndexOf(es).Ok? ==> KanjiIndexOf(es).value.Keys == Elements(KanjiSymbols(es))
  {
    if es != [] {
      var init, e := es[..|es| - 1], es[|es| - 1];
      KanjiIndexDistinct(init);
      var syms := KanjiSymbols(init);
      if e.subject.kind == KANJI {
        DistinctAppend(syms, e.subject.characters);
        assert Elements(syms + [e.subject.characters]) == Elements(syms) + {e.subject.characters};
      } else {
        var none: seq<string> := [];
        assert KanjiSymbols(es) == syms + none == syms;
      }
    }
  }

  /** Each kanji symbol is mapped to the key of its subject. */
  lemma {:induction false} KanjiIndexMaps(es: seq<Entry>, i: nat)
    requires i < |es| && es[i].subject.kind == KANJI && KanjiIndexOf(es).Ok?
    ensures es[i].subject.characters in KanjiIndexOf(es).value
    ensures KanjiIndexOf(es).value[es[i].subject.characters] == Decimal(es[i].id)
  {
    var init, e := es[..|es| - 1], es[|es| - 1];
    if i < |es| - 1 {
      assert init[i] == es[i];
      KanjiIndexMaps(init, i);
    }
  }

  // ---------------------------------------------------------------------
  // The id index and loading

  /** The corpus record itself: each subject under the decimal string of its id. */
  function IdIndex(es: seq<Entry>): map<string, CorpusSubject>
  {
    if es == [] then map[]
    else IdIndex(es[..|es| - 1])[Decimal(es[|es| - 1].id) := es[|es| - 1].subject]
  }

  /** In a corpus with distinct ids, each entry's key leads to its subject,
      and every key is the key of an entry. */
  lemma {:induction false} IdIndexLookup(es: seq<Entry>, key: string)
    requires Ordered(es)
    ensures key in IdIndex(es) <==> exists i :: 0 <= i < |es| && key == Decimal(es[i].id)
    ensures forall i :: 0 <= i < |es| && key == Decimal(es[i].id) ==> IdIndex(es)[key] == es[i].subject
  {
    if es != [] {
      var init, e := es[..|es| - 1], es[|es| - 1];
      IdIndexLookup(init, key);
      forall i | 0 <= i < |es| && key == Decimal(es[i].id) ensures IdIndex(es)[key] == es[i].subject {
        if i < |es| - 1 {
          assert init[i] == es[i];
          if key == Decimal(e.id) {
            DecimalInjective(es[i].id, e.id);
          }
        }
      }
      if exists i :: 0 <= i < |init| && key == Decimal(init[i].id) {
        var i :| 0 <= i < |init| && key == Decimal(init[i].id);
        assert init[i] == es[i];
      }
    }
  }

  /** The module-level indexes. */
  datatype Indexes = Indexes(by_id: map<string, CorpusSubject>, by_level: map<int, seq<nat>>,
                             by_reading: map<string, seq<string>>, by_kanji: map<string, string>)

  /** The indexes that loading the corpus builds. */
  ghost predicate LoadedFrom(ix: Indexes, es: seq<Entry>)
  {
    && KanjiIndexOf(es).Ok?
    && ix == Indexes(IdIndex(es), GroupBy(LevelPairs(es)), GroupBy(ReadingPairs(es)), KanjiIndexOf(es).value)
  }

  /** Loading the module: the three folds run in order and the duplicate
      symbol check aborts the load. */
  method Load(es: seq<Entry>) returns (r: Result<Indexes, CorpusError>)
    ensures r.Ok? <==> Distinct(KanjiSymbols(es))
    ensures r.Ok? ==> LoadedFrom(r.value, es)
    ensures r.Err? ==> KanjiIndexOf(es) == Err(r.error) && r.error.DuplicateSymbol?
  {
    var by_level := BuildLevelIndex(es);
    var by_reading := BuildReadingIndex(es);
    var by_kanji := BuildKanjiIndex(es);
    KanjiIndexDistinct(es);
    KanjiIndexErrorIsDuplicate(es);
    if by_kanji.Err? {
      return Err(by_kanji.error);
    }
    r := Ok(Indexes(IdIndex(es), by_level, by_reading, by_kanji.value));
  }

  lemma {:induction false} KanjiIndexErrorIsDuplicate(es: seq<Entry>)
    ensures KanjiIndexOf(es).Err? ==> KanjiIndexOf(es).error.DuplicateSymbol?
  {
    if es != [] {
      KanjiIndexErrorIsDuplicate(es[..|es| - 1]);
    }
  }

  // ---------------------------------------------------------------------
  // The getters

  function LookupKey(ix: Indexes, key: string): Option<CorpusSubject>
  {
    if key in ix.by_id then Some(ix.by_id[key]) else None
  }

  /** `get_subject_by_id`: the record read at `id.toString()`; `undefined`
      (None) for a key the record lacks. */
  function GetSubjectById(ix: Indexes, id: int): Option<CorpusSubject>
  {
    LookupKey(ix, IntString(id))
  }

  /** `get_subject_by_id(parseInt(key))`: NaN reads the key "NaN". */
  function GetSubjectByKey(ix: Indexes, key: string): Option<CorpusSubject>
  {
    match ParseInt(key)
    case None => LookupKey(ix, "NaN")
    case Some(n) => GetSubjectById(ix, n)
  }

  /** `get_subjects_by_level`: throws for a level without ids. */
  function GetSubjectsByLevel(ix: Indexes, level: int): Result<seq<Option<CorpusSubject>>, CorpusError>
  {
    if level !in ix.by_level then Err(NoSubjectsForLevel(level))
    else
      var ids := ix.by_level[level];
      Ok(seq(|ids|, i requires 0 <= i < |ids| => GetSubjectById(ix, ids[i])))
  }

  /** `get_subjects_by_reading`: throws for an unindexed reading. */
  function GetSubjectsByReading(ix: Indexes, reading: string): Result<seq<Option<CorpusSubject>>, CorpusError>
  {
    if reading !in ix.by_reading then Err(NoSubjectsForReading(reading))
    else
      var keys := ix.by_reading[reading];
      Ok(seq(|keys|, i requires 0 <= i < |keys| => GetSubjectByKey(ix, keys[i])))
  }

  /** `get_subject_by_kanji`: undefined for an unknown symbol, and a throw
      when the subject found is not a kanji (or is missing, when `.object`
      is read on `undefined`). */
  function GetSubjectByKanji(ix: Indexes, symbol: string): Result<Option<CorpusSubject>, CorpusError>
  {
    if symbol !in ix.by_kanji then Ok(None)
    else
      var key := ix.by_kanji[symbol];
      match GetSubjectByKey(ix, key)
      case None => Err(UndefinedSubject(key))
      case Some(s) => if s.kind != KANJI then Err(NotAKanji(key)) else Ok(Some(s))
  }

  // ---------------------------------------------------------------------
  // What the getters return on a loaded corpus

  /** Every subject is found under its own id; a negative id finds nothing. */
  lemma GetSubjectByIdFinds(ix: Indexes, es: seq<Entry>, i: int)
    requires Ordered(es) && LoadedFrom(ix, es) && 0 <= i < |es|
    ensures GetSubjectById(ix, es[i].id) == Some(es[i].subject)
  {
    IdIndexLookup(es, Decimal(es[i].id));
  }

  lemma GetSubjectByIdNegative(ix: Indexes, es: seq<Entry>, id: int)
    requires Ordered(es) && LoadedFrom(ix, es) && id < 0
    ensures GetSubjectById(ix, id) == None
  {
    IdIndexLookup(es, IntString(id));
  }

  /** A key that an index stores leads back to its subject. */
  lemma GetSubjectByKeyFinds(ix: Indexes, es: seq<Entry>, i: int)
    requires Ordered(es) && LoadedFrom(ix, es) && 0 <= i < |es|
    ensures GetSubjectByKey(ix, Decimal(es[i].id)) == Some(es[i].subject)
  {
    ParseDecimal(es[i].id);
    GetSubjectByIdFinds(ix, es, i);
  }

  function Found(es: seq<Entry>): (r: seq<Option<CorpusSubject>>)
    ensures |r| == |es| && forall i :: 0 <= i < |es| ==> r[i] == Some(es[i].subject)
  {
    seq(|es|, i requires 0 <= i < |es| => Some(es[i].subject))
  }

  /** On a loaded corpus, a level with subjects gives exactly those subjects
      in corpus order, and a level without any throws. */
  lemma GetSubjectsByLevelSpec(ix: Indexes, es: seq<Entry>, level: int)
    requires Ordered(es) && LoadedFrom(ix, es)
    ensures GetSubjectsByLevel(ix, level).Err? <==> AtLevel(es, level) == []
    ensures GetSubjectsByLevel(ix, level).Err? ==> GetSubjectsByLevel(ix, level).error == NoSubjectsForLevel(level)
    ensures GetSubjectsByLevel(ix, level).Ok? ==> GetSubjectsByLevel(ix, level).value == Found(AtLevel(es, level))
  {
    LevelIndexLists(es, level);
    var at := AtLevel(es, level);
    if level in ix.by_level {
      var r := GetSubjectsByLevel(ix, level).value;
      forall k | 0 <= k < |at| ensures r[k] == Some(at[k].subject) {
        assert at[k] in es;
        var i :| 0 <= i < |es| && es[i] == at[k];
        GetSubjectByIdFinds(ix, es, i);
      }
    }
  }

  /** On a loaded corpus, a reading that some kanji or vocabulary subject
      has gives only such subjects and every one of them; any other reading
      throws. */
  lemma GetSubjectsByReadingSpec(ix: Indexes, es: seq<Entry>, reading: string)
    requires Ordered(es) && LoadedFrom(ix, es)
    ensures GetSubjectsByReading(ix, reading).Err? <==> forall i :: 0 <= i < |es| ==> !HasIndexedReading(es[i], reading)
    ensures GetSubjectsByReading(ix, reading).Ok? ==>
              forall s :: s in GetSubjectsByReading(ix, reading).value ==>
                exists i :: 0 <= i < |es| && HasIndexedReading(es[i], reading) && s == Some(es[i].subject)
    ensures GetSubjectsByReading(ix, reading).Ok? ==>
              forall i :: 0 <= i < |es| && HasIndexedReading(es[i], reading) ==>
                Some(es[i].subject) in GetSubjectsByReading(ix, reading).value
  {
    ReadingIndexLists(es, reading);
    if reading in ix.by_reading {
      var keys := ix.by_reading[reading];
      var r := GetSubjectsByReading(ix, reading).value;
      forall s | s in r
        ensures exists i :: 0 <= i < |es| && HasIndexedReading(es[i], reading) && s == Some(es[i].subject)
      {
        var k :| 0 <= k < |r| && r[k] == s;
        assert keys[k] in keys;
        var i :| 0 <= i < |es| && HasIndexedReading(es[i], reading) && keys[k] == Decimal(es[i].id);
        GetSubjectByKeyFinds(ix, es, i);
      }
      forall i | 0 <= i < |es| && HasIndexedReading(es[i], reading)
        ensures Some(es[i].subject) in r
      {
        assert IndexedUnder(es, reading, Decimal(es[i].id));
        var k :| 0 <= k < |keys| && keys[k] == Decimal(es[i].id);
        GetSubjectByKeyFinds(ix, es, i);
        assert r[k] == Some(es[i].subject);
      }
    }
  }

  /** On a loaded corpus `get_subject_by_kanji` never throws: it finds the
      kanji with that symbol, or gives undefined when there is none. */
  lemma GetSubjectByKanjiSpec(ix: Indexes, es: seq<Entry>, symbol: string)
    requires Ordered(es) && LoadedFrom(ix, es)
    ensures GetSubjectByKanji(ix, symbol).Ok?
    ensures GetSubjectByKanji(ix, symbol).value.None? <==>
              forall i :: 0 <= i < |es| && es[i].subject.kind == KANJI ==> es[i].subject.characters != symbol
    ensures forall i :: 0 <= i < |es| && es[i].subject.kind == KANJI && es[i].subject.characters == symbol ==>
              GetSubjectByKanji(ix, symbol) == Ok(Some(es[i].subject))
  {
    KanjiIndexDistinct(es);
    KanjiSymbolsOf(es, symbol);
    forall i | 0 <= i < |es| && es[i].subject.kind == KANJI && es[i].subject.characters == symbol
      ensures GetSubjectByKanji(ix, symbol) == Ok(Some(es[i].subject))
    {
      KanjiIndexMaps(es, i);
      GetSubjectByKeyFinds(ix, es, i);
    }
  }

  lemma {:induction false} KanjiSymbolsOf(es: seq<Entry>, symbol: string)
    ensures symbol in KanjiSymbols(es) <==>
            exists i :: 0 <= i < |es| && es[i].subject.kind == KANJI && es[i].subject.characters == symbol
  {
    if es != [] {
      var init := es[..|es| - 1];
      KanjiSymbolsOf(init, symbol);
      if exists i :: 0 <= i < |init| && init[i].subject.kind == KANJI && init[i].subject.characters == symbol {
        var i :| 0 <= i < |init| && init[i].subject.kind == KANJI && init[i].subject.characters == symbol;
        assert init[i] == es[i];
      }
      if exists i :: 0 <= i < |es| && es[i].subject.kind == KANJI && es[i].subject.characters == symbol {
        var i :| 0 <= i < |es| && es[i].subject.kind == KANJI && es[i].subject.characters == symbol;
        if i < |es| - 1 {
          assert init[i] == es[i];
        }
      }
    }
  }
}

=== FILE: date_gen.dfy ===
/** The review-interval function of apps/web/src/lib/scripts/universal/date_gen.ts.
    The floating-point step `acc + acc ** 1.12 + 1.1` is a parameter over the
    reals; what the proofs need of it is stated by the two predicates below. */
module DateGen {

  const HourMillis: real := 3600000.0

  /** The step strictly increases a non-negative accumulator. */
  ghost predicate Increasing(step: real -> real)
  {
    forall a: real :: a >= 0.0 ==> step(a) > a
  }

  /** The step adds at least the constant 1.1, as `acc + acc ** 1.12 + 1.1`
      does for every non-negative `acc`. */
  ghost predicate GrowsByConstant(step: real -> real)
  {
    forall a: real :: a >= 0.0 ==> step(a) >= a + 1.1
  }

  /** `range(k).reduce(step, 0)`: the accumulator after k steps from 0. */
  function Fold(step: real -> real, k: nat): real
  {
    if k == 0 then 0.0 else step(Fold(step, k - 1))
  }

  /** `get_next_date_offset`: n is decremented, clamped at 0, and the step is
      folded that many times. */
  function GetNextDateOffset(step: real -> real, n: int): (hours: real)
    ensures n <= 1 ==> hours == 0.0
  {
    var m := if n - 1 < 0 then 0 else n - 1;
    Fold(step, m)
  }

  /** `get_next_date`, with `Date.now()` passed in as milliseconds. */
  function GetNextDate(step: real -> real, now: real, n: int): (at: real)
  {
    now + GetNextDateOffset(step, n) * HourMillis
  }

  lemma {:induction false} FoldNonNegative(step: real -> real, k: nat)
    requires Increasing(step)
    ensures Fold(step, k) >= 0.0
  {
    if k > 0 {
      FoldNonNegative(step, k - 1);
    }
  }

  lemma {:induction false} FoldLowerBound(step: real -> real, k: nat)
    requires GrowsByConstant(step)
    ensures Fold(step, k) >= 1.1 * k as real
  {
    if k > 0 {
      FoldLowerBound(step, k - 1);
      assert Fold(step, k - 1) >= 0.0;
    }
  }

  /** More steps give a strictly larger accumulator. */
  lemma {:induction false} FoldStrictlyIncreasing(step: real -> real, j: nat, k: nat)
    requires Increasing(step)
    requires j < k
    ensures Fold(step, j) < Fold(step, k)
  {
    FoldNonNegative(step, k - 1);
    if j < k - 1 {
      FoldStrictlyIncreasing(step, j, k - 1);
    }
  }

  /** For n >= 1 the offset is the accumulator after exactly n - 1 steps;
      a negative n behaves like 0. */
  lemma OffsetIsFold(step: real -> real, n: int)
    ensures n >= 1 ==> GetNextDateOffset(step, n) == Fold(step, n - 1)
    ensures n < 0 ==> GetNextDateOffset(step, n) == GetNextDateOffset(step, 0)
  {
  }

  /** The offset is strictly increasing from n = 1 on. */
  lemma OffsetStrictlyIncreasing(step: real -> real, n: int, m: int)
    requires Increasing(step)
    requires 1 <= n < m
    ensures GetNextDateOffset(step, n) < GetNextDateOffset(step, m)
  {
    FoldStrictlyIncreasing(step, n - 1, m - 1);
  }

  /** The offset is non-decreasing in n (over all integers). */
  lemma OffsetMonotone(step: real -> real, n: int, m: int)
    requires Increasing(step)
    requires n <= m
    ensures GetNextDateOffset(step, n) <= GetNextDateOffset(step, m)
  {
    if m >= 2 {
      FoldNonNegative(step, m - 1);
      if n >= 1 && n < m {
        OffsetStrictlyIncreasing(step, n, m);
      }
    }
  }

  /** The next review lies `offset(n)` hours after now and never before it,
      and a higher skill level never gives an earlier date. */
  lemma NextDateAfterNow(step: real -> real, now: real, n: int, m: int)
    requires Increasing(step)
    requires n <= m
    ensures now <= GetNextDate(step, now, n) <= GetNextDate(step, now, m)
  {
    if n >= 0 {
      OffsetMonotone(step, 0, n);
    }
    OffsetMonotone(step, n, m);
  }

  /** n is the smallest natural number whose offset reaches `hour_offset`. */
  ghost predicate IsLeastReaching(step: real -> real, hour_offset: real, n: nat)
  {
    && GetNextDateOffset(step, n) >= hour_offset
    && forall k: nat :: k < n ==> GetNextDateOffset(step, k) < hour_offset
  }

  /** `reverse_get_next_date`: the upward linear search from 0. */
  method ReverseGetNextDate(step: real -> real, hour_offset: real) returns (n: nat)
    requires GrowsByConstant(step)
    ensures IsLeastReaching(step, hour_offset, n)
  {
    n := 0;
    while GetNextDateOffset(step, n) < hour_offset
      invariant forall k: nat :: k < n ==> GetNextDateOffset(step, k) < hour_offset
      decreases hour_offset.Floor + 1 - n
    {
      if n >= 1 {
        FoldLowerBound(step, n - 1);
      }
      n := n + 1;
    }
  }

  /** A non-positive target is reached at once. */
  lemma ReverseOfNonPositive(step: real -> real, hour_offset: real, n: nat)
    requires hour_offset <= 0.0
    requires IsLeastReaching(step, hour_offset, n)
    ensures n == 0
  {
    assert GetNextDateOffset(step, 0) == 0.0;
  }

  /** Searching for the offset of n gives back n, except for n = 1 (and
      n <= 0), whose offset 0 is already reached at 0. */
  lemma ReverseRoundTrip(step: real -> real, n: int, r: nat)
    requires Increasing(step)
    requires IsLeastReaching(step, GetNextDateOffset(step, n), r)
    ensures r == if n <= 1 then 0 else n
  {
    var h := GetNextDateOffset(step, n);
    assert GetNextDateOffset(step, 0) == 0.0;
    if n >= 2 {
      forall k: nat | k < n
        ensures GetNextDateOffset(step, k) < h
      {
        if k >= 1 {
          OffsetStrictlyIncreasing(step, k, n);
        } else {
          OffsetStrictlyIncreasing(step, 1, n);
        }
      }
      assert GetNextDateOffset(step, r) >= h;
    }
  }
}

=== FILE: decomposition.dfy ===
/** The greedy reading decomposition inside `get_lessons`
    (apps/web/src/routes/lessons/get_lessons.ts): it lines a vocabulary word's
    characters up with one of its readings and records, per character, the
    kanji reading type used or `undefined` for a character that is not read
    as a kanji. `isKanji` (a library call) is a parameter. */
module Decomposition {
  import opened Results
  import opened SubjectKinds
  import opened SeqUtil

  /** A reading of a kanji in the fetched kanji map. */
  datatype Candidate = Candidate(reading: string, reading_type: ReadingType)

  type KanjiMap = map<char, seq<Candidate>>

  /** The small tsu that may stand in a reading before a passed-through character. */
  const SmallTsu: char := 'っ'

  /** What the decomposition of one reading yields: the entry
      `[r_ref.reading, kanji_types]` (with the reading text still unconsumed
      when the characters ran out), or `[kanji, undefined]` when no reading
      of a kanji fits. */
  datatype Decomposed =
    | Resolved(kanji_types: seq<Option<ReadingType>>, leftover: string)
    | Unresolved(kanji: char)

  datatype DecompError =
    | MultipleViable(kanji: char, readings: seq<string>)
    | InvalidCharacter(rest: string, remaining_reading: string)
    | MissingKanjiData(kanji: char)      // `kanji_data[kanji].readings` on an absent key

  /** The first test of the loop body: the character opens the reading, or the
      reading opens with a small tsu followed by the character. */
  predicate Passthrough(c: char, r: string)
  {
    (|r| > 0 && r[0] == c) || (|r| >= 2 && r[0] == SmallTsu && r[1] == c)
  }

  /** The same test with the small-tsu literal as the source file holds it:
      the two characters U+00E3 U+00A3 (the UTF-8 bytes of っ read back as
      Latin-1 with one byte lost), glued to the character and compared with
      the first two characters of the reading. */
  predicate PassthroughAsWritten(c: char, r: string)
  {
    (|r| > 0 && r[0] == c) || "\U{E3}\U{A3}" + [c] == r[..if |r| < 2 then |r| else 2]
  }

  /** As written, the small-tsu disjunct compares three characters with at
      most two, so only the plain match remains. */
  lemma TsuLiteralNeverMatches(c: char, r: string)
    ensures PassthroughAsWritten(c, r) <==> |r| > 0 && r[0] == c
  {
    assert |"\U{E3}\U{A3}" + [c]| == 3;
  }

  /** The reading っと against と shows the difference: the intended test lets
      と through, the literal as written does not. */
  lemma TsuLiteralExample()
    ensures Passthrough('と', "っと") && !PassthroughAsWritten('と', "っと")
  {
    TsuLiteralNeverMatches('と', "っと");
    assert "っと"[0] == SmallTsu && "っと"[1] == 'と';
  }

  /** The candidates the remaining reading starts with, in map order. */
  function Viable(candidates: seq<Candidate>, r: string): (v: seq<Candidate>)
    ensures forall c :: c in v <==> c in candidates && c.reading <= r
  {
    if candidates == [] then []
    else
      var rest := Viable(candidates[1..], r);
      assert forall c :: c in candidates ==> c == candidates[0] || c in candidates[1..];
      if candidates[0].reading <= r then [candidates[0]] + rest else rest
  }

  /** `filter` keeps the candidates in map order. */
  lemma {:induction false} ViableSubsequence(candidates: seq<Candidate>, r: string)
    ensures IsSubsequence(Viable(candidates, r), candidates)
  {
    if candidates != [] {
      var rest := Viable(candidates[1..], r);
      ViableSubsequence(candidates[1..], r);
      if candidates[0].reading <= r {
        assert ([candidates[0]] + rest)[1..] == rest;
      }
    }
  }

  /** The first viable candidate is the first candidate, in map order, that
      the remaining reading starts with. */
  lemma {:induction false} ViableFirst(candidates: seq<Candidate>, r: string)
    requires Viable(candidates, r) != []
    ensures exists i :: 0 <= i < |candidates| && candidates[i] == Viable(candidates, r)[0]
                        && forall j :: 0 <= j < i ==> !(candidates[j].reading <= r)
  {
    var first := Viable(candidates, r)[0];
    if candidates[0].reading <= r {
      assert candidates[0] == first;
    } else {
      var tail := candidates[1..];
      assert Viable(candidates, r) == Viable(tail, r);
      ViableFirst(tail, r);
      var i :| 0 <= i < |tail| && tail[i] == first && forall j :: 0 <= j < i ==> !(tail[j].reading <= r);
      forall j | 0 <= j < i + 1 ensures !(candidates[j].reading <= r) {
        if j > 0 {
          assert candidates[j] == tail[j - 1];
        }
      }
      assert candidates[i + 1] == first;
    }
  }

  /** The decision on one kanji, taken against the remaining reading. */
  datatype KanjiDecision =
    | Take(reading_type: ReadingType, length: nat)
    | NoViable
    | Ambiguous(readings: seq<string>)

  function ReadingTexts(cs: seq<Candidate>): seq<string>
  {
    if cs == [] then [] else [cs[0].reading] + ReadingTexts(cs[1..])
  }

  /** The viable candidates are compared with the FIRST viable one: all of
      those with its length must share its text, and then its type is
      recorded and its length consumed. */
  function DecideKanji(candidates: seq<Candidate>, r: string): (d: KanjiDecision)
    ensures d.NoViable? <==> forall c :: c in candidates ==> !(c.reading <= r)
    ensures d.Take? ==> var first := Viable(candidates, r)[0];
                        && first in candidates && first.reading <= r
                        && d.reading_type == first.reading_type && d.length == |first.reading|
                        && forall c :: c in candidates && c.reading <= r && |c.reading| == |first.reading|
                                       ==> c.reading == first.reading
    ensures d.Ambiguous? <==> Viable(candidates, r) != [] &&
                              exists c :: c in candidates && c.reading <= r
                                          && |c.reading| == |Viable(candidates, r)[0].reading|
                                          && c.reading != Viable(candidates, r)[0].reading
  {
    var viable := Viable(candidates, r);
    if viable == [] then
      NoViable
    else
      var first := viable[0];
      if forall v :: v in viable && |v.reading| == |first.reading| ==> v.reading == first.reading then
        Take(first.reading_type, |first.reading|)
      else
        Ambiguous(ReadingTexts(viable))
  }

  /** Puts the entries recorded so far in front of the rest of a decomposition. */
  function PrependTypes(types: seq<Option<ReadingType>>, rest: Result<Decomposed, DecompError>): Result<Decomposed, DecompError>
  {
    match rest
    case Ok(Resolved(t, left)) => Ok(Resolved(types + t, left))
    case _ => rest
  }

  /** The loop as a recursive function over the remaining characters `cs`
      and the remaining reading `r`. */
  function DecomposeFrom(cs: string, r: string, kanji_data: KanjiMap, isKanji: char -> bool): Result<Decomposed, DecompError>
    decreases |cs|
  {
    if |cs| == 0 then Ok(Resolved([], r))
    else if Passthrough(cs[0], r) then
      PrependTypes([None], DecomposeFrom(cs[1..], r[1..], kanji_data, isKanji))
    else if isKanji(cs[0]) then
      if cs[0] !in kanji_data then Err(MissingKanjiData(cs[0]))
      else
        match DecideKanji(kanji_data[cs[0]], r)
        case NoViable => Ok(Unresolved(cs[0]))
        case Ambiguous(texts) => Err(MultipleViable(cs[0], texts))
        case Take(t, len) => PrependTypes([Some(t)], DecomposeFrom(cs[1..], r[len..], kanji_data, isKanji))
    else Err(InvalidCharacter(cs, r))
  }

  lemma PrependTypesAssoc(a: seq<Option<ReadingType>>, b: seq<Option<ReadingType>>, rest: Result<Decomposed, DecompError>)
    ensures PrependTypes(a, PrependTypes(b, rest)) == PrependTypes(a + b, rest)
  {
    match rest
    case Ok(Resolved(t, left)) =>
      assert a + (b + t) == (a + b) + t;
    case _ =>
  }

  lemma PrependNothing(rest: Result<Decomposed, DecompError>)
    ensures PrependTypes([], rest) == rest
  {
    match rest
    case Ok(Resolved(t, left)) =>
      assert [] + t == t;
    case _ =>
  }

  /** The decomposition of one reading, as the source's `while` loop. */
  method DecomposeReading(characters: string, reading: string, kanji_data: KanjiMap, isKanji: char -> bool)
    returns (res: Result<Decomposed, DecompError>)
    ensures res == DecomposeFrom(characters, reading, kanji_data, isKanji)
  {
    var kanji_types: seq<Option<ReadingType>> := [];
    var r := reading;
    var character_string := characters;
    PrependNothing(DecomposeFrom(characters, reading, kanji_data, isKanji));
    while |character_string| > 0
      invariant DecomposeFrom(characters, reading, kanji_data, isKanji)
                == PrependTypes(kanji_types, DecomposeFrom(character_string, r, kanji_data, isKanji))
      decreases |character_string|
    {
      var c := character_string[0];
      if Passthrough(c, r) {
        PrependTypesAssoc(kanji_types, [None], DecomposeFrom(character_string[1..], r[1..], kanji_data, isKanji));
        character_string := character_string[1..];
        r := r[1..];
        kanji_types := kanji_types + [None];
      } else if isKanji(c) {
        character_string := character_string[1..];
        if c !in kanji_data {
          return Err(MissingKanjiData(c));
        }
        var decision := DecideKanji(kanji_data[c], r);
        match decision {
          case NoViable =>
            return Ok(Unresolved(c));
          case Ambiguous(texts) =>
            return Err(MultipleViable(c, texts));
          case Take(t, len) =>
            PrependTypesAssoc(kanji_types, [Some(t)], DecomposeFrom(character_string, r[len..], kanji_data, isKanji));
            kanji_types := kanji_types + [Some(t)];
            r := r[len..];
        }
      } else {
        return Err(InvalidCharacter(character_string, r));
      }
    }
    assert kanji_types + [] == kanji_types;
    res := Ok(Resolved(kanji_types, r));
  }

  /** A finished decomposition has one entry per character, and what is left
      of the reading is a suffix of it. */
  lemma {:induction false} ResolvedShape(cs: string, r: string, kanji_data: KanjiMap, isKanji: char -> bool)
    requires DecomposeFrom(cs, r, kanji_data, isKanji).Ok?
    requires DecomposeFrom(cs, r, kanji_data, isKanji).value.Resolved?
    ensures var d := DecomposeFrom(cs, r, kanji_data, isKanji).value;
            |d.kanji_types| == |cs| && |d.leftover| <= |r| && d.leftover == r[|r| - |d.leftover|..]
    decreases |cs|
  {
    if |cs| > 0 {
      if Passthrough(cs[0], r) {
        ResolvedShape(cs[1..], r[1..], kanji_data, isKanji);
      } else {
        var d := DecideKanji(kanji_data[cs[0]], r);
        ResolvedShape(cs[1..], r[d.length..], kanji_data, isKanji);
      }
    }
  }

  /** Every recorded type belongs to a kanji at that position and is the type
      of one of that kanji's readings; every other position records undefined. */
  lemma {:induction false} ResolvedTypesAreKanjiReadings(cs: string, r: string, kanji_data: KanjiMap, isKanji: char -> bool)
    requires DecomposeFrom(cs, r, kanji_data, isKanji).Ok?
    requires DecomposeFrom(cs, r, kanji_data, isKanji).value.Resolved?
    ensures var t := DecomposeFrom(cs, r, kanji_data, isKanji).value.kanji_types;
            |t| == |cs| &&
            forall i :: 0 <= i < |t| && t[i].Some? ==>
              isKanji(cs[i]) && cs[i] in kanji_data &&
              exists c :: c in kanji_data[cs[i]] && c.reading_type == t[i].value
    decreases |cs|
  {
    ResolvedShape(cs, r, kanji_data, isKanji);
    if |cs| > 0 {
      var t := DecomposeFrom(cs, r, kanji_data, isKanji).value.kanji_types;
      if Passthrough(cs[0], r) {
        ResolvedTypesAreKanjiReadings(cs[1..], r[1..], kanji_data, isKanji);
        var t' := DecomposeFrom(cs[1..], r[1..], kanji_data, isKanji).value.kanji_types;
        assert t == [None] + t';
        forall i | 0 <= i < |t| && t[i].Some?
          ensures isKanji(cs[i]) && cs[i] in kanji_data &&
                  exists c :: c in kanji_data[cs[i]] && c.reading_type == t[i].value
        {
          assert t[i] == t'[i - 1] && cs[i] == cs[1..][i - 1];
        }
      } else {
        var d := DecideKanji(kanji_data[cs[0]], r);
        ResolvedTypesAreKanjiReadings(cs[1..], r[d.length..], kanji_data, isKanji);
        var t' := DecomposeFrom(cs[1..], r[d.length..], kanji_data, isKanji).value.kanji_types;
        assert t == [Some(d.reading_type)] + t';
        forall i | 0 <= i < |t| && t[i].Some?
          ensures isKanji(cs[i]) && cs[i] in kanji_data &&
                  exists c :: c in kanji_data[cs[i]] && c.reading_type == t[i].value
        {
          if i == 0 {
            assert Viable(kanji_data[cs[0]], r)[0] in kanji_data[cs[0]];
          } else {
            assert t[i] == t'[i - 1] && cs[i] == cs[1..][i - 1];
          }
        }
      }
    }
  }

  /** An unresolved reading names a kanji of the word that has kanji data. */
  lemma {:induction false} UnresolvedNamesKanji(cs: string, r: string, kanji_data: KanjiMap, isKanji: char -> bool)
    requires DecomposeFrom(cs, r, kanji_data, isKanji).Ok?
    requires DecomposeFrom(cs, r, kanji_data, isKanji).value.Unresolved?
    ensures var k := DecomposeFrom(cs, r, kanji_data, isKanji).value.kanji;
            k in cs && isKanji(k) && k in kanji_data
    decreases |cs|
  {
    if !Passthrough(cs[0], r) && isKanji(cs[0]) && DecideKanji(kanji_data[cs[0]], r).NoViable? {
    } else if Passthrough(cs[0], r) {
      UnresolvedNamesKanji(cs[1..], r[1..], kanji_data, isKanji);
    } else {
      var d := DecideKanji(kanji_data[cs[0]], r);
      UnresolvedNamesKanji(cs[1..], r[d.length..], kanji_data, isKanji);
    }
  }

  /** "Invalid character" names a suffix of the word that starts with a
      character that neither passes through nor is a kanji. */
  lemma {:induction false} InvalidCharacterIsNotKanji(cs: string, r: string, kanji_data: KanjiMap, isKanji: char -> bool)
    requires DecomposeFrom(cs, r, kanji_data, isKanji).Err?
    requires DecomposeFrom(cs, r, kanji_data, isKanji).error.InvalidCharacter?
    ensures var e := DecomposeFrom(cs, r, kanji_data, isKanji).error;
            0 < |e.rest| <= |cs| && e.rest == cs[|cs| - |e.rest|..]
            && !isKanji(e.rest[0]) && !Passthrough(e.rest[0], e.remaining_reading)
    decreases |cs|
  {
    var e := DecomposeFrom(cs, r, kanji_data, isKanji).error;
    if Passthrough(cs[0], r) {
      assert DecomposeFrom(cs[1..], r[1..], kanji_data, isKanji) == Err(e);
      InvalidCharacterIsNotKanji(cs[1..], r[1..], kanji_data, isKanji);
      assert cs[1..][|cs| - 1 - |e.rest|..] == cs[|cs| - |e.rest|..];
    } else if isKanji(cs[0]) {
      var d := DecideKanji(kanji_data[cs[0]], r);
      assert DecomposeFrom(cs[1..], r[d.length..], kanji_data, isKanji) == Err(e);
      InvalidCharacterIsNotKanji(cs[1..], r[d.length..], kanji_data, isKanji);
      assert cs[1..][|cs| - 1 - |e.rest|..] == cs[|cs| - |e.rest|..];
    } else {
      assert cs[0..] == cs;
    }
  }

  /** Two viable candidates of the same length are both prefixes of the
      remaining reading and so have the same text: the "Multiple viable"
      error can never be raised. */
  lemma NeverAmbiguous(candidates: seq<Candidate>, r: string)
    ensures !DecideKanji(candidates, r).Ambiguous?
  {
    var viable := Viable(candidates, r);
    if viable != [] {
      var first := viable[0];
      assert first in viable;
      forall c | c in candidates && c.reading <= r && |c.reading| == |first.reading|
        ensures c.reading == first.reading
      {
        assert c.reading == r[..|c.reading|];
        assert first.reading == r[..|first.reading|];
      }
    }
  }

  /** 食べる read たべる, with 食 read た (kun) or しょく (on), gives
      [kun, undefined, undefined] and consumes the whole reading. */
  lemma TabeRuExample(isKanji: char -> bool)
    requires isKanji('食')
    ensures DecomposeFrom("食べる", "たべる",
                          map['食' := [Candidate("た", KUNYOMI), Candidate("しょく", ONYOMI)]], isKanji)
            == Ok(Resolved([Some(KUNYOMI), None, None], ""))
  {
    var km := map['食' := [Candidate("た", KUNYOMI), Candidate("しょく", ONYOMI)]];
    var none: seq<Option<ReadingType>> := [None];
    assert !("しょく" <= "たべる") by { assert "しょく"[0] != "たべる"[0]; }
    assert "た" <= "たべる";
    assert Viable(km['食'], "たべる") == [Candidate("た", KUNYOMI)];
    assert DecideKanji(km['食'], "たべる") == Take(KUNYOMI, 1);
    assert DecomposeFrom("", "", km, isKanji) == Ok(Resolved([], ""));
    assert "る"[1..] == "";
    assert DecomposeFrom("る", "る", km, isKanji) == PrependTypes([None], DecomposeFrom("", "", km, isKanji));
    assert none + [] == none;
    assert "べる"[1..] == "る";
    assert DecomposeFrom("べる", "べる", km, isKanji) == PrependTypes([None], DecomposeFrom("る", "る", km, isKanji));
    assert none + none == [None, None];
    assert "たべる"[1..] == "べる";
    assert "食べる"[1..] == "べる";
    assert !Passthrough('食', "たべる");
    assert DecomposeFrom("食べる", "たべる", km, isKanji)
           == PrependTypes([Some(KUNYOMI)], DecomposeFrom("べる", "べる", km, isKanji));
    var some: seq<Option<ReadingType>> := [Some(KUNYOMI)];
    assert some + [None, None] == [Some(KUNYOMI), None, None];
  }

  /** The loop stops when the characters run out: 食 against たべる consumes
      only た, and no error is raised for the unread べる. */
  lemma LeftoverReadingAccepted(isKanji: char -> bool)
    requires isKanji('食')
    ensures DecomposeFrom("食", "たべる", map['食' := [Candidate("た", KUNYOMI)]], isKanji)
            == Ok(Resolved([Some(KUNYOMI)], "べる"))
  {
    var km := map['食' := [Candidate("た", KUNYOMI)]];
    assert "た" <= "たべる";
    assert Viable(km['食'], "たべる") == [Candidate("た", KUNYOMI)];
    assert DecideKanji(km['食'], "たべる") == Take(KUNYOMI, 1);
    assert "たべる"[1..] == "べる";
    assert "食"[1..] == "";
    assert !Passthrough('食', "たべる");
    assert DecomposeFrom("", "べる", km, isKanji) == Ok(Resolved([], "べる"));
    assert DecomposeFrom("食", "たべる", km, isKanji)
           == PrependTypes([Some(KUNYOMI)], DecomposeFrom("", "べる", km, isKanji));
    var some: seq<Option<ReadingType>> := [Some(KUNYOMI)];
    assert some + [] == some;
  }

  /** The first viable candidate decides, not the longest: with た listed
      before たべ, た is taken although たべ also fits. */
  lemma FirstViableNotLongest()
    ensures DecideKanji([Candidate("た", KUNYOMI), Candidate("たべ", ONYOMI)], "たべる") == Take(KUNYOMI, 1)
  {
    assert "た" <= "たべる";
    assert "たべ" <= "たべる";
    assert Viable([Candidate("た", KUNYOMI), Candidate("たべ", ONYOMI)], "たべる")
           == [Candidate("た", KUNYOMI), Candidate("たべ", ONYOMI)];
  }

  /** The small-tsu passthrough removes only the tsu from the reading: と
      against っと records one undefined and leaves と unconsumed. */
  lemma SmallTsuConsumesOneCharacter(kanji_data: KanjiMap, isKanji: char -> bool)
    ensures DecomposeFrom("と", "っと", kanji_data, isKanji) == Ok(Resolved([None], "と"))
  {
    assert Passthrough('と', "っと");
    assert "っと"[1..] == "と";
    assert "と"[1..] == "";
    assert DecomposeFrom("", "と", kanji_data, isKanji) == Ok(Resolved([], "と"));
    assert DecomposeFrom("と", "っと", kanji_data, isKanji)
           == PrependTypes([None], DecomposeFrom("", "と", kanji_data, isKanji));
    var none: seq<Option<ReadingType>> := [None];
    assert none + [] == none;
  }
}

=== FILE: legacy_lessons.dfy ===
/** The older lesson generator, src/routes/lessons/get_lessons.ts: every
    variant of every subject is kept (there is no `new_subject` case and no
    `sample`), the lessons are ordered by skill level with a random tie-break
    and filtered by an older level table. Its reading scan differs from the
    newer one: a matching kana records nothing, a kanji records one empty
    entry per consumed reading character followed by the reading type, and
    all viable candidates must agree. */
module LegacyLessons {
  import opened Results
  import opened SeqUtil
  import opened SubjectKinds
  import Decomposition

  datatype LessonType = KanjiNanKunOnYomi | ReadingAndMeaning | SymbolAndMeaning | VocabularyKunOnYomi

  /** The older `required_level_table`. */
  function RequiredLevel(t: LessonType): nat
  {
    match t
    case KanjiNanKunOnYomi => 1
    case ReadingAndMeaning => 0
    case SymbolAndMeaning => 0
    case VocabularyKunOnYomi => 1
  }

  datatype Direction = ToMeanings | ToReadings | ToSymbol

  /** One entry of a vocabulary `string_map`. */
  datatype TypeEntry = NotAKanji | KanjiType(reading_type: ReadingType)

  datatype RequiredData =
    | KanjiReadingsData(kanji: string, kunyomi: seq<string>, onyomi: seq<string>, nanori: seq<string>)
    | ReadingMeaningData(meanings: seq<string>, readings: seq<string>, to: Direction)
    | SymbolMeaningData(symbol: string, meanings: seq<string>, to: Direction)
    | VocabularyTypesData(vocabulary: string, string_map: seq<TypeEntry>)

  datatype Lesson = Lesson(lesson_type: LessonType, required_data: RequiredData, subject_id: int,
                           subject_type: string, skill_level: int)

  datatype KanjiReadingRecord = KanjiReadingRecord(reading: string, reading_type: ReadingType)

  /** A raw subject, discriminated by its `object` field; meanings are kept as
      their texts. */
  datatype Subject =
    | KanjiSubject(characters: string, meanings: seq<string>, kanji_readings: seq<KanjiReadingRecord>)
    | VocabularySubject(characters: string, meanings: seq<string>, readings: seq<string>)
    | RadicalSubject(radical_characters: Option<string>, meanings: seq<string>)
    | OtherSubject(object_name: string)

  function ObjectName(s: Subject): string
  {
    match s
    case KanjiSubject(_, _, _) => "kanji"
    case VocabularySubject(_, _, _) => "vocabulary"
    case RadicalSubject(_, _) => "radical"
    case OtherSubject(o) => o
  }

  datatype SubjectEntry = SubjectEntry(skill_level: int, subject: Subject, subject_id: int)

  datatype DecompError = MultipleViable(kanji: char) | NoViableReading(kanji: char) | MissingKanjiData(kanji: char) | InvalidCharacter

  datatype LessonError =
    | DecompositionFailed(d: DecompError)
    | MultipleVocabularyReadings
    | NoVocabularyReading
    | NoCharacters
    | UnsupportedSubjectType(object_name: string)

  // ---------------------------------------------------------------------
  // The reading scan

  /** `range(n).forEach(() => kanji_types.push(undefined))`. */
  function Nones(n: nat): (s: seq<Option<ReadingType>>)
    ensures |s| == n && forall i :: 0 <= i < n ==> s[i] == None
  {
    if n == 0 then [] else Nones(n - 1) + [None]
  }

  /** How many entries name a reading type. */
  function CountSome(types: seq<Option<ReadingType>>): nat
  {
    if types == [] then 0 else (if types[0].Some? then 1 else 0) + CountSome(types[1..])
  }

  lemma {:induction false} CountSomeAppend(a: seq<Option<ReadingType>>, b: seq<Option<ReadingType>>)
    ensures CountSome(a + b) == CountSome(a) + CountSome(b)
  {
    if a != [] {
      assert (a + b)[0] == a[0];
      assert (a + b)[1..] == a[1..] + b;
      CountSomeAppend(a[1..], b);
      assert CountSome(a + b) == (if a[0].Some? then 1 else 0) + CountSome(a[1..] + b);
    } else {
      assert a + b == b;
    }
  }

  lemma {:induction false} CountSomeNones(n: nat)
    ensures CountSome(Nones(n)) == 0
  {
    if n > 0 {
      CountSomeNones(n - 1);
      CountSomeAppend(Nones(n - 1), [None]);
    }
  }

  /** The `[r, kanji_types]` pair a finished scan returns. */
  datatype Scan = Scan(leftover: string, kanji_types: seq<Option<ReadingType>>)

  function PrependScan(types: seq<Option<ReadingType>>, rest: Result<Scan, DecompError>): Result<Scan, DecompError>
  {
    match rest
    case Ok(sc) => Ok(Scan(sc.leftover, types + sc.kanji_types))
    case Err(e) => Err(e)
  }

  lemma PrependScanAssoc(a: seq<Option<ReadingType>>, b: seq<Option<ReadingType>>, rest: Result<Scan, DecompError>)
    ensures PrependScan(a, PrependScan(b, rest)) == PrependScan(a + b, rest)
  {
    if rest.Ok? {
      assert a + (b + rest.value.kanji_types) == (a + b) + rest.value.kanji_types;
    }
  }

  lemma PrependScanNothing(rest: Result<Scan, DecompError>)
    ensures PrependScan([], rest) == rest
  {
    if rest.Ok? {
      assert [] + rest.value.kanji_types == rest.value.kanji_types;
    }
  }

  /** The scan loop as a recursive function over the remaining characters. */
  function ScanFrom(cs: string, r: string, kanji_data: Decomposition.KanjiMap, isKanji: char -> bool): Result<Scan, DecompError>
    decreases |cs|
  {
    if cs == [] then Ok(Scan(r, []))
    else if |r| > 0 && cs[0] == r[0] then ScanFrom(cs[1..], r[1..], kanji_data, isKanji)
    else if !isKanji(cs[0]) then Err(InvalidCharacter)
    else if cs[0] !in kanji_data then Err(MissingKanjiData(cs[0]))
    else
      var v := Decomposition.Viable(kanji_data[cs[0]], r);
      if v == [] then Err(NoViableReading(cs[0]))
      else if forall c :: c in v ==> c.reading == v[0].reading then
        assert v[0] in v;
        PrependScan(Nones(|v[0].reading|) + [Some(v[0].reading_type)],
                    ScanFrom(cs[1..], r[|v[0].reading|..], kanji_data, isKanji))
      else Err(MultipleViable(cs[0]))
  }

  /** The scan of one reading of a vocabulary word (the `while` loop). */
  method ScanReading(characters: string, reading: string, kanji_data: Decomposition.KanjiMap, isKanji: char -> bool)
    returns (res: Result<Scan, DecompError>)
    ensures res == ScanFrom(characters, reading, kanji_data, isKanji)
  {
    var character_string, r := characters, reading;
    var kanji_types: seq<Option<ReadingType>> := [];
    PrependScanNothing(ScanFrom(character_string, r, kanji_data, isKanji));
    while |character_string| > 0
      invariant ScanFrom(characters, reading, kanji_data, isKanji)
                == PrependScan(kanji_types, ScanFrom(character_string, r, kanji_data, isKanji))
      decreases |character_string|
    {
      if |r| > 0 && character_string[0] == r[0] {
        character_string, r := character_string[1..], r[1..];
      } else if isKanji(character_string[0]) {
        var kanji := character_string[0];
        ghost var cs := character_string;
        character_string := character_string[1..];
        if kanji !in kanji_data {
          return Err(MissingKanjiData(kanji));
        }
        var viable := Decomposition.Viable(kanji_data[kanji], r);
        if viable == [] {
          return Err(NoViableReading(kanji));
        }
        if forall c :: c in viable ==> c.reading == viable[0].reading {
          assert viable[0] in viable;
          ghost var before := kanji_types;
          var len := |viable[0].reading|;
          for k := 0 to len
            invariant kanji_types == before + Nones(k)
          {
            kanji_types := kanji_types + [None];
          }
          kanji_types := kanji_types + [Some(viable[0].reading_type)];
          PrependScanAssoc(before, Nones(len) + [Some(viable[0].reading_type)],
                           ScanFrom(character_string, r[len..], kanji_data, isKanji));
          assert kanji_types == before + (Nones(len) + [Some(viable[0].reading_type)]);
          r := r[len..];
        } else {
          return Err(MultipleViable(kanji));
        }
      } else {
        return Err(InvalidCharacter);
      }
    }
    assert kanji_types + [] == kanji_types;
    res := Ok(Scan(r, kanji_types));
  }

  /** A successful scan that does not start with a matching kana starts with
      a kanji whose viable candidates all agree; it records the candidate. */
  lemma ScanKanjiStep(cs: string, r: string, kanji_data: Decomposition.KanjiMap, isKanji: char -> bool)
    requires cs != [] && !(|r| > 0 && cs[0] == r[0])
    requires ScanFrom(cs, r, kanji_data, isKanji).Ok?
    ensures isKanji(cs[0]) && cs[0] in kanji_data
    ensures var v := Decomposition.Viable(kanji_data[cs[0]], r);
            && v != [] && v[0].reading <= r
            && ScanFrom(cs, r, kanji_data, isKanji)
               == PrependScan(Nones(|v[0].reading|) + [Some(v[0].reading_type)],
                              ScanFrom(cs[1..], r[|v[0].reading|..], kanji_data, isKanji))
  {
    var v := Decomposition.Viable(kanji_data[cs[0]], r);
    assert v[0] in v;
  }

  /** A successful scan leaves a suffix of the reading, and its entries count
      one per consumed reading character plus one per kanji:
      |entries| + |characters| == consumed + 2 * kanji. */
  lemma {:induction false} ScanCounting(cs: string, r: string, kanji_data: Decomposition.KanjiMap, isKanji: char -> bool)
    requires ScanFrom(cs, r, kanji_data, isKanji).Ok?
    ensures var sc := ScanFrom(cs, r, kanji_data, isKanji).value;
            && |sc.leftover| <= |r| && r[|r| - |sc.leftover|..] == sc.leftover
            && |sc.kanji_types| + |cs| == (|r| - |sc.leftover|) + 2 * CountSome(sc.kanji_types)
    decreases |cs|
  {
    if cs != [] {
      if |r| > 0 && cs[0] == r[0] {
        ScanCounting(cs[1..], r[1..], kanji_data, isKanji);
        var sc := ScanFrom(cs[1..], r[1..], kanji_data, isKanji).value;
        assert r[1..][|r[1..]| - |sc.leftover|..] == r[|r| - |sc.leftover|..];
      } else {
        ScanKanjiStep(cs, r, kanji_data, isKanji);
        var v := Decomposition.Viable(kanji_data[cs[0]], r);
        var len := |v[0].reading|;
        var head := Nones(len) + [Some(v[0].reading_type)];
        ScanCounting(cs[1..], r[len..], kanji_data, isKanji);
        var sc := ScanFrom(cs[1..], r[len..], kanji_data, isKanji).value;
        assert r[len..][|r[len..]| - |sc.leftover|..] == r[|r| - |sc.leftover|..];
        CountSomeAppend(Nones(len), [Some(v[0].reading_type)]);
        CountSomeNones(len);
        assert CountSome([Some(v[0].reading_type)]) == 1;
        CountSomeAppend(head, sc.kanji_types);
      }
    }
  }

  /** A word whose characters are spelt out at the start of the reading
      records nothing and leaves the rest of the reading. */
  lemma {:induction false} SpeltOutRecordsNothing(cs: string, r: string, kanji_data: Decomposition.KanjiMap, isKanji: char -> bool)
    requires cs <= r
    ensures ScanFrom(cs, r, kanji_data, isKanji) == Ok(Scan(r[|cs|..], []))
    decreases |cs|
  {
    if cs != [] {
      assert cs[0] == r[0];
      SpeltOutRecordsNothing(cs[1..], r[1..], kanji_data, isKanji);
      assert r[1..][|cs| - 1..] == r[|cs|..];
    }
  }

  /** Candidates た and たべ of 食 are both viable for たべる but differ, so
      the older scan throws where the newer one takes た. */
  lemma DisagreeingCandidatesThrow(isKanji: char -> bool)
    requires isKanji('食')
    ensures var kanji_data := map['食' := [Decomposition.Candidate("た", KUNYOMI), Decomposition.Candidate("たべ", KUNYOMI)]];
            && ScanFrom("食", "たべる", kanji_data, isKanji) == Err(MultipleViable('食'))
            && Decomposition.DecomposeFrom("食", "たべる", kanji_data, isKanji).Ok?
  {
    var ta, tabe := Decomposition.Candidate("た", KUNYOMI), Decomposition.Candidate("たべ", KUNYOMI);
    var kanji_data := map['食' := [ta, tabe]];
    assert "た" <= "たべる" && "たべ" <= "たべる";
    assert kanji_data['食'] == [ta, tabe];
    assert [ta, tabe][1..] == [tabe] && [tabe][1..] == [];
    assert Decomposition.Viable([tabe], "たべる") == [tabe];
    assert Decomposition.Viable([ta, tabe], "たべる") == [ta, tabe];
    assert "たべる"[0] != "食"[0];
    assert Decomposition.DecideKanji(kanji_data['食'], "たべる").Take?;
  }

  // ---------------------------------------------------------------------
  // Object.fromEntries over the scans

  type Types = seq<Option<ReadingType>>
  type Entries = seq<(string, Types)>

  function Keys(es: Entries): (ks: seq<string>)
    ensures |ks| == |es| && forall i :: 0 <= i < |es| ==> ks[i] == es[i].0
  {
    if es == [] then [] else [es[0].0] + Keys(es[1..])
  }

  /** Setting a property of a plain object: an existing key keeps its place
      and takes the new value, a new key goes last. */
  function Upsert(es: Entries, k: string, v: Types): Entries
  {
    if es == [] then [(k, v)]
    else if es[0].0 == k then [(k, v)] + es[1..]
    else [es[0]] + Upsert(es[1..], k, v)
  }

  /** After setting a key the object has the old keys plus that one. */
  lemma {:induction false} UpsertKeys(es: Entries, k: string, v: Types)
    ensures Elements(Keys(Upsert(es, k, v))) == Elements(Keys(es)) + {k}
  {
    if es != [] {
      var head, tail := es[0].0, Keys(es[1..]);
      assert Keys(es) == [head] + tail;
      ElementsCons(head, tail);
      if head == k {
        assert Keys(Upsert(es, k, v)) == Keys(es);
      } else {
        var rest := Upsert(es[1..], k, v);
        UpsertKeys(es[1..], k, v);
        assert Keys(Upsert(es, k, v)) == [head] + Keys(rest);
        ElementsCons(head, Keys(rest));
      }
    }
  }

  /** Setting a key grows the object only when the key is new. */
  lemma {:induction false} UpsertGrows(es: Entries, k: string, v: Types)
    ensures |Upsert(es, k, v)| == if k in Keys(es) then |es| else |es| + 1
  {
    if es != [] {
      assert Keys(es) == [es[0].0] + Keys(es[1..]);
      if es[0].0 == k {
        assert Keys(es)[0] == k;
      } else {
        UpsertGrows(es[1..], k, v);
      }
    }
  }

  /** Setting a key keeps the keys free of repetition. */
  lemma {:induction false} UpsertDistinct(es: Entries, k: string, v: Types)
    requires Distinct(Keys(es))
    ensures Distinct(Keys(Upsert(es, k, v)))
  {
    if es != [] {
      assert Keys(es) == [es[0].0] + Keys(es[1..]);
      if es[0].0 == k {
        assert Keys(Upsert(es, k, v)) == Keys(es);
      } else {
        var rest := Upsert(es[1..], k, v);
        assert Distinct(Keys(es[1..])) by {
          forall i, j | 0 <= i < j < |es| - 1 ensures Keys(es[1..])[i] != Keys(es[1..])[j] {
            assert Keys(es[1..])[i] == Keys(es)[i + 1] && Keys(es[1..])[j] == Keys(es)[j + 1];
          }
        }
        UpsertDistinct(es[1..], k, v);
        UpsertKeys(es[1..], k, v);
        assert es[0].0 !in Elements(Keys(es[1..])) by {
          assert forall j :: 0 <= j < |es| - 1 ==> Keys(es[1..])[j] == Keys(es)[j + 1] != Keys(es)[0];
        }
        var ks := Keys(Upsert(es, k, v));
        assert ks == [es[0].0] + Keys(rest);
        forall i, j | 0 <= i < j < |ks| ensures ks[i] != ks[j] {
          if i == 0 {
            assert ks[j] in Elements(Keys(rest));
          } else {
            assert ks[i] == Keys(rest)[i - 1] && ks[j] == Keys(rest)[j - 1];
          }
        }
      }
    }
  }

  /** The entries built from the scans of all readings. As written
      (`by_reading` false) each entry is keyed by the LEFTOVER reading; keyed
      by the reading itself (`by_reading` true) it is what the later checks
      on the number of entries evidently expect. */
  function EntriesOf(characters: string, readings: seq<string>, kanji_data: Decomposition.KanjiMap,
                     isKanji: char -> bool, by_reading: bool): Result<Entries, DecompError>
  {
    if readings == [] then Ok([])
    else
      var last := readings[|readings| - 1];
      match EntriesOf(characters, readings[..|readings| - 1], kanji_data, isKanji, by_reading)
      case Err(e) => Err(e)
      case Ok(es) =>
        match ScanFrom(characters, last, kanji_data, isKanji)
        case Err(e) => Err(e)
        case Ok(sc) => Ok(Upsert(es, if by_reading then last else sc.leftover, sc.kanji_types))
  }

  /** More than one entry, or none, is an error; otherwise the only entry's
      types are used. */
  function VocabularyTypes(es: Entries): (t: Result<Types, LessonError>)
    ensures t.Ok? <==> |es| == 1
    ensures |es| == 0 ==> t == Err(NoVocabularyReading)
    ensures |es| > 1 ==> t == Err(MultipleVocabularyReadings)
  {
    if |es| > 1 then Err(MultipleVocabularyReadings)
    else if |es| == 0 then Err(NoVocabularyReading)
    else Ok(es[0].1)
  }

  /** Keyed by reading, the entries have one distinct key per distinct reading. */
  lemma {:induction false} ReadingKeyedEntries(characters: string, readings: seq<string>, kanji_data: Decomposition.KanjiMap, isKanji: char -> bool)
    requires EntriesOf(characters, readings, kanji_data, isKanji, true).Ok?
    ensures var es := EntriesOf(characters, readings, kanji_data, isKanji, true).value;
            Elements(Keys(es)) == Elements(readings) && Distinct(Keys(es)) && |es| == |Elements(readings)|
  {
    var es := EntriesOf(characters, readings, kanji_data, isKanji, true).value;
    if readings != [] {
      var init, last := readings[..|readings| - 1], readings[|readings| - 1];
      var prev := EntriesOf(characters, init, kanji_data, isKanji, true).value;
      var sc := ScanFrom(characters, last, kanji_data, isKanji).value;
      assert es == Upsert(prev, last, sc.kanji_types);
      ReadingKeyedEntries(characters, init, kanji_data, isKanji);
      UpsertKeys(prev, last, sc.kanji_types);
      UpsertDistinct(prev, last, sc.kanji_types);
      ElementsOfInitLast(readings);
    }
    ElementsCardinality(Keys(es));
  }

  /** Keyed by reading, a vocabulary word gets its types exactly when it has
      one distinct reading, and then they are that reading's scan. */
  lemma {:induction false} ReadingKeyedSingle(characters: string, readings: seq<string>, kanji_data: Decomposition.KanjiMap, isKanji: char -> bool)
    requires EntriesOf(characters, readings, kanji_data, isKanji, true).Ok?
    ensures var es := EntriesOf(characters, readings, kanji_data, isKanji, true).value;
            && (VocabularyTypes(es).Ok? <==> |Elements(readings)| == 1)
            && (readings == [] ==> VocabularyTypes(es) == Err(NoVocabularyReading))
            && (|Elements(readings)| > 1 ==> VocabularyTypes(es) == Err(MultipleVocabularyReadings))
            && (|Elements(readings)| == 1 ==>
                  VocabularyTypes(es) == Ok(ScanFrom(characters, readings[|readings| - 1], kanji_data, isKanji).value.kanji_types))
  {
    ReadingKeyedEntries(characters, readings, kanji_data, isKanji);
    var es := EntriesOf(characters, readings, kanji_data, isKanji, true).value;
    if readings == [] {
      assert Elements(readings) == {};
    }
    if |Elements(readings)| == 1 {
      var last := readings[|readings| - 1];
      var init := readings[..|readings| - 1];
      var prev := EntriesOf(characters, init, kanji_data, isKanji, true).value;
      ReadingKeyedEntries(characters, init, kanji_data, isKanji);
      ElementsOfInitLast(readings);
      assert last in Elements(readings);
      if prev != [] {
        assert prev[0].0 in Elements(Keys(prev));
        assert Elements(init) <= Elements(readings);
        assert prev[0].0 == last;
      }
    }
  }

  /** A kanji read either ひ or にち, as in 日. */
  const NichiData: Decomposition.KanjiMap :=
    map['日' := [Decomposition.Candidate("ひ", KUNYOMI), Decomposition.Candidate("にち", ONYOMI)]]

  lemma ScanOfHi(isKanji: char -> bool)
    requires isKanji('日')
    ensures ScanFrom("日", "ひ", NichiData, isKanji) == Ok(Scan("", [None, Some(KUNYOMI)]))
  {
    var hi, nichi := Decomposition.Candidate("ひ", KUNYOMI), Decomposition.Candidate("にち", ONYOMI);
    assert NichiData['日'] == [hi, nichi];
    assert [hi, nichi][1..] == [nichi] && [nichi][1..] == [];
    assert !("にち" <= "ひ");
    assert Decomposition.Viable([nichi], "ひ") == [];
    assert Decomposition.Viable([hi, nichi], "ひ") == [hi];
    assert Nones(1) == [None];
    assert "日"[1..] == [] && "ひ"[1..] == [];
    assert ScanFrom([], [], NichiData, isKanji) == Ok(Scan("", []));
    var cs, r := "日", "ひ";
    assert cs[0] != r[0] && isKanji(cs[0]) && cs[0] in NichiData;
    var v := Decomposition.Viable(NichiData[cs[0]], r);
    assert v == [hi];
    assert |v[0].reading| == 1 && r[1..] == [] && cs[1..] == [];
    assert ScanFrom(cs, r, NichiData, isKanji) == PrependScan(Nones(1) + [Some(KUNYOMI)], ScanFrom([], [], NichiData, isKanji));
    var t: seq<Option<ReadingType>> := [None, Some(KUNYOMI)];
    var none: seq<Option<ReadingType>> := [];
    assert Nones(1) + [Some(KUNYOMI)] == t && t + none == t;
  }

  lemma ScanOfNichi(isKanji: char -> bool)
    requires isKanji('日')
    ensures ScanFrom("日", "にち", NichiData, isKanji) == Ok(Scan("", [None, None, Some(ONYOMI)]))
  {
    var hi, nichi := Decomposition.Candidate("ひ", KUNYOMI), Decomposition.Candidate("にち", ONYOMI);
    assert NichiData['日'] == [hi, nichi];
    assert [hi, nichi][1..] == [nichi] && [nichi][1..] == [];
    assert "ひ"[0] != "にち"[0];
    assert Decomposition.Viable([nichi], "にち") == [nichi];
    assert Decomposition.Viable([hi, nichi], "にち") == [nichi];
    assert Nones(2) == [None, None];
    assert "日"[1..] == [] && "にち"[2..] == [];
    assert ScanFrom([], [], NichiData, isKanji) == Ok(Scan("", []));
    var cs, r := "日", "にち";
    assert cs[0] != r[0] && isKanji(cs[0]) && cs[0] in NichiData;
    var v := Decomposition.Viable(NichiData[cs[0]], r);
    assert v == [nichi];
    assert |v[0].reading| == 2 && r[2..] == [] && cs[1..] == [];
    assert ScanFrom(cs, r, NichiData, isKanji) == PrependScan(Nones(2) + [Some(ONYOMI)], ScanFrom([], [], NichiData, isKanji));
    var t: seq<Option<ReadingType>> := [None, None, Some(ONYOMI)];
    var none: seq<Option<ReadingType>> := [];
    assert Nones(2) + [Some(ONYOMI)] == t && t + none == t;
  }

  /** As written, readings that are both fully consumed share the key "", so
      a kanji with two readings is not rejected: ひ and にち of 日 collapse to
      one entry holding the types of にち. Keyed by reading, the same word is
      rejected. */
  lemma LeftoverKeyCollapsesReadings(isKanji: char -> bool)
    requires isKanji('日')
    ensures EntriesOf("日", ["ひ", "にち"], NichiData, isKanji, false) == Ok([("", [None, None, Some(ONYOMI)])])
    ensures EntriesOf("日", ["ひ", "にち"], NichiData, isKanji, true)
            == Ok([("ひ", [None, Some(KUNYOMI)]), ("にち", [None, None, Some(ONYOMI)])])
  {
    ScanOfHi(isKanji);
    ScanOfNichi(isKanji);
    var rs: seq<string> := ["ひ", "にち"];
    var one: seq<string> := ["ひ"];
    assert rs[..1] == one && one[..0] == [];
    assert rs[1] == "にち" && one[0] == "ひ";
    assert EntriesOf("日", one, NichiData, isKanji, false) == Ok([("", [None, Some(KUNYOMI)])]);
    assert EntriesOf("日", one, NichiData, isKanji, true) == Ok([("ひ", [None, Some(KUNYOMI)])]);
    var t1: Types := [None, Some(KUNYOMI)];
    var t2: Types := [None, None, Some(ONYOMI)];
    var byLeft: Entries := [("", t1)];
    var byReading: Entries := [("ひ", t1)];
    assert byLeft[1..] == [] && byReading[1..] == [];
    assert Upsert(byLeft, "", t2) == [("", t2)];
    assert "ひ" != "にち";
    assert Upsert([], "にち", t2) == [("にち", t2)];
    assert Upsert(byReading, "にち", t2) == [("ひ", t1), ("にち", t2)];
  }

  /** Consequently the as-written word gets types while the corrected one is
      refused with "Multiple Vocabulary reading". */
  lemma LeftoverKeyAcceptsTwoReadings(isKanji: char -> bool)
    requires isKanji('日')
    ensures var es := EntriesOf("日", ["ひ", "にち"], NichiData, isKanji, false);
            es.Ok? && VocabularyTypes(es.value) == Ok([None, None, Some(ONYOMI)])
    ensures var es := EntriesOf("日", ["ひ", "にち"], NichiData, isKanji, true);
            es.Ok? && VocabularyTypes(es.value) == Err(MultipleVocabularyReadings)
  {
    LeftoverKeyCollapsesReadings(isKanji);
  }

  // ---------------------------------------------------------------------
  // Variant generation

  function AllTexts(rs: seq<KanjiReadingRecord>): (ts: seq<string>)
    ensures |ts| == |rs| && forall i :: 0 <= i < |rs| ==> ts[i] == rs[i].reading
  {
    if rs == [] then [] else [rs[0].reading] + AllTexts(rs[1..])
  }

  /** `readings.filter((r) => r.type === t).map((r) => r.reading)`. */
  function TextsOfType(rs: seq<KanjiReadingRecord>, t: ReadingType): (ts: seq<string>)
    ensures forall x :: x in ts ==> exists r :: r in rs && r.reading == x && r.reading_type == t
    ensures forall r :: r in rs && r.reading_type == t ==> r.reading in ts
    ensures IsSubsequence(ts, AllTexts(rs))
  {
    if rs == [] then []
    else
      var rest := TextsOfType(rs[1..], t);
      assert forall r :: r in rs ==> r == rs[0] || r in rs[1..];
      assert AllTexts(rs)[1..] == AllTexts(rs[1..]);
      if rs[0].reading_type == t then
        assert ([rs[0].reading] + rest)[1..] == rest;
        [rs[0].reading] + rest
      else rest
  }

  /** The kunyomi, onyomi and nanori lists split the readings between them:
      together they hold every reading text exactly as often as it occurs. */
  lemma {:induction false} ReadingTypesPartition(rs: seq<KanjiReadingRecord>)
    ensures multiset(TextsOfType(rs, KUNYOMI)) + multiset(TextsOfType(rs, ONYOMI)) + multiset(TextsOfType(rs, NANORI))
            == multiset(AllTexts(rs))
  {
    if rs != [] {
      ReadingTypesPartition(rs[1..]);
      assert AllTexts(rs) == [rs[0].reading] + AllTexts(rs[1..]);
    }
  }

  /** `string_map`: undefined entries become "not_a_kanji". */
  function StringMap(types: Types): (m: seq<TypeEntry>)
    ensures |m| == |types|
    ensures forall i :: 0 <= i < |types| ==> (m[i] == NotAKanji <==> types[i].None?)
    ensures forall i :: 0 <= i < |types| && types[i].Some? ==> m[i] == KanjiType(types[i].value)
  {
    if types == [] then []
    else [if types[0].None? then NotAKanji else KanjiType(types[0].value)] + StringMap(types[1..])
  }

  /** What the `subjects.map` callback yields for one subject: all of its
      lessons, or the error it throws. */
  function LessonsOf(e: SubjectEntry, kanji_data: Decomposition.KanjiMap, isKanji: char -> bool): Result<seq<Lesson>, LessonError>
  {
    var id, skill, kind := e.subject_id, e.skill_level, ObjectName(e.subject);
    match e.subject
    case KanjiSubject(symbol, meanings, readings) =>
      Ok([Lesson(KanjiNanKunOnYomi,
                 KanjiReadingsData(symbol, TextsOfType(readings, KUNYOMI), TextsOfType(readings, ONYOMI), TextsOfType(readings, NANORI)),
                 id, kind, skill),
          Lesson(ReadingAndMeaning, ReadingMeaningData(meanings, AllTexts(readings), ToMeanings), id, kind, skill),
          Lesson(ReadingAndMeaning, ReadingMeaningData(meanings, AllTexts(readings), ToReadings), id, kind, skill)])
    case VocabularySubject(txt, meanings, readings) =>
      var quizzes := [Lesson(SymbolAndMeaning, SymbolMeaningData(txt, meanings, ToMeanings), id, kind, skill),
                      Lesson(SymbolAndMeaning, SymbolMeaningData(txt, meanings, ToSymbol), id, kind, skill),
                      Lesson(ReadingAndMeaning, ReadingMeaningData(meanings, readings, ToMeanings), id, kind, skill),
                      Lesson(ReadingAndMeaning, ReadingMeaningData(meanings, readings, ToReadings), id, kind, skill)];
      (match EntriesOf(txt, readings, kanji_data, isKanji, true)
       case Err(d) => Err(DecompositionFailed(d))
       case Ok(es) =>
         match VocabularyTypes(es)
         case Err(err) => Err(err)
         case Ok(types) => Ok(quizzes + [Lesson(VocabularyKunOnYomi, VocabularyTypesData(txt, StringMap(types)), id, kind, skill)]))
    case RadicalSubject(characters, meanings) =>
      if characters.None? then Err(NoCharacters)
      else Ok([Lesson(SymbolAndMeaning, SymbolMeaningData(characters.value, meanings, ToMeanings), id, kind, skill)])
    case OtherSubject(object_name) => Err(UnsupportedSubjectType(object_name))
  }

  /** The lessons of a subject are about it and include a level-0 lesson. */
  lemma LessonsOfAboutSubject(e: SubjectEntry, kanji_data: Decomposition.KanjiMap, isKanji: char -> bool)
    ensures var res := LessonsOf(e, kanji_data, isKanji);
            res.Ok? ==> forall l :: l in res.value ==>
              l.subject_id == e.subject_id && l.skill_level == e.skill_level && l.subject_type == ObjectName(e.subject)
    ensures var res := LessonsOf(e, kanji_data, isKanji);
            res.Ok? ==> exists l :: l in res.value && RequiredLevel(l.lesson_type) == 0
  {
    var res := LessonsOf(e, kanji_data, isKanji);
    if res.Ok? {
      assert res.value[0] in res.value;
    }
  }

  /** A kanji always gets three lessons: its readings split by type, then
      both reading/meaning directions over all its readings. */
  lemma KanjiLessonsOf(e: SubjectEntry, kanji_data: Decomposition.KanjiMap, isKanji: char -> bool)
    requires e.subject.KanjiSubject?
    ensures var res := LessonsOf(e, kanji_data, isKanji);
            var s := e.subject;
            && res.Ok? && |res.value| == 3
            && res.value[0].required_data == KanjiReadingsData(s.characters, TextsOfType(s.kanji_readings, KUNYOMI),
                                                                TextsOfType(s.kanji_readings, ONYOMI), TextsOfType(s.kanji_readings, NANORI))
            && res.value[1].required_data == ReadingMeaningData(s.meanings, AllTexts(s.kanji_readings), ToMeanings)
            && res.value[2].required_data == ReadingMeaningData(s.meanings, AllTexts(s.kanji_readings), ToReadings)
  {
  }

  /** A vocabulary word gets five lessons when its readings are all the same
      reading; a decomposition failure, no reading or several distinct
      readings are errors. */
  lemma VocabularyLessonsOf(e: SubjectEntry, kanji_data: Decomposition.KanjiMap, isKanji: char -> bool)
    requires e.subject.VocabularySubject?
    ensures var res := LessonsOf(e, kanji_data, isKanji);
            var s := e.subject;
            var entries := EntriesOf(s.characters, s.readings, kanji_data, isKanji, true);
            && (entries.Err? ==> res == Err(DecompositionFailed(entries.error)))
            && (entries.Ok? ==> (res.Ok? <==> |Elements(s.readings)| == 1))
            && (res.Ok? ==>
                  && |res.value| == 5
                  && res.value[0].required_data == SymbolMeaningData(s.characters, s.meanings, ToMeanings)
                  && res.value[1].required_data == SymbolMeaningData(s.characters, s.meanings, ToSymbol)
                  && res.value[2].required_data == ReadingMeaningData(s.meanings, s.readings, ToMeanings)
                  && res.value[3].required_data == ReadingMeaningData(s.meanings, s.readings, ToReadings)
                  && res.value[4].required_data == VocabularyTypesData(s.characters,
                       StringMap(ScanFrom(s.characters, s.readings[|s.readings| - 1], kanji_data, isKanji).value.kanji_types)))
  {
    var s := e.subject;
    if EntriesOf(s.characters, s.readings, kanji_data, isKanji, true).Ok? {
      ReadingKeyedSingle(s.characters, s.readings, kanji_data, isKanji);
    }
  }

  /** A radical gets its one lesson exactly when it has characters; any
      other object is unsupported. */
  lemma RadicalLessonsOf(e: SubjectEntry, kanji_data: Decomposition.KanjiMap, isKanji: char -> bool)
    ensures var res := LessonsOf(e, kanji_data, isKanji);
            e.subject.RadicalSubject? ==>
              (res.Ok? <==> e.subject.radical_characters.Some?)
              && (res.Ok? ==> res.value == [Lesson(SymbolAndMeaning,
                    SymbolMeaningData(e.subject.radical_characters.value, e.subject.meanings, ToMeanings),
                    e.subject_id, "radical", e.skill_level)])
              && (res.Err? ==> res.error == NoCharacters)
    ensures var res := LessonsOf(e, kanji_data, isKanji);
            e.subject.OtherSubject? ==> res == Err(UnsupportedSubjectType(e.subject.object_name))
  {
  }

  /** The lessons of one subject (the body of the `subjects.map` callback). */
  method SubjectLessons(e: SubjectEntry, kanji_data: Decomposition.KanjiMap, isKanji: char -> bool)
    returns (res: Result<seq<Lesson>, LessonError>)
    ensures res == LessonsOf(e, kanji_data, isKanji)
  {
    var s := e.subject;
    var id, skill, kind := e.subject_id, e.skill_level, ObjectName(s);
    var new_lessons: seq<Lesson> := [];
    match s {
      case KanjiSubject(symbol, meanings, readings) =>
        new_lessons := new_lessons + [Lesson(KanjiNanKunOnYomi,
          KanjiReadingsData(symbol, TextsOfType(readings, KUNYOMI), TextsOfType(readings, ONYOMI), TextsOfType(readings, NANORI)),
          id, kind, skill)];
        new_lessons := new_lessons + [Lesson(ReadingAndMeaning, ReadingMeaningData(meanings, AllTexts(readings), ToMeanings), id, kind, skill)];
        new_lessons := new_lessons + [Lesson(ReadingAndMeaning, ReadingMeaningData(meanings, AllTexts(readings), ToReadings), id, kind, skill)];
        assert new_lessons == LessonsOf(e, kanji_data, isKanji).value;
      case VocabularySubject(txt, meanings, readings) =>
        new_lessons := new_lessons + [Lesson(SymbolAndMeaning, SymbolMeaningData(txt, meanings, ToMeanings), id, kind, skill)];
        new_lessons := new_lessons + [Lesson(SymbolAndMeaning, SymbolMeaningData(txt, meanings, ToSymbol), id, kind, skill)];
        new_lessons := new_lessons + [Lesson(ReadingAndMeaning, ReadingMeaningData(meanings, readings, ToMeanings), id, kind, skill)];
        new_lessons := new_lessons + [Lesson(ReadingAndMeaning, ReadingMeaningData(meanings, readings, ToReadings), id, kind, skill)];
        var entries := EntriesOf(txt, readings, kanji_data, isKanji, true);
        if entries.Err? {
          return Err(DecompositionFailed(entries.error));
        }
        var kanji_type := VocabularyTypes(entries.value);
        if kanji_type.Err? {
          return Err(kanji_type.error);
        }
        new_lessons := new_lessons + [Lesson(VocabularyKunOnYomi, VocabularyTypesData(txt, StringMap(kanji_type.value)), id, kind, skill)];
        assert new_lessons == LessonsOf(e, kanji_data, isKanji).value;
      case RadicalSubject(characters, meanings) =>
        if characters.None? {
          return Err(NoCharacters);
        }
        new_lessons := new_lessons + [Lesson(SymbolAndMeaning, SymbolMeaningData(characters.value, meanings, ToMeanings), id, kind, skill)];
        assert new_lessons == LessonsOf(e, kanji_data, isKanji).value;
      case OtherSubject(object_name) =>
        return Err(UnsupportedSubjectType(object_name));
    }
    res := Ok(new_lessons);
  }

  /** The final filter by the older level table. */
  function FilterByLevel(ls: seq<Lesson>): (f: seq<Lesson>)
    ensures IsSubsequence(f, ls)
    ensures forall l :: l in f <==> l in ls && RequiredLevel(l.lesson_type) <= l.skill_level
  {
    if ls == [] then []
    else
      var rest := FilterByLevel(ls[1..]);
      assert forall l :: l in ls ==> l == ls[0] || l in ls[1..];
      if RequiredLevel(ls[0].lesson_type) <= ls[0].skill_level then
        assert ([ls[0]] + rest)[1..] == rest;
        [ls[0]] + rest
      else rest
  }

  /** The filter keeps a lesson as often as it occurs when it meets the
      table, and never otherwise. */
  lemma {:induction false} FilterByLevelCount(ls: seq<Lesson>, x: Lesson)
    ensures multiset(FilterByLevel(ls))[x] == if RequiredLevel(x.lesson_type) <= x.skill_level then multiset(ls)[x] else 0
  {
    if ls != [] {
      FilterByLevelCount(ls[1..], x);
      assert ls == [ls[0]] + ls[1..];
    }
  }

  /** Reordering before the filter only reorders what the filter keeps. */
  lemma FilterByLevelPermutes(a: seq<Lesson>, b: seq<Lesson>)
    requires multiset(a) == multiset(b)
    ensures multiset(FilterByLevel(a)) == multiset(FilterByLevel(b))
  {
    forall x ensures multiset(FilterByLevel(a))[x] == multiset(FilterByLevel(b))[x] {
      FilterByLevelCount(a, x);
      FilterByLevelCount(b, x);
    }
  }

  /** The lessons of all subjects, in subject order (`.flat()`). */
  function AllLessons(subjects: seq<SubjectEntry>, kanji_data: Decomposition.KanjiMap, isKanji: char -> bool): seq<Lesson>
    requires forall i :: 0 <= i < |subjects| ==> LessonsOf(subjects[i], kanji_data, isKanji).Ok?
  {
    if subjects == [] then []
    else AllLessons(subjects[..|subjects| - 1], kanji_data, isKanji) + LessonsOf(subjects[|subjects| - 1], kanji_data, isKanji).value
  }

  function SkillKey(l: Lesson): int
  {
    l.skill_level
  }

  /** The lesson carries the id and skill level of one of the first n subjects. */
  ghost predicate FromSubjects(l: Lesson, subjects: seq<SubjectEntry>, n: nat)
    requires n <= |subjects|
  {
    exists j :: 0 <= j < n && l.subject_id == subjects[j].subject_id && l.skill_level == subjects[j].skill_level
  }

  /** Among the lessons is a level-0 lesson of the subject. */
  ghost predicate Introduces(ls: seq<Lesson>, e: SubjectEntry)
  {
    exists l :: l in ls && l.subject_id == e.subject_id && l.skill_level == e.skill_level && RequiredLevel(l.lesson_type) == 0
  }

  /** Appending a subject's batch keeps every lesson tied to a subject. */
  lemma BatchFromSubjects(subjects: seq<SubjectEntry>, i: nat, all: seq<Lesson>, batch: seq<Lesson>)
    requires i < |subjects|
    requires forall l :: l in all ==> FromSubjects(l, subjects, i)
    requires forall l :: l in batch ==> l.subject_id == subjects[i].subject_id && l.skill_level == subjects[i].skill_level
    ensures forall l :: l in all + batch ==> FromSubjects(l, subjects, i + 1)
  {
    forall l | l in all + batch ensures FromSubjects(l, subjects, i + 1) {
      if l in all {
        var j :| 0 <= j < i && l.subject_id == subjects[j].subject_id && l.skill_level == subjects[j].skill_level;
      } else {
        assert l in batch;
      }
    }
  }

  /** Appending a subject's batch keeps the earlier subjects introduced and
      introduces this one. */
  lemma BatchIntroduces(subjects: seq<SubjectEntry>, i: nat, all: seq<Lesson>, batch: seq<Lesson>)
    requires i < |subjects|
    requires forall j :: 0 <= j < i ==> Introduces(all, subjects[j])
    requires Introduces(batch, subjects[i])
    ensures forall j :: 0 <= j < i + 1 ==> Introduces(all + batch, subjects[j])
  {
    forall j | 0 <= j < i + 1 ensures Introduces(all + batch, subjects[j]) {
      var e := subjects[j];
      if j < i {
        assert Introduces(all, e);
        var l :| l in all && l.subject_id == e.subject_id && l.skill_level == e.skill_level && RequiredLevel(l.lesson_type) == 0;
        assert l in all + batch;
      } else {
        var l :| l in batch && l.subject_id == e.subject_id && l.skill_level == e.skill_level && RequiredLevel(l.lesson_type) == 0;
        assert l in all + batch;
      }
    }
  }

  /** The lessons of the first i subjects all come from those subjects, and
      introduce each of them. */
  lemma {:induction false} AllLessonsFromSubjects(subjects: seq<SubjectEntry>, i: nat, kanji_data: Decomposition.KanjiMap, isKanji: char -> bool)
    requires i <= |subjects|
    requires forall j :: 0 <= j < i ==> LessonsOf(subjects[j], kanji_data, isKanji).Ok?
    ensures forall l :: l in AllLessons(subjects[..i], kanji_data, isKanji) ==> FromSubjects(l, subjects, i)
    ensures forall j :: 0 <= j < i ==> Introduces(AllLessons(subjects[..i], kanji_data, isKanji), subjects[j])
  {
    if i > 0 {
      assert subjects[..i][..i - 1] == subjects[..i - 1];
      var all := AllLessons(subjects[..i - 1], kanji_data, isKanji);
      var batch := LessonsOf(subjects[i - 1], kanji_data, isKanji).value;
      assert AllLessons(subjects[..i], kanji_data, isKanji) == all + batch;
      AllLessonsFromSubjects(subjects, i - 1, kanji_data, isKanji);
      LessonsOfAboutSubject(subjects[i - 1], kanji_data, isKanji);
      BatchFromSubjects(subjects, i - 1, all, batch);
      BatchIntroduces(subjects, i - 1, all, batch);
    }
  }

  /** Reordering and filtering keep every lesson tied to a subject. */
  lemma FilterFromSubjects(subjects: seq<SubjectEntry>, all: seq<Lesson>, ordered: seq<Lesson>)
    requires multiset(ordered) == multiset(all)
    requires forall l :: l in all ==> FromSubjects(l, subjects, |subjects|)
    ensures forall l :: l in FilterByLevel(ordered) ==> FromSubjects(l, subjects, |subjects|)
  {
    forall l | l in FilterByLevel(ordered) ensures FromSubjects(l, subjects, |subjects|) {
      assert l in multiset(all);
    }
  }

  /** Reordering and filtering keep the level-0 lesson of every subject whose
      skill level is not negative. */
  lemma FilterKeepsIntroductions(subjects: seq<SubjectEntry>, all: seq<Lesson>, ordered: seq<Lesson>)
    requires multiset(ordered) == multiset(all)
    requires forall j :: 0 <= j < |subjects| ==> Introduces(all, subjects[j])
    ensures forall j :: 0 <= j < |subjects| && subjects[j].skill_level >= 0 ==>
              exists l :: l in FilterByLevel(ordered) && l.subject_id == subjects[j].subject_id
  {
    forall j | 0 <= j < |subjects| && subjects[j].skill_level >= 0
      ensures exists l :: l in FilterByLevel(ordered) && l.subject_id == subjects[j].subject_id
    {
      var l :| l in all && l.subject_id == subjects[j].subject_id && l.skill_level == subjects[j].skill_level
               && RequiredLevel(l.lesson_type) == 0;
      assert l in multiset(ordered);
      assert l in FilterByLevel(ordered);
    }
  }

  /** One more subject appends its lessons to the concatenation. */
  lemma AllLessonsStep(subjects: seq<SubjectEntry>, i: nat, kanji_data: Decomposition.KanjiMap, isKanji: char -> bool)
    requires i < |subjects|
    requires forall j :: 0 <= j <= i ==> LessonsOf(subjects[j], kanji_data, isKanji).Ok?
    ensures AllLessons(subjects[..i + 1], kanji_data, isKanji)
            == AllLessons(subjects[..i], kanji_data, isKanji) + LessonsOf(subjects[i], kanji_data, isKanji).value
  {
    assert subjects[..i + 1][..i] == subjects[..i];
  }

  /** The per-subject callbacks under `Promise.all`, then `.flat()`. */
  method CollectLessons(subjects: seq<SubjectEntry>, kanji_data: Decomposition.KanjiMap, isKanji: char -> bool)
    returns (res: Result<seq<Lesson>, LessonError>)
    ensures res.Ok? <==> forall i :: 0 <= i < |subjects| ==> LessonsOf(subjects[i], kanji_data, isKanji).Ok?
    ensures res.Err? ==> exists i :: 0 <= i < |subjects| && LessonsOf(subjects[i], kanji_data, isKanji) == Err(res.error)
    ensures res.Ok? ==> res.value == AllLessons(subjects, kanji_data, isKanji)
  {
    var all: seq<Lesson> := [];
    for i := 0 to |subjects|
      invariant forall j :: 0 <= j < i ==> LessonsOf(subjects[j], kanji_data, isKanji).Ok?
      invariant all == AllLessons(subjects[..i], kanji_data, isKanji)
    {
      var lessons := SubjectLessons(subjects[i], kanji_data, isKanji);
      if lessons.Err? {
        assert LessonsOf(subjects[i], kanji_data, isKanji) == Err(lessons.error);
        return Err(lessons.error);
      }
      AllLessonsStep(subjects, i, kanji_data, isKanji);
      all := all + lessons.value;
    }
    assert subjects[..|subjects|] == subjects;
    return Ok(all);
  }

  /** `get_lessons`: it fails exactly when some subject's callback fails,
      with that subject's error; otherwise all lessons of all subjects,
      ordered by skill level (the random tie-break is a choice among the
      orderings), then filtered. A random key of less than 0.5 added to an
      integer level never reorders two different levels. */
  method GetLessons(subjects: seq<SubjectEntry>, kanji_data: Decomposition.KanjiMap, isKanji: char -> bool)
    returns (res: Result<seq<Lesson>, LessonError>)
    ensures res.Ok? <==> forall i :: 0 <= i < |subjects| ==> LessonsOf(subjects[i], kanji_data, isKanji).Ok?
    ensures res.Err? ==> exists i :: 0 <= i < |subjects| && LessonsOf(subjects[i], kanji_data, isKanji) == Err(res.error)
    ensures res.Ok? ==> multiset(res.value) == multiset(FilterByLevel(AllLessons(subjects, kanji_data, isKanji)))
    ensures res.Ok? ==> SortedBy(res.value, SkillKey)
    ensures res.Ok? ==> forall l :: l in res.value ==> RequiredLevel(l.lesson_type) <= l.skill_level
    ensures res.Ok? ==> forall l :: l in res.value ==> FromSubjects(l, subjects, |subjects|)
    ensures res.Ok? ==> forall j :: 0 <= j < |subjects| && subjects[j].skill_level >= 0 ==>
              exists l :: l in res.value && l.subject_id == subjects[j].subject_id
  {
    var collected := CollectLessons(subjects, kanji_data, isKanji);
    if collected.Err? {
      return Err(collected.error);
    }
    var all := collected.value;
    AllLessonsFromSubjects(subjects, |subjects|, kanji_data, isKanji);
    assert subjects[..|subjects|] == subjects;
    assert SortedBy(SortBy(all, SkillKey), SkillKey) && multiset(SortBy(all, SkillKey)) == multiset(all);
    var ordered :| SortedBy(ordered, SkillKey) && multiset(ordered) == multiset(all);
    var kept := FilterByLevel(ordered);
    SubsequenceOfSorted(kept, ordered, SkillKey);
    FilterFromSubjects(subjects, all, ordered);
    FilterKeepsIntroductions(subjects, all, ordered);
    FilterByLevelPermutes(ordered, all);
    res := Ok(kept);
  }
}

=== FILE: legacy_session.dfy ===
/** Session assembly of the older app (src/routes/api/user/get_lesson_subjects/+server.ts
    and its predecessor src/routes/api/user/get_lesson_subjects.ts). The due
    reviews are the whole response; new subjects of the current level are
    written to the store only while the due and next-day reviews stay under
    the daily limit of 20, and they are not returned. */
module LegacySession {
  import opened Results
  import opened SeqUtil
  import opened Session

  const DailyLessonLimit: int := 20

  /** `!current_level`: an absent level and level 0 both fail. */
  predicate HasCurrentLevel(levels: map<int, int>, progress_id: int)
  {
    progress_id in levels && levels[progress_id] != 0
  }

  /** What the older endpoints do for an authenticated progress, as a
      relation between the response and the rows before and after: 400
      exactly for an amount outside 1..100; 500 exactly when new subjects
      are to be added (the due reviews fall short of `amount` and, with the
      next-day reviews, of the daily limit) but the progress has no current
      level, the catalogue has no such level or a subject to add is unknown;
      the rows change only when subjects are added, by their new records;
      a success returns the latest `amount` due reviews, latest first. */
  ghost predicate LegacyOutcome(r: Result<seq<SessionLesson>, HttpError>, before: seq<ProgressRow>, after: seq<ProgressRow>,
                                levels: map<int, int>, progress_id: int, amount: int, now: int,
                                catalogue: map<int, seq<int>>, known: set<int>)
  {
    var due := Selects(DueRows(before, progress_id, now));
    var window := Selects(WindowRows(before, progress_id, now, now + DayMillis));
    var adding := |due| < amount && |due| + |window| < DailyLessonLimit;
    var fails := adding && (|| !HasCurrentLevel(levels, progress_id)
                            || levels[progress_id] !in catalogue
                            || exists id :: id in LegacyToAdd(before, progress_id, levels[progress_id], amount, |window|, catalogue, due)
                                            && id !in known);
    && (r == Err(HttpError(400)) <==> !(1 <= amount <= 100))
    && (r == Err(HttpError(500)) <==> 1 <= amount <= 100 && fails)
    && (r.Err? ==> (r == Err(HttpError(400)) || r == Err(HttpError(500))) && after == before)
    && (r.Ok? ==>
          && |r.value| == Min(amount, |due|)
          && SortedBy(r.value, Recency)
          && multiset(r.value) <= multiset(due)
          && (forall x, y :: x in r.value && y in multiset(due) - multiset(r.value) ==> y.next_review <= x.next_review)
          && (forall l :: l in r.value ==> l.next_review <= now)
          && (!adding ==> after == before)
          && (adding ==> && HasCurrentLevel(levels, progress_id)
                         && after == before + NewRows(LegacyToAdd(before, progress_id, levels[progress_id], amount, |window|, catalogue, due),
                                                      progress_id, now, levels[progress_id])))
  }

  /** The staged assembly for an authenticated progress. `catalogue` is
      `get_subjects_by_level`, which fails for a level it does not hold, and
      `known` holds the ids `get_subject_by_id` resolves. */
  method AssembleLegacySession(store: ProgressStore, progress_id: int, amount: int, now: int,
                               catalogue: map<int, seq<int>>, known: set<int>)
    returns (r: Result<seq<SessionLesson>, HttpError>)
    modifies store
    ensures store.current_levels == old(store.current_levels)
    ensures LegacyOutcome(r, old(store.rows), store.rows, store.current_levels, progress_id, amount, now, catalogue, known)
  {
    var checked := ValidateAmount(amount);
    if checked.Err? {
      return Err(checked.error);
    }
    ghost var due := store.Due(progress_id, now);
    ghost var window := store.Window(progress_id, now, now + DayMillis);
    var lessons := store.FindDue(progress_id, now, checked.value);
    if |lessons| < amount {
      var next_day := store.FindNextDay(progress_id, now);
      assert |next_day| == |multiset(next_day)| == |window|;
      var lesson_total := |next_day| + |lessons|;
      if !(lesson_total >= DailyLessonLimit) {
        var amount_to_add := DailyLessonLimit - lesson_total;
        if !HasCurrentLevel(store.current_levels, progress_id) {
          return Err(HttpError(500));
        }
        var level := store.current_levels[progress_id];
        if level !in catalogue {
          return Err(HttpError(500));
        }
        var existing := store.TrackedAt(progress_id, level);
        var possible := Untracked(catalogue[level], existing);
        var to_add := Take(possible, amount_to_add);
        assert to_add == LegacyToAdd(store.rows, progress_id, level, amount, |window|, catalogue, due);
        if !(forall id :: id in to_add ==> id in known) {
          return Err(HttpError(500));
        }
        var _ := CreateRows(store, progress_id, to_add, now, level);
      }
    }
    r := Ok(lessons);
  }

  /** The subjects the older endpoints add: untracked subjects of the level
      in catalogue order, as many as the daily limit leaves after the due
      and next-day reviews. */
  function LegacyToAdd(rows: seq<ProgressRow>, progress_id: int, level: int, amount: int, window_size: nat,
                       catalogue: map<int, seq<int>>, due: seq<SessionLesson>): (ids: seq<int>)
    ensures |ids| <= DailyLessonLimit - (Min(amount, |due|) + window_size) || |ids| == 0
    ensures forall id :: id in ids ==> NewSubject(id, rows, progress_id, level, catalogue)
  {
    ToAdd(rows, progress_id, level, DailyLessonLimit - (Min(amount, |due|) + window_size), catalogue)
  }

  /** The oldest endpoint reports a failed authentication as 401 before it
      reads the body; otherwise it behaves as the staged assembly. */
  method OldestEndpoint(store: ProgressStore, auth: Result<int, string>, amount: int, now: int,
                        catalogue: map<int, seq<int>>, known: set<int>)
    returns (r: Result<seq<SessionLesson>, HttpError>)
    modifies store
    ensures store.current_levels == old(store.current_levels)
    ensures auth.Err? ==> r == Err(HttpError(401)) && store.rows == old(store.rows)
    ensures auth.Ok? ==> LegacyOutcome(r, old(store.rows), store.rows, store.current_levels, auth.value, amount, now, catalogue, known)
  {
    if auth.Err? {
      return Err(HttpError(401));
    }
    r := AssembleLegacySession(store, auth.value, amount, now, catalogue, known);
  }
}

=== FILE: lessons.dfy ===
/** Lesson synthesis of apps/web/src/routes/lessons/get_lessons.ts: the quiz
    variants built for each (subject, skill level), the random pick of one
    variant per subject (`sample`, a nondeterministic choice here) and the
    final filter by the level table. */
module Lessons {
  import opened Results
  import opened SeqUtil
  import opened SubjectKinds
  import opened UniqueReadings
  import opened Decomposition

  datatype LessonType = ReadingAndMeaning | TextAndMeaning | VocabularyKunOnYomi | NewSubject

  /** `required_level_table`. */
  function RequiredLevel(t: LessonType): nat
  {
    match t
    case ReadingAndMeaning => 1
    case TextAndMeaning => 1
    case VocabularyKunOnYomi => 2
    case NewSubject => 0
  }

  datatype Tab = Readings | Meanings
  datatype Direction = ToMeanings | ToReadings | ToSymbol
  datatype Display = Text(text: string) | ImageUrl(url: string)

  datatype RequiredData =
    | NewSubjectData(display: Display)
    | ReadingMeaningData(readings: seq<string>, meanings: seq<string>, to: Direction)
      /** `answers` holds the readings carried by the "to symbol" direction. */
    | TextMeaningData(display: Display, meanings: seq<string>, to: Direction, answers: Option<seq<string>>)

  datatype Lesson = Lesson(lesson_type: LessonType, required_data: RequiredData, subject_id: int,
                           subject_type: SubjectType, skill_level: nat, need_input: bool, preferred_tab: Tab)

  datatype LessonError =
    | NoPrimaryReading
    | UniquenessFailed(e: UniqueError)
    | NoImageUrlOrCharacters(subject_id: int)
    | ImageUrlUndefined
    | DecompositionFailed(d: DecompError)
    | NoVocabularyReading

  function MeaningTexts(ms: seq<Meaning>): (ts: seq<string>)
    ensures |ts| == |ms| && forall i :: 0 <= i < |ms| ==> ts[i] == ms[i].meaning
  {
    if ms == [] then [] else [ms[0].meaning] + MeaningTexts(ms[1..])
  }

  /** `readings.map((r) => r.reading)`. */
  function Texts(rs: seq<Reading>): (ts: seq<string>)
    ensures |ts| == |rs| && forall i :: 0 <= i < |rs| ==> ts[i] == rs[i].reading
  {
    if rs == [] then [] else [rs[0].reading] + Texts(rs[1..])
  }

  /** `readings.find((r) => r.primary)`. */
  function FindPrimary(rs: seq<Reading>): (p: Option<Reading>)
    ensures p.None? <==> forall r :: r in rs ==> !r.primary
    ensures p.Some? ==> p.value in rs && p.value.primary
    ensures p.Some? ==> exists i :: 0 <= i < |rs| && rs[i] == p.value && forall j :: 0 <= j < i ==> !rs[j].primary
  {
    if rs == [] then None
    else if rs[0].primary then Some(rs[0])
    else
      assert forall r :: r in rs ==> r == rs[0] || r in rs[1..];
      var rest := FindPrimary(rs[1..]);
      assert rest.Some? ==> exists i :: 0 < i < |rs| && rs[i] == rest.value && forall j :: 0 <= j < i ==> !rs[j].primary by {
        if rest.Some? {
          var k :| 0 <= k < |rs[1..]| && rs[1..][k] == rest.value && forall j :: 0 <= j < k ==> !rs[1..][j].primary;
          assert forall j :: 0 <= j < k + 1 ==> !rs[j].primary by {
            forall j | 0 <= j < k + 1 ensures !rs[j].primary {
              if j > 0 { assert rs[j] == rs[1..][j - 1]; }
            }
          }
        }
      }
      rest
  }

  /** `readings.filter((r) => r.reading_type === t)`. */
  function OfType(rs: seq<Reading>, t: Option<ReadingType>): (f: seq<Reading>)
    ensures IsSubsequence(f, rs)
    ensures forall r :: r in f <==> r in rs && ReadingTypeOf(r) == t
  {
    if rs == [] then []
    else
      var rest := OfType(rs[1..], t);
      assert forall r :: r in rs ==> r == rs[0] || r in rs[1..];
      if ReadingTypeOf(rs[0]) == t then
        assert ([rs[0]] + rest)[1..] == rest;
        [rs[0]] + rest
      else rest
  }

  /** The picture of a radical: its characters when they are a non-empty
      string, else its image; neither is an error. The schema enforces
      neither "at least one" nor "not both": with both, the image is ignored. */
  function RadicalDisplay(characters: Option<string>, image_url: Option<string>, missing: LessonError): (d: Result<Display, LessonError>)
    ensures characters.Some? && characters.value != "" ==> d == Ok(Text(characters.value))
    ensures (characters.None? || characters.value == "") && image_url.Some? ==> d == Ok(ImageUrl(image_url.value))
    ensures d.Err? <==> (characters.None? || characters.value == "") && image_url.None?
    ensures d.Err? ==> d.error == missing
  {
    if characters.Some? && characters.value != "" then Ok(Text(characters.value))
    else if image_url.Some? then Ok(ImageUrl(image_url.value))
    else Err(missing)
  }

  function DirectionOf(l: Lesson): Option<Direction>
  {
    match l.required_data
    case NewSubjectData(_) => None
    case ReadingMeaningData(_, _, to) => Some(to)
    case TextMeaningData(_, _, to, _) => Some(to)
  }

  /** Some generated lesson has this type and direction. */
  predicate HasVariant(ls: seq<Lesson>, t: LessonType, to: Direction)
  {
    exists l :: l in ls && l.lesson_type == t && DirectionOf(l) == Some(to)
  }

  /** The value of an `Object.fromEntries` entry for one reading. */
  type KanjiTypes = map<string, Option<seq<Option<ReadingType>>>>

  /** `Object.fromEntries(readings.map(...))`: later entries overwrite earlier
      ones with the same key; the first thrown error aborts. */
  function KanjiTypesOf(characters: string, rs: seq<Reading>, kanji_data: KanjiMap, isKanji: char -> bool): Result<KanjiTypes, DecompError>
  {
    if rs == [] then Ok(map[])
    else
      match KanjiTypesOf(characters, rs[..|rs| - 1], kanji_data, isKanji)
      case Err(e) => Err(e)
      case Ok(m) =>
        match DecomposeFrom(characters, rs[|rs| - 1].reading, kanji_data, isKanji)
        case Err(e) => Err(e)
        case Ok(Resolved(types, _)) => Ok(m[rs[|rs| - 1].reading := Some(types)])
        case Ok(Unresolved(k)) => Ok(m[[k] := None])
  }

  /** The per-reading decompositions of a vocabulary word. */
  method ComputeKanjiTypes(characters: string, rs: seq<Reading>, kanji_data: KanjiMap, isKanji: char -> bool)
    returns (res: Result<KanjiTypes, DecompError>)
    ensures res == KanjiTypesOf(characters, rs, kanji_data, isKanji)
  {
    var m: KanjiTypes := map[];
    for i := 0 to |rs|
      invariant KanjiTypesOf(characters, rs[..i], kanji_data, isKanji) == Ok(m)
    {
      assert rs[..i + 1][..i] == rs[..i];
      var d := DecomposeReading(characters, rs[i].reading, kanji_data, isKanji);
      match d {
        case Err(e) =>
          assert KanjiTypesOf(characters, rs[..i + 1], kanji_data, isKanji) == Err(e);
          KanjiTypesErrorSticks(characters, rs, i + 1, kanji_data, isKanji);
          return Err(e);
        case Ok(Resolved(types, _)) =>
          m := m[rs[i].reading := Some(types)];
        case Ok(Unresolved(k)) =>
          m := m[[k] := None];
      }
    }
    assert rs[..|rs|] == rs;
    res := Ok(m);
  }

  lemma {:induction false} KanjiTypesErrorSticks(characters: string, rs: seq<Reading>, i: nat, kanji_data: KanjiMap, isKanji: char -> bool)
    requires i <= |rs|
    requires KanjiTypesOf(characters, rs[..i], kanji_data, isKanji).Err?
    ensures KanjiTypesOf(characters, rs, kanji_data, isKanji) == KanjiTypesOf(characters, rs[..i], kanji_data, isKanji)
    decreases |rs| - i
  {
    if i < |rs| {
      assert rs[..i + 1][..i] == rs[..i];
      KanjiTypesErrorSticks(characters, rs, i + 1, kanji_data, isKanji);
    } else {
      assert rs[..i] == rs;
    }
  }

  /** What the decompositions of all readings yield: every reading decomposed
      without error; the map is empty exactly when there is no reading; and
      when every reading resolved, each reading maps to its own kanji types. */
  lemma {:induction false} KanjiTypesShape(characters: string, rs: seq<Reading>, kanji_data: KanjiMap, isKanji: char -> bool)
    requires KanjiTypesOf(characters, rs, kanji_data, isKanji).Ok?
    ensures forall r :: r in rs ==> DecomposeFrom(characters, r.reading, kanji_data, isKanji).Ok?
    ensures KanjiTypesOf(characters, rs, kanji_data, isKanji).value == map[] <==> rs == []
    ensures (forall r :: r in rs ==> DecomposeFrom(characters, r.reading, kanji_data, isKanji).value.Resolved?) ==>
            forall r :: r in rs ==>
              var m := KanjiTypesOf(characters, rs, kanji_data, isKanji).value;
              r.reading in m && m[r.reading] == Some(DecomposeFrom(characters, r.reading, kanji_data, isKanji).value.kanji_types)
  {
    if rs != [] {
      var init, last := rs[..|rs| - 1], rs[|rs| - 1];
      KanjiTypesShape(characters, init, kanji_data, isKanji);
      assert forall r :: r in rs ==> r == last || r in init;
      var m := KanjiTypesOf(characters, rs, kanji_data, isKanji).value;
      match DecomposeFrom(characters, last.reading, kanji_data, isKanji).value {
        case Resolved(_, _) => assert last.reading in m;
        case Unresolved(k) => assert [k] in m;
      }
    }
  }

  /** A reading error from the decomposition is the error of one of the readings. */
  lemma {:induction false} KanjiTypesErrorIsReadingError(characters: string, rs: seq<Reading>, kanji_data: KanjiMap, isKanji: char -> bool)
    requires KanjiTypesOf(characters, rs, kanji_data, isKanji).Err?
    ensures exists r :: r in rs &&
              DecomposeFrom(characters, r.reading, kanji_data, isKanji) == Err(KanjiTypesOf(characters, rs, kanji_data, isKanji).error)
  {
    var init, last := rs[..|rs| - 1], rs[|rs| - 1];
    if KanjiTypesOf(characters, init, kanji_data, isKanji).Err? {
      KanjiTypesErrorIsReadingError(characters, init, kanji_data, isKanji);
      var r :| r in init && DecomposeFrom(characters, r.reading, kanji_data, isKanji)
                            == Err(KanjiTypesOf(characters, init, kanji_data, isKanji).error);
      assert r in rs;
    } else {
      assert last in rs;
    }
  }

  /** The new-subject lesson shown once, without input, at skill level 0. */
  function NewSubjectLesson(display: Display, subject_id: int, subject_type: SubjectType): Lesson
  {
    Lesson(NewSubject, NewSubjectData(display), subject_id, subject_type, 0, false, Readings)
  }

  /** The readings of the kanji's primary reading type. */
  function PrimaryTypeReadings(rs: seq<Reading>, primary: Reading): seq<Reading>
  {
    OfType(rs, ReadingTypeOf(primary))
  }

  /** Every variant is about the subject, of its kind, at its skill level. */
  ghost predicate AboutSubject(ls: LessonSubject, kind: SubjectType, lessons: seq<Lesson>)
  {
    && |lessons| > 0
    && forall l :: l in lessons ==>
         l.subject_id == ls.subject_id && l.skill_level == ls.skill_level && l.subject_type == kind
  }

  /** Skill level 0: the single new-subject lesson, which takes no input. */
  ghost predicate NewSubjectOnly(lessons: seq<Lesson>)
  {
    |lessons| == 1 && lessons[0].lesson_type == NewSubject && !lessons[0].need_input
  }

  /** Above skill level 0: only reading/text-and-meaning quizzes, all taking input. */
  ghost predicate QuizLessons(lessons: seq<Lesson>)
  {
    forall l :: l in lessons ==> (l.lesson_type == ReadingAndMeaning || l.lesson_type == TextAndMeaning) && l.need_input
  }

  /** Kanji above level 0: one or two variants. The reading-to-meaning
      variant exists exactly when some unique reading has the primary
      reading's type, and quizzes those; the meaning-to-reading variant, last,
      accepts every reading of that type; both ask for the subject's meanings. */
  ghost predicate KanjiVariants(s: SubjectData, unique: seq<Reading>, lessons: seq<Lesson>)
    requires s.KanjiData?
  {
    var primary := FindPrimary(s.readings);
    var valid := if primary.Some? then OfType(unique, ReadingTypeOf(primary.value)) else [];
    && primary.Some?
    && |lessons| == (if valid != [] then 2 else 1)
    && (HasVariant(lessons, ReadingAndMeaning, ToMeanings) <==>
          exists r :: r in unique && ReadingTypeOf(r) == ReadingTypeOf(primary.value))
    && lessons[|lessons| - 1].required_data
       == ReadingMeaningData(Texts(PrimaryTypeReadings(s.readings, primary.value)), MeaningTexts(s.meanings), ToReadings)
    && forall l :: l in lessons && DirectionOf(l) == Some(ToMeanings) ==>
         l.required_data == ReadingMeaningData(Texts(valid), MeaningTexts(s.meanings), ToMeanings)
  }

  /** Vocabulary above level 0: two to four variants. Reading-to-meaning
      exactly when some reading is unique, quizzing the unique readings;
      text-to-meaning exactly when the word is not itself one of its unique
      readings; meaning-to-reading and meaning-to-symbol always, both
      accepting every reading; all ask for the subject's meanings; and the
      word has a reading. */
  ghost predicate VocabularyVariants(s: SubjectData, unique: seq<Reading>, lessons: seq<Lesson>)
    requires s.VocabularyData?
  {
    var all := Texts(s.readings);
    var meanings := MeaningTexts(s.meanings);
    && |lessons| == 2 + (if unique != [] then 1 else 0) + (if s.characters !in Texts(unique) then 1 else 0)
    && (HasVariant(lessons, ReadingAndMeaning, ToMeanings) <==> unique != [])
    && (HasVariant(lessons, TextAndMeaning, ToMeanings) <==> s.characters !in Texts(unique))
    && (exists l :: l in lessons && l.required_data == ReadingMeaningData(all, meanings, ToReadings))
    && (exists l :: l in lessons && l.required_data == TextMeaningData(Text(s.characters), meanings, ToSymbol, Some(all)))
    && (forall l :: l in lessons && DirectionOf(l) == Some(ToMeanings) ==>
          l.required_data == (if l.lesson_type == ReadingAndMeaning then ReadingMeaningData(Texts(unique), meanings, ToMeanings)
                              else TextMeaningData(Text(s.characters), meanings, ToMeanings, None)))
    && s.readings != []
  }

  /** The kanji pushes above level 0, in order: reading-to-meaning over the
      unique readings of the primary type when there is one, then
      meaning-to-reading over every reading of that type. */
  function KanjiPushes(ls: LessonSubject, unique: seq<Reading>, primary: Reading): seq<Lesson>
    requires ls.subject.KanjiData?
  {
    var s := ls.subject;
    var valid := OfType(unique, ReadingTypeOf(primary));
    (if |valid| > 0 then [Lesson(ReadingAndMeaning, ReadingMeaningData(Texts(valid), MeaningTexts(s.meanings), ToMeanings),
                                 ls.subject_id, KANJI, ls.skill_level, true, Meanings)] else [])
    + [Lesson(ReadingAndMeaning, ReadingMeaningData(Texts(PrimaryTypeReadings(s.readings, primary)), MeaningTexts(s.meanings), ToReadings),
              ls.subject_id, KANJI, ls.skill_level, true, Readings)]
  }

  /** The vocabulary pushes above level 0, in order: reading-to-meaning (when
      a reading is unique), meaning-to-reading, text-to-meaning (when the word
      is not one of its unique readings), meaning-to-symbol. */
  function VocabularyPushes(ls: LessonSubject, unique: seq<Reading>): seq<Lesson>
    requires ls.subject.VocabularyData?
  {
    var s, id, skill := ls.subject, ls.subject_id, ls.skill_level;
    var meanings, all := MeaningTexts(s.meanings), Texts(s.readings);
    (if |unique| > 0 then [Lesson(ReadingAndMeaning, ReadingMeaningData(Texts(unique), meanings, ToMeanings),
                                  id, VOCABULARY, skill, true, Meanings)] else [])
    + [Lesson(ReadingAndMeaning, ReadingMeaningData(all, meanings, ToReadings), id, VOCABULARY, skill, true, Readings)]
    + (if s.characters !in Texts(unique) then [Lesson(TextAndMeaning, TextMeaningData(Text(s.characters), meanings, ToMeanings, None),
                                                      id, VOCABULARY, skill, true, Meanings)] else [])
    + [Lesson(TextAndMeaning, TextMeaningData(Text(s.characters), meanings, ToSymbol, Some(all)), id, VOCABULARY, skill, true, Readings)]
  }

  /** The kanji pushes meet `AboutSubject`, `QuizLessons` and `KanjiVariants`. */
  lemma {:induction false} KanjiPushesMeetVariants(ls: LessonSubject, unique: seq<Reading>, primary: Reading)
    requires ls.subject.KanjiData? && ls.skill_level > 0 && FindPrimary(ls.subject.readings) == Some(primary)
    ensures var lessons := KanjiPushes(ls, unique, primary);
            AboutSubject(ls, KANJI, lessons) && QuizLessons(lessons) && KanjiVariants(ls.subject, unique, lessons)
  {
    var lessons := KanjiPushes(ls, unique, primary);
    var valid := OfType(unique, ReadingTypeOf(primary));
    var first := lessons[..|lessons| - 1];
    assert lessons == first + [lessons[|lessons| - 1]];
    forall l | l in lessons
      ensures l.subject_id == ls.subject_id && l.skill_level == ls.skill_level && l.subject_type == KANJI
      ensures (l.lesson_type == ReadingAndMeaning || l.lesson_type == TextAndMeaning) && l.need_input
      ensures DirectionOf(l) == Some(ToMeanings) ==>
                l.required_data == ReadingMeaningData(Texts(valid), MeaningTexts(ls.subject.meanings), ToMeanings)
    {
      if l in first {
        assert l == first[0];
      }
    }
    if |valid| > 0 {
      assert valid[0] in valid;
      assert first[0] in lessons;
    }
  }

  /** The vocabulary pushes are input-taking quizzes about the subject. */
  lemma {:induction false} VocabularyPushesAboutSubject(ls: LessonSubject, unique: seq<Reading>)
    requires ls.subject.VocabularyData? && ls.skill_level > 0
    ensures var lessons := VocabularyPushes(ls, unique);
            AboutSubject(ls, VOCABULARY, lessons) && QuizLessons(lessons)
  {
    var lessons := VocabularyPushes(ls, unique);
    var first, to_readings, third, to_symbol := VocabularyPushParts(ls, unique);
    forall l | l in lessons
      ensures l.subject_id == ls.subject_id && l.skill_level == ls.skill_level && l.subject_type == VOCABULARY
      ensures (l.lesson_type == ReadingAndMeaning || l.lesson_type == TextAndMeaning) && l.need_input
    {
      if l in first {
        assert l == first[0];
      } else if l in third {
        assert l == third[0];
      }
    }
    assert to_readings in lessons;
  }

  /** For a word with a reading the vocabulary pushes are exactly the
      variants `VocabularyVariants` allows. */
  lemma {:induction false} VocabularyPushesMeetVariants(ls: LessonSubject, unique: seq<Reading>)
    requires ls.subject.VocabularyData? && ls.skill_level > 0
    ensures ls.subject.readings != [] ==> VocabularyVariants(ls.subject, unique, VocabularyPushes(ls, unique))
  {
    var s := ls.subject;
    var lessons := VocabularyPushes(ls, unique);
    var first, to_readings, third, to_symbol := VocabularyPushParts(ls, unique);
    forall l | l in lessons && DirectionOf(l) == Some(ToMeanings)
      ensures l.required_data == (if l.lesson_type == ReadingAndMeaning then ReadingMeaningData(Texts(unique), MeaningTexts(s.meanings), ToMeanings)
                                  else TextMeaningData(Text(s.characters), MeaningTexts(s.meanings), ToMeanings, None))
    {
      if l in first {
        assert l == first[0];
      } else if l in third {
        assert l == third[0];
      }
    }
    assert to_readings in lessons && to_symbol in lessons;
    if |unique| > 0 {
      assert first[0] in lessons;
    }
    if s.characters !in Texts(unique) {
      assert third[0] in lessons;
    }
  }

  /** The four parts the vocabulary pushes are made of. */
  lemma VocabularyPushParts(ls: LessonSubject, unique: seq<Reading>)
    returns (first: seq<Lesson>, to_readings: Lesson, third: seq<Lesson>, to_symbol: Lesson)
    requires ls.subject.VocabularyData? && ls.skill_level > 0
    ensures var s := ls.subject;
            var meanings := MeaningTexts(s.meanings);
            && first == (if |unique| > 0 then [Lesson(ReadingAndMeaning, ReadingMeaningData(Texts(unique), meanings, ToMeanings),
                                                      ls.subject_id, VOCABULARY, ls.skill_level, true, Meanings)] else [])
            && third == (if s.characters !in Texts(unique) then [Lesson(TextAndMeaning, TextMeaningData(Text(s.characters), meanings, ToMeanings, None),
                                                                        ls.subject_id, VOCABULARY, ls.skill_level, true, Meanings)] else [])
            && to_readings == Lesson(ReadingAndMeaning, ReadingMeaningData(Texts(s.readings), meanings, ToReadings), ls.subject_id, VOCABULARY, ls.skill_level, true, Readings)
            && to_symbol == Lesson(TextAndMeaning, TextMeaningData(Text(s.characters), meanings, ToSymbol, Some(Texts(s.readings))), ls.subject_id, VOCABULARY, ls.skill_level, true, Readings)
            && VocabularyPushes(ls, unique) == first + [to_readings] + third + [to_symbol]
            && forall l :: l in VocabularyPushes(ls, unique) <==> l in first || l == to_readings || l in third || l == to_symbol
  {
    var s := ls.subject;
    var meanings, all := MeaningTexts(s.meanings), Texts(s.readings);
    first := if |unique| > 0 then [Lesson(ReadingAndMeaning, ReadingMeaningData(Texts(unique), meanings, ToMeanings),
                                          ls.subject_id, VOCABULARY, ls.skill_level, true, Meanings)] else [];
    third := if s.characters !in Texts(unique) then [Lesson(TextAndMeaning, TextMeaningData(Text(s.characters), meanings, ToMeanings, None),
                                                            ls.subject_id, VOCABULARY, ls.skill_level, true, Meanings)] else [];
    to_readings := Lesson(ReadingAndMeaning, ReadingMeaningData(all, meanings, ToReadings), ls.subject_id, VOCABULARY, ls.skill_level, true, Readings);
    to_symbol := Lesson(TextAndMeaning, TextMeaningData(Text(s.characters), meanings, ToSymbol, Some(all)), ls.subject_id, VOCABULARY, ls.skill_level, true, Readings);
    assert VocabularyPushes(ls, unique) == first + [to_readings] + third + [to_symbol];
  }

  /** What the kanji branch above level 0 yields: a missing primary reading
      is the first error, a failed uniqueness test the second. */
  function KanjiOutcome(ls: LessonSubject, readings_map: ReadingsMap): Result<seq<Lesson>, LessonError>
    requires ls.subject.KanjiData?
  {
    match FindPrimary(ls.subject.readings)
    case None => Err(NoPrimaryReading)
    case Some(primary) =>
      match GetUniqueReadings(ls.subject.readings, readings_map)
      case Err(e) => Err(UniquenessFailed(e))
      case Ok(unique) => Ok(KanjiPushes(ls, unique, primary))
  }

  /** What the vocabulary branch above level 0 yields: a failed uniqueness
      test, then a failed decomposition, then an empty map of decompositions
      with no unresolved entry. */
  function VocabularyOutcome(ls: LessonSubject, readings_map: ReadingsMap, kanji_data: KanjiMap, isKanji: char -> bool)
    : Result<seq<Lesson>, LessonError>
    requires ls.subject.VocabularyData?
  {
    match GetUniqueReadings(ls.subject.readings, readings_map)
    case Err(e) => Err(UniquenessFailed(e))
    case Ok(unique) =>
      match KanjiTypesOf(ls.subject.characters, ls.subject.readings, kanji_data, isKanji)
      case Err(d) => Err(DecompositionFailed(d))
      case Ok(m) =>
        if (forall k :: k in m ==> m[k].Some?) && m == map[] then Err(NoVocabularyReading)
        else Ok(VocabularyPushes(ls, unique))
  }

  /** What the radical branch yields: the new-subject lesson at level 0, the
      text-to-meaning quiz above it, each failing without a picture. */
  function RadicalOutcome(ls: LessonSubject): Result<seq<Lesson>, LessonError>
    requires ls.subject.RadicalData?
  {
    var s := ls.subject;
    if ls.skill_level == 0 then
      match RadicalDisplay(s.radical_characters, s.image_url, NoImageUrlOrCharacters(ls.subject_id))
      case Err(e) => Err(e)
      case Ok(d) => Ok([NewSubjectLesson(d, ls.subject_id, RADICAL)])
    else
      match RadicalDisplay(s.radical_characters, s.image_url, ImageUrlUndefined)
      case Err(e) => Err(e)
      case Ok(d) => Ok([Lesson(TextAndMeaning, TextMeaningData(d, MeaningTexts(s.meanings), ToMeanings, None),
                               ls.subject_id, RADICAL, ls.skill_level, true, Meanings)])
  }

  /** What the `subjects.map` callback yields for one subject before the
      `sample`: its variants, or the error it throws. */
  function Variants(ls: LessonSubject, readings_map: ReadingsMap, kanji_data: KanjiMap, isKanji: char -> bool)
    : Result<seq<Lesson>, LessonError>
  {
    if IsKanjiData(ls.subject) then
      if ls.skill_level == 0 then Ok([NewSubjectLesson(Text(ls.subject.characters), ls.subject_id, KANJI)])
      else KanjiOutcome(ls, readings_map)
    else if IsVocabularyData(ls.subject) then
      if ls.skill_level == 0 then Ok([NewSubjectLesson(Text(ls.subject.characters), ls.subject_id, VOCABULARY)])
      else VocabularyOutcome(ls, readings_map, kanji_data, isKanji)
    else RadicalOutcome(ls)
  }

  /** When the callback for a subject succeeds, its variants are about the
      subject; there is one new-subject lesson at level 0 and only quizzes
      above it, shaped by `KanjiVariants` and `VocabularyVariants`. */
  lemma VariantsShape(ls: LessonSubject, readings_map: ReadingsMap, kanji_data: KanjiMap, isKanji: char -> bool)
    requires Variants(ls, readings_map, kanji_data, isKanji).Ok?
    ensures var v := Variants(ls, readings_map, kanji_data, isKanji).value;
            && AboutSubject(ls, GetSubjectType(ls.subject), v)
            && (ls.skill_level == 0 ==> NewSubjectOnly(v))
            && (ls.skill_level > 0 ==> QuizLessons(v))
    ensures ls.subject.KanjiData? && ls.skill_level > 0 ==>
              GetUniqueReadings(ls.subject.readings, readings_map).Ok?
              && KanjiVariants(ls.subject, GetUniqueReadings(ls.subject.readings, readings_map).value,
                               Variants(ls, readings_map, kanji_data, isKanji).value)
    ensures ls.subject.VocabularyData? && ls.skill_level > 0 ==>
              GetUniqueReadings(ls.subject.readings, readings_map).Ok?
              && VocabularyVariants(ls.subject, GetUniqueReadings(ls.subject.readings, readings_map).value,
                                    Variants(ls, readings_map, kanji_data, isKanji).value)
  {
    if ls.skill_level > 0 {
      if ls.subject.KanjiData? {
        var unique := GetUniqueReadings(ls.subject.readings, readings_map);
        KanjiPushesMeetVariants(ls, unique.value, FindPrimary(ls.subject.readings).value);
      } else if ls.subject.VocabularyData? {
        var unique := GetUniqueReadings(ls.subject.readings, readings_map);
        KanjiTypesShape(ls.subject.characters, ls.subject.readings, kanji_data, isKanji);
        VocabularyPushesAboutSubject(ls, unique.value);
        VocabularyPushesMeetVariants(ls, unique.value);
      }
    }
  }

  method KanjiLessons(ls: LessonSubject, readings_map: ReadingsMap) returns (res: Result<seq<Lesson>, LessonError>)
    requires ls.subject.KanjiData? && ls.skill_level > 0
    ensures res == KanjiOutcome(ls, readings_map)
    ensures res.Ok? ==> AboutSubject(ls, KANJI, res.value) && QuizLessons(res.value) && GetUniqueReadings(ls.subject.readings, readings_map).Ok?
    ensures res.Ok? ==> KanjiVariants(ls.subject, GetUniqueReadings(ls.subject.readings, readings_map).value, res.value)
    ensures res == Err(NoPrimaryReading) <==> forall r :: r in ls.subject.readings ==> !r.primary
    ensures res.Err? && res != Err(NoPrimaryReading) ==>
              res.error.UniquenessFailed? && GetUniqueReadings(ls.subject.readings, readings_map) == Err(res.error.e)
  {
    var s := ls.subject;
    var primary_reading := FindPrimary(s.readings);
    if primary_reading.None? {
      return Err(NoPrimaryReading);
    }
    var primary := primary_reading.value;
    var unique_readings := GetUniqueReadings(s.readings, readings_map);
    if unique_readings.Err? {
      return Err(UniquenessFailed(unique_readings.error));
    }
    var new_lessons := PushKanjiVariants(ls, unique_readings.value, primary);
    KanjiPushesMeetVariants(ls, unique_readings.value, primary);
    res := Ok(new_lessons);
  }

  /** The kanji pushes onto `new_lessons`. */
  method PushKanjiVariants(ls: LessonSubject, unique: seq<Reading>, primary: Reading) returns (new_lessons: seq<Lesson>)
    requires ls.subject.KanjiData?
    ensures new_lessons == KanjiPushes(ls, unique, primary)
  {
    var s := ls.subject;
    var valid_readings := OfType(unique, ReadingTypeOf(primary));
    new_lessons := [];
    if |valid_readings| > 0 {
      new_lessons := new_lessons + [Lesson(ReadingAndMeaning,
        ReadingMeaningData(Texts(valid_readings), MeaningTexts(s.meanings), ToMeanings),
        ls.subject_id, KANJI, ls.skill_level, true, Meanings)];
    }
    new_lessons := new_lessons + [Lesson(ReadingAndMeaning,
      ReadingMeaningData(Texts(PrimaryTypeReadings(s.readings, primary)), MeaningTexts(s.meanings), ToReadings),
      ls.subject_id, KANJI, ls.skill_level, true, Readings)];
  }

  /** The vocabulary branch fails exactly on a failed uniqueness test, a
      failed decomposition or a word without readings, with those errors in
      that order; otherwise its variants meet `VocabularyVariants`. */
  lemma VocabularyOutcomeCases(ls: LessonSubject, readings_map: ReadingsMap, kanji_data: KanjiMap, isKanji: char -> bool)
    requires ls.subject.VocabularyData? && ls.skill_level > 0
    ensures var res := VocabularyOutcome(ls, readings_map, kanji_data, isKanji);
            res.Err? <==> || GetUniqueReadings(ls.subject.readings, readings_map).Err?
                          || KanjiTypesOf(ls.subject.characters, ls.subject.readings, kanji_data, isKanji).Err?
                          || ls.subject.readings == []
    ensures GetUniqueReadings(ls.subject.readings, readings_map).Err? ==>
              VocabularyOutcome(ls, readings_map, kanji_data, isKanji)
              == Err(UniquenessFailed(GetUniqueReadings(ls.subject.readings, readings_map).error))
    ensures GetUniqueReadings(ls.subject.readings, readings_map).Ok?
            && KanjiTypesOf(ls.subject.characters, ls.subject.readings, kanji_data, isKanji).Err? ==>
              VocabularyOutcome(ls, readings_map, kanji_data, isKanji)
              == Err(DecompositionFailed(KanjiTypesOf(ls.subject.characters, ls.subject.readings, kanji_data, isKanji).error))
    ensures GetUniqueReadings(ls.subject.readings, readings_map).Ok? && ls.subject.readings == [] ==>
              VocabularyOutcome(ls, readings_map, kanji_data, isKanji) == Err(NoVocabularyReading)
    ensures var res := VocabularyOutcome(ls, readings_map, kanji_data, isKanji);
            res.Ok? ==> && GetUniqueReadings(ls.subject.readings, readings_map).Ok?
                        && AboutSubject(ls, VOCABULARY, res.value) && QuizLessons(res.value)
                        && VocabularyVariants(ls.subject, GetUniqueReadings(ls.subject.readings, readings_map).value, res.value)
  {
    var unique := GetUniqueReadings(ls.subject.readings, readings_map);
    var types := KanjiTypesOf(ls.subject.characters, ls.subject.readings, kanji_data, isKanji);
    if unique.Ok? {
      VocabularyPushesAboutSubject(ls, unique.value);
      VocabularyPushesMeetVariants(ls, unique.value);
      if types.Ok? {
        KanjiTypesShape(ls.subject.characters, ls.subject.readings, kanji_data, isKanji);
      }
    }
  }

  /** The four vocabulary pushes onto `new_lessons`. */
  method PushVocabularyVariants(ls: LessonSubject, unique: seq<Reading>) returns (new_lessons: seq<Lesson>)
    requires ls.subject.VocabularyData?
    ensures new_lessons == VocabularyPushes(ls, unique)
  {
    var s := ls.subject;
    var id, skill := ls.subject_id, ls.skill_level;
    var meanings := MeaningTexts(s.meanings);
    new_lessons := [];
    if |unique| > 0 {
      new_lessons := new_lessons + [Lesson(ReadingAndMeaning,
        ReadingMeaningData(Texts(unique), meanings, ToMeanings), id, VOCABULARY, skill, true, Meanings)];
    }
    new_lessons := new_lessons + [Lesson(ReadingAndMeaning,
      ReadingMeaningData(Texts(s.readings), meanings, ToReadings), id, VOCABULARY, skill, true, Readings)];
    var txt := s.characters;
    if txt !in Texts(unique) {
      new_lessons := new_lessons + [Lesson(TextAndMeaning,
        TextMeaningData(Text(txt), meanings, ToMeanings, None), id, VOCABULARY, skill, true, Meanings)];
    }
    new_lessons := new_lessons + [Lesson(TextAndMeaning,
      TextMeaningData(Text(txt), meanings, ToSymbol, Some(Texts(s.readings))), id, VOCABULARY, skill, true, Readings)];
  }

  method VocabularyLessons(ls: LessonSubject, readings_map: ReadingsMap, kanji_data: KanjiMap, isKanji: char -> bool)
    returns (res: Result<seq<Lesson>, LessonError>)
    requires ls.subject.VocabularyData? && ls.skill_level > 0
    ensures res == VocabularyOutcome(ls, readings_map, kanji_data, isKanji)
    ensures res.Ok? ==> AboutSubject(ls, VOCABULARY, res.value) && QuizLessons(res.value) && GetUniqueReadings(ls.subject.readings, readings_map).Ok?
    ensures res.Ok? ==> VocabularyVariants(ls.subject, GetUniqueReadings(ls.subject.readings, readings_map).value, res.value)
    ensures res.Err? <==> || GetUniqueReadings(ls.subject.readings, readings_map).Err?
                          || KanjiTypesOf(ls.subject.characters, ls.subject.readings, kanji_data, isKanji).Err?
                          || ls.subject.readings == []
    ensures GetUniqueReadings(ls.subject.readings, readings_map).Err? ==>
              res == Err(UniquenessFailed(GetUniqueReadings(ls.subject.readings, readings_map).error))
    ensures GetUniqueReadings(ls.subject.readings, readings_map).Ok?
            && KanjiTypesOf(ls.subject.characters, ls.subject.readings, kanji_data, isKanji).Err? ==>
              res == Err(DecompositionFailed(KanjiTypesOf(ls.subject.characters, ls.subject.readings, kanji_data, isKanji).error))
    ensures GetUniqueReadings(ls.subject.readings, readings_map).Ok? && ls.subject.readings == [] ==> res == Err(NoVocabularyReading)
  {
    var s := ls.subject;
    var unique_readings := GetUniqueReadings(s.readings, readings_map);
    if unique_readings.Err? {
      return Err(UniquenessFailed(unique_readings.error));
    }
    var unique := unique_readings.value;
    var new_lessons := PushVocabularyVariants(ls, unique);
    VocabularyOutcomeCases(ls, readings_map, kanji_data, isKanji);
    var kanji_types := ComputeKanjiTypes(s.characters, s.readings, kanji_data, isKanji);
    if kanji_types.Err? {
      return Err(DecompositionFailed(kanji_types.error));
    }
    var m := kanji_types.value;
    if forall k :: k in m ==> m[k].Some? {
      if m == map[] {
        return Err(NoVocabularyReading);
      }
      // the kun/on-yomi variant that would be pushed here is switched off in the source
    }
    res := Ok(new_lessons);
  }

  method RadicalLessons(ls: LessonSubject) returns (res: Result<seq<Lesson>, LessonError>)
    requires ls.subject.RadicalData?
    ensures res == RadicalOutcome(ls)
    ensures res.Ok? ==> AboutSubject(ls, RADICAL, res.value)
    ensures res.Ok? && ls.skill_level == 0 ==> NewSubjectOnly(res.value)
    ensures res.Ok? && ls.skill_level > 0 ==> QuizLessons(res.value)
    ensures res.Err? <==> RadicalDisplay(ls.subject.radical_characters, ls.subject.image_url, ImageUrlUndefined).Err?
    ensures res.Ok? ==>
              var d := RadicalDisplay(ls.subject.radical_characters, ls.subject.image_url, ImageUrlUndefined).value;
              res.value[0].required_data == if ls.skill_level == 0 then NewSubjectData(d)
                                            else TextMeaningData(d, MeaningTexts(ls.subject.meanings), ToMeanings, None)
  {
    var s := ls.subject;
    if ls.skill_level == 0 {
      var display := RadicalDisplay(s.radical_characters, s.image_url, NoImageUrlOrCharacters(ls.subject_id));
      if display.Err? {
        return Err(display.error);
      }
      return Ok([NewSubjectLesson(display.value, ls.subject_id, RADICAL)]);
    }
    var display := RadicalDisplay(s.radical_characters, s.image_url, ImageUrlUndefined);
    if display.Err? {
      return Err(display.error);
    }
    res := Ok([Lesson(TextAndMeaning, TextMeaningData(display.value, MeaningTexts(s.meanings), ToMeanings, None),
                      ls.subject_id, RADICAL, ls.skill_level, true, Meanings)]);
  }

  /** The variants generated for one subject (the body of the `subjects.map`
      callback up to the `sample`), and which subjects fail, with which error. */
  method SubjectLessons(ls: LessonSubject, readings_map: ReadingsMap, kanji_data: KanjiMap, isKanji: char -> bool)
    returns (res: Result<seq<Lesson>, LessonError>)
    ensures res == Variants(ls, readings_map, kanji_data, isKanji)
    ensures res.Ok? ==> AboutSubject(ls, GetSubjectType(ls.subject), res.value)
    ensures res.Ok? && ls.skill_level == 0 ==> NewSubjectOnly(res.value)
    ensures res.Ok? && ls.skill_level > 0 ==> QuizLessons(res.value)
    ensures ls.skill_level == 0 && !ls.subject.RadicalData? ==> res.Ok?
    ensures ls.subject.KanjiData? && ls.skill_level > 0 ==>
              (res.Err? <==> (forall r :: r in ls.subject.readings ==> !r.primary)
                             || GetUniqueReadings(ls.subject.readings, readings_map).Err?)
    ensures ls.subject.KanjiData? && ls.skill_level > 0 ==>
              (res == Err(NoPrimaryReading) <==> forall r :: r in ls.subject.readings ==> !r.primary)
    ensures ls.subject.KanjiData? && ls.skill_level > 0 && res.Ok? ==>
              GetUniqueReadings(ls.subject.readings, readings_map).Ok? && KanjiVariants(ls.subject, GetUniqueReadings(ls.subject.readings, readings_map).value, res.value)
    ensures ls.subject.VocabularyData? && ls.skill_level > 0 ==>
              (res.Err? <==> || GetUniqueReadings(ls.subject.readings, readings_map).Err?
                             || KanjiTypesOf(ls.subject.characters, ls.subject.readings, kanji_data, isKanji).Err?
                             || ls.subject.readings == [])
    ensures ls.subject.VocabularyData? && ls.skill_level > 0 && res.Ok? ==>
              GetUniqueReadings(ls.subject.readings, readings_map).Ok? && VocabularyVariants(ls.subject, GetUniqueReadings(ls.subject.readings, readings_map).value, res.value)
    ensures ls.subject.RadicalData? ==>
              (res.Err? <==> RadicalDisplay(ls.subject.radical_characters, ls.subject.image_url, ImageUrlUndefined).Err?)
  {
    var s := ls.subject;
    if IsKanjiData(s) {
      if ls.skill_level == 0 {
        return Ok([NewSubjectLesson(Text(s.characters), ls.subject_id, KANJI)]);
      }
      res := KanjiLessons(ls, readings_map);
    } else if IsVocabularyData(s) {
      if ls.skill_level == 0 {
        return Ok([NewSubjectLesson(Text(s.characters), ls.subject_id, VOCABULARY)]);
      }
      res := VocabularyLessons(ls, readings_map, kanji_data, isKanji);
    } else {
      res := RadicalLessons(ls);
    }
  }

  /** The final filter: a lesson survives when its type's table level is at
      most its skill level. */
  function FilterByLevel(ls: seq<Lesson>): (f: seq<Lesson>)
    ensures IsSubsequence(f, ls)
    ensures forall l :: l in f <==> l in ls && RequiredLevel(l.lesson_type) <= l.skill_level
  {
    if ls == [] then []
    else
      var rest := FilterByLevel(ls[1..]);
      assert forall l :: l in ls ==> l == ls[0] || l in ls[1..];
      if RequiredLevel(ls[0].lesson_type) <= ls[0].skill_level then
        assert ([ls[0]] + rest)[1..] == rest;
        [ls[0]] + rest
      else rest
  }

  /** The filter removes nothing from lessons that all meet the table. */
  lemma {:induction false} FilterByLevelKeepsPassing(ls: seq<Lesson>)
    requires forall l :: l in ls ==> RequiredLevel(l.lesson_type) <= l.skill_level
    ensures FilterByLevel(ls) == ls
  {
    if ls != [] {
      assert forall l :: l in ls[1..] ==> l in ls;
      FilterByLevelKeepsPassing(ls[1..]);
    }
  }

  /** `l` is one of the subject's variants, and carries its id and level. */
  ghost predicate PickedFrom(l: Lesson, ls: LessonSubject, variants: Result<seq<Lesson>, LessonError>)
  {
    && variants.Ok? && l in variants.value
    && l.subject_id == ls.subject_id && l.skill_level == ls.skill_level
    && (l.lesson_type == NewSubject <==> ls.skill_level == 0)
    && RequiredLevel(l.lesson_type) <= l.skill_level
  }

  /** The callback run for each subject: build its variants and `sample` one. */
  method PickLesson(ls: LessonSubject, readings_map: ReadingsMap, kanji_data: KanjiMap, isKanji: char -> bool)
    returns (res: Result<Lesson, LessonError>)
    ensures res.Ok? <==> Variants(ls, readings_map, kanji_data, isKanji).Ok?
    ensures res.Err? ==> Variants(ls, readings_map, kanji_data, isKanji) == Err(res.error)
    ensures res.Ok? ==> PickedFrom(res.value, ls, Variants(ls, readings_map, kanji_data, isKanji))
  {
    var variants := SubjectLessons(ls, readings_map, kanji_data, isKanji);
    if variants.Err? {
      return Err(variants.error);
    }
    assert variants.value[0] in variants.value;
    var returned_lesson :| returned_lesson in variants.value;
    assert returned_lesson.subject_id == ls.subject_id && returned_lesson.skill_level == ls.skill_level;
    if ls.skill_level == 0 {
      assert NewSubjectOnly(variants.value) && returned_lesson == variants.value[0];
    } else {
      assert QuizLessons(variants.value);
      assert returned_lesson.lesson_type == ReadingAndMeaning || returned_lesson.lesson_type == TextAndMeaning;
    }
    assert PickedFrom(returned_lesson, ls, variants);
    return Ok(returned_lesson);
  }

  /** The callbacks under `Promise.all`: one sampled lesson per subject, in
      order, or the error of a failing subject. */
  method ChooseLessons(subjects: seq<LessonSubject>, readings_map: ReadingsMap, kanji_data: KanjiMap, isKanji: char -> bool)
    returns (res: Result<seq<Lesson>, LessonError>)
    ensures res.Ok? <==> forall i :: 0 <= i < |subjects| ==> Variants(subjects[i], readings_map, kanji_data, isKanji).Ok?
    ensures res.Err? ==> exists i :: 0 <= i < |subjects| && Variants(subjects[i], readings_map, kanji_data, isKanji) == Err(res.error)
    ensures res.Ok? ==> |res.value| == |subjects|
    ensures res.Ok? ==> forall i :: 0 <= i < |subjects| ==>
              PickedFrom(res.value[i], subjects[i], Variants(subjects[i], readings_map, kanji_data, isKanji))
  {
    var chosen: seq<Lesson> := [];
    for i := 0 to |subjects|
      invariant |chosen| == i
      invariant forall j :: 0 <= j < i ==> PickedFrom(chosen[j], subjects[j], Variants(subjects[j], readings_map, kanji_data, isKanji))
    {
      var picked := PickLesson(subjects[i], readings_map, kanji_data, isKanji);
      if picked.Err? {
        assert Variants(subjects[i], readings_map, kanji_data, isKanji) == Err(picked.error);
        return Err(picked.error);
      }
      forall j | 0 <= j < i + 1
        ensures PickedFrom((chosen + [picked.value])[j], subjects[j], Variants(subjects[j], readings_map, kanji_data, isKanji))
      {
        if j < i {
          assert (chosen + [picked.value])[j] == chosen[j];
        }
      }
      chosen := chosen + [picked.value];
    }
    return Ok(chosen);
  }

  /** `get_lessons`: it fails exactly when some subject's callback fails, with
      that subject's error; otherwise one lesson per subject, chosen among its
      variants, then filtered by the level table. Since no generated variant
      needs level 2, the filter never drops a lesson. */
  method GetLessons(subjects: seq<LessonSubject>, readings_map: ReadingsMap, kanji_data: KanjiMap, isKanji: char -> bool)
    returns (res: Result<seq<Lesson>, LessonError>)
    ensures res.Ok? <==> forall i :: 0 <= i < |subjects| ==> Variants(subjects[i], readings_map, kanji_data, isKanji).Ok?
    ensures res.Err? ==> exists i :: 0 <= i < |subjects| && Variants(subjects[i], readings_map, kanji_data, isKanji) == Err(res.error)
    ensures res.Ok? ==> |res.value| == |subjects|
    ensures res.Ok? ==> forall i :: 0 <= i < |subjects| ==> res.value[i] in Variants(subjects[i], readings_map, kanji_data, isKanji).value
    ensures res.Ok? ==> forall l :: l in res.value ==> RequiredLevel(l.lesson_type) <= l.skill_level
    ensures res.Ok? ==> forall i :: 0 <= i < |subjects| ==>
              && res.value[i].subject_id == subjects[i].subject_id
              && res.value[i].skill_level == subjects[i].skill_level
              && (res.value[i].lesson_type == NewSubject <==> subjects[i].skill_level == 0)
  {
    var chosen := ChooseLessons(subjects, readings_map, kanji_data, isKanji);
    if chosen.Err? {
      return Err(chosen.error);
    }
    var lessons := chosen.value;
    forall l | l in lessons ensures RequiredLevel(l.lesson_type) <= l.skill_level {
      var i :| 0 <= i < |lessons| && lessons[i] == l;
      assert PickedFrom(lessons[i], subjects[i], Variants(subjects[i], readings_map, kanji_data, isKanji));
    }
    FilterByLevelKeepsPassing(lessons);
    res := Ok(FilterByLevel(lessons));
  }
}

=== FILE: results.dfy ===
/** Option and Result values standing for JavaScript's `undefined` and for
    thrown errors or error responses. */
module Results {

  datatype Option<+T> = None | Some(value: T)

  datatype Result<+T, +E> = Ok(value: T) | Err(error: E)
}

=== FILE: seq_util.dfy ===
/** Small facts about sequences used by several modules. */
module SeqUtil {

  /** The set of elements of a sequence (what `new Set(array)` holds). */
  function Elements<T>(s: seq<T>): set<T>
  {
    set x | x in s
  }

  /** Pairwise distinct elements. */
  predicate Distinct<T(==)>(s: seq<T>)
  {
    forall i, j :: 0 <= i < j < |s| ==> s[i] != s[j]
  }

  /** u is obtained from s by deleting elements, keeping the order. */
  predicate IsSubsequence<T(==)>(u: seq<T>, s: seq<T>)
    decreases |s|
  {
    if u == [] then true
    else if s == [] then false
    else (u[0] == s[0] && IsSubsequence(u[1..], s[1..])) || IsSubsequence(u, s[1..])
  }

  lemma {:induction false} SubsequenceElements<T>(u: seq<T>, s: seq<T>)
    requires IsSubsequence(u, s)
    ensures forall x :: x in u ==> x in s
    decreases |s|
  {
    if u != [] && s != [] {
      if u[0] == s[0] && IsSubsequence(u[1..], s[1..]) {
        SubsequenceElements(u[1..], s[1..]);
        forall x | x in u ensures x in s {
          if x != u[0] {
            assert x in u[1..];
          }
        }
      } else {
        SubsequenceElements(u, s[1..]);
      }
    }
  }

  /** The elements of a sequence are its head and the elements of its tail. */
  lemma ElementsCons<T>(x: T, s: seq<T>)
    ensures Elements([x] + s) == {x} + Elements(s)
  {
    assert forall y :: y in [x] + s <==> y == x || y in s;
  }

  /** Appending adds exactly the appended element. */
  lemma ElementsSnoc<T>(s: seq<T>, x: T)
    ensures Elements(s + [x]) == Elements(s) + {x}
  {
    assert forall y :: y in s + [x] <==> y in s || y == x;
  }

  /** The elements of a non-empty sequence are those of its prefix and its last. */
  lemma ElementsOfInitLast<T>(s: seq<T>)
    requires s != []
    ensures Elements(s) == Elements(s[..|s| - 1]) + {s[|s| - 1]}
  {
    assert s == s[..|s| - 1] + [s[|s| - 1]];
  }

  /** Appending keeps the elements distinct exactly when the new one is not
      already there. */
  lemma DistinctAppend<T>(s: seq<T>, x: T)
    ensures Distinct(s + [x]) <==> Distinct(s) && x !in s
  {
    var t := s + [x];
    if x in s {
      var k :| 0 <= k < |s| && s[k] == x;
      assert t[k] == t[|s|];
    }
    if !Distinct(s) {
      var i, j :| 0 <= i < j < |s| && s[i] == s[j];
      assert t[i] == t[j];
    }
    if Distinct(s) && x !in s {
      forall i, j | 0 <= i < j < |t| ensures t[i] != t[j] {
        if j < |s| {
          assert t[i] == s[i] && t[j] == s[j];
        } else {
          assert t[i] == s[i];
        }
      }
    }
  }

  /** Extending both sides of a subsequence, or only the longer one, by
      one element keeps it a subsequence. */
  lemma {:induction false} SubsequenceAppend<T>(u: seq<T>, s: seq<T>, x: T)
    requires IsSubsequence(u, s)
    ensures IsSubsequence(u + [x], s + [x])
    ensures IsSubsequence(u, s + [x])
    decreases |s|
  {
    if u == [] {
      SubsequenceOfEmpty(s + [x]);
      assert [] + [x] == [x];
      assert IsSubsequence([x][1..], ([x] + [])[1..]) by {
        assert [x][1..] == [];
      }
      SingletonSubsequence(s, x);
    } else if s == [] {
    } else {
      assert (s + [x])[1..] == s[1..] + [x];
      assert (u + [x])[1..] == u[1..] + [x];
      if u[0] == s[0] && IsSubsequence(u[1..], s[1..]) {
        SubsequenceAppend(u[1..], s[1..], x);
      } else {
        SubsequenceAppend(u, s[1..], x);
      }
    }
  }

  lemma SubsequenceOfEmpty<T>(s: seq<T>)
    ensures IsSubsequence([], s)
  {
  }

  /** [x] is a subsequence of s + [x]. */
  lemma {:induction false} SingletonSubsequence<T>(s: seq<T>, x: T)
    ensures IsSubsequence([x], s + [x])
    decreases |s|
  {
    if s == [] {
      assert [x][1..] == [];
    } else {
      assert (s + [x])[1..] == s[1..] + [x];
      SingletonSubsequence(s[1..], x);
    }
  }

  /** The set of a sequence has at most its length, and exactly its length
      when the elements are distinct. */
  lemma {:induction false} ElementsCardinality<T>(s: seq<T>)
    ensures |Elements(s)| <= |s|
    ensures |Elements(s)| == |s| <==> Distinct(s)
  {
    if s != [] {
      var init, last := s[..|s| - 1], s[|s| - 1];
      ElementsCardinality(init);
      assert s == init + [last];
      assert Elements(s) == Elements(init) + {last};
      if last in init {
        assert Elements(s) == Elements(init);
        var k :| 0 <= k < |init| && init[k] == last;
        assert s[k] == s[|s| - 1];
      } else {
        assert last !in Elements(init);
        if Distinct(init) {
          forall i, j | 0 <= i < j < |s| ensures s[i] != s[j] {
            if j == |s| - 1 {
              assert s[i] == init[i];
            } else {
              assert s[i] == init[i] && s[j] == init[j];
            }
          }
        } else {
          var i, j :| 0 <= i < j < |init| && init[i] == init[j];
          assert s[i] == s[j];
        }
      }
    }
  }

  /** Two finite sets of the same size, one inside the other, are equal. */
  lemma SubsetSameSizeEqual<T>(a: set<T>, b: set<T>)
    requires a <= b && |a| == |b|
    ensures a == b
  {
    if a != b {
      var x :| x in b && x !in a;
      assert a <= b - {x};
      assert |b - {x}| == |b| - 1;
      SubsetCardinality(a, b - {x});
    }
  }

  lemma {:induction false} SubsetCardinality<T>(a: set<T>, b: set<T>)
    requires a <= b
    ensures |a| <= |b|
    decreases b
  {
    if a != {} {
      var x :| x in a;
      SubsetCardinality(a - {x}, b - {x});
    }
  }

  /** Ordered by a key, smallest first. */
  predicate SortedBy<T>(s: seq<T>, key: T -> int)
  {
    forall i, j :: 0 <= i < j < |s| ==> key(s[i]) <= key(s[j])
  }

  function InsertBy<T>(x: T, s: seq<T>, key: T -> int): (r: seq<T>)
    requires SortedBy(s, key)
    ensures SortedBy(r, key)
    ensures multiset(r) == multiset(s) + multiset{x}
  {
    if s == [] then [x]
    else if key(x) <= key(s[0]) then [x] + s
    else
      var rest := InsertBy(x, s[1..], key);
      InsertAfterHead(x, s, rest, key);
      [s[0]] + rest
  }

  lemma InsertAfterHead<T>(x: T, s: seq<T>, rest: seq<T>, key: T -> int)
    requires s != [] && SortedBy(s, key) && key(s[0]) < key(x)
    requires SortedBy(rest, key) && multiset(rest) == multiset(s[1..]) + multiset{x}
    ensures SortedBy([s[0]] + rest, key)
    ensures multiset([s[0]] + rest) == multiset(s) + multiset{x}
  {
    assert s == [s[0]] + s[1..];
    forall j | 0 <= j < |rest| ensures key(s[0]) <= key(rest[j]) {
      assert rest[j] in multiset(rest);
      if rest[j] != x {
        assert rest[j] in multiset(s[1..]);
        assert rest[j] in s[1..];
        var k :| 0 <= k < |s[1..]| && s[1..][k] == rest[j];
        assert s[k + 1] == rest[j];
      }
    }
    var r := [s[0]] + rest;
    forall i, j | 0 <= i < j < |r| ensures key(r[i]) <= key(r[j]) {
      if i > 0 {
        assert r[i] == rest[i - 1] && r[j] == rest[j - 1];
      } else {
        assert r[j] == rest[j - 1];
      }
    }
  }

  /** Some ordering of `s` by the key exists (an insertion sort builds one). */
  function SortBy<T>(s: seq<T>, key: T -> int): (r: seq<T>)
    ensures SortedBy(r, key)
    ensures multiset(r) == multiset(s)
  {
    if s == [] then []
    else
      assert s == s[..|s| - 1] + [s[|s| - 1]];
      InsertBy(s[|s| - 1], SortBy(s[..|s| - 1], key), key)
  }

  /** Taking the first n of an ordered sequence takes the smallest: what is
      left over is the rest of the sequence and none of it is smaller. */
  lemma SortedPrefixFirst<T>(s: seq<T>, n: nat, key: T -> int)
    requires SortedBy(s, key) && n <= |s|
    ensures multiset(s) - multiset(s[..n]) == multiset(s[n..])
    ensures forall x, y :: x in s[..n] && y in s[n..] ==> key(x) <= key(y)
  {
    assert s == s[..n] + s[n..];
    forall x, y | x in s[..n] && y in s[n..] ensures key(x) <= key(y) {
      var i :| 0 <= i < n && s[..n][i] == x;
      var j :| 0 <= j < |s| - n && s[n..][j] == y;
      assert s[i] == x && s[n + j] == y;
    }
  }

  /** Deleting elements from an ordered sequence leaves it ordered. */
  lemma {:induction false} SubsequenceOfSorted<T>(u: seq<T>, s: seq<T>, key: T -> int)
    requires IsSubsequence(u, s) && SortedBy(s, key)
    ensures SortedBy(u, key)
    decreases |s|
  {
    if u != [] && s != [] {
      assert SortedBy(s[1..], key);
      if u[0] == s[0] && IsSubsequence(u[1..], s[1..]) {
        SubsequenceOfSorted(u[1..], s[1..], key);
        SubsequenceElements(u[1..], s[1..]);
        forall i, j | 0 <= i < j < |u| ensures key(u[i]) <= key(u[j]) {
          if i == 0 {
            assert u[j] in u[1..];
            var k :| 0 <= k < |s[1..]| && s[1..][k] == u[j];
            assert s[k + 1] == u[j];
          } else {
            assert u[i] == u[1..][i - 1] && u[j] == u[1..][j - 1];
          }
        }
      } else {
        SubsequenceOfSorted(u, s[1..], key);
      }
    }
  }
}

=== FILE: session.dfy ===
/** Session assembly of the web app
    (apps/web/src/routes/api/user/get_lesson_subjects/+server.ts): a batch
    of at most `amount` lessons is filled with due reviews first, then with
    reviews due within a day whose skill level is above 5, then with new
    subjects of the user's current level, and finally de-duplicated by
    subject id. The database is a store object whose rows the endpoint reads
    and appends to; the catalogue is a map from level to subject ids. */
module Session {
  import opened Results
  import opened SeqUtil

  /** A `subjectProgress` record. */
  datatype ProgressRow = ProgressRow(progress_id: int, subject_id: int, skill_level: int, next_review: int, level: int)

  /** The selected columns of a record, as the batch holds them. */
  datatype SessionLesson = SessionLesson(subject_id: int, skill_level: int, next_review: int)

  datatype HttpError = HttpError(status: int)

  const DayMillis: int := 86400000

  /** The skill level a created record starts with (the column default). */
  const InitialSkill: int := 0

  function Select(r: ProgressRow): SessionLesson
  {
    SessionLesson(r.subject_id, r.skill_level, r.next_review)
  }

  function Selects(rs: seq<ProgressRow>): (ls: seq<SessionLesson>)
    ensures |ls| == |rs| && forall i :: 0 <= i < |rs| ==> ls[i] == Select(rs[i])
  {
    seq(|rs|, i requires 0 <= i < |rs| => Select(rs[i]))
  }

  /** `orderBy: { next_review: 'desc' }` as an ascending key. */
  function Recency(l: SessionLesson): int
  {
    -l.next_review
  }

  function SubjectIds(ls: seq<SessionLesson>): (ids: seq<int>)
    ensures |ids| == |ls| && forall i :: 0 <= i < |ls| ==> ids[i] == ls[i].subject_id
  {
    seq(|ls|, i requires 0 <= i < |ls| => ls[i].subject_id)
  }

  function Min(a: int, b: int): int
  {
    if a < b then a else b
  }

  /** `z.number().min(1).max(100)` on the body's `amount`. */
  function ValidateAmount(amount: int): (r: Result<nat, HttpError>)
    ensures r.Ok? <==> 1 <= amount <= 100
    ensures r.Ok? ==> r.value == amount
    ensures r.Err? ==> r.error.status == 400
  {
    if 1 <= amount <= 100 then Ok(amount) else Err(HttpError(400))
  }

  /** The progress tables: the subject records and each progress' current level. */
  class ProgressStore {
    var rows: seq<ProgressRow>
    var current_levels: map<int, int>

    constructor(rows: seq<ProgressRow>, current_levels: map<int, int>)
      ensures this.rows == rows && this.current_levels == current_levels
    {
      this.rows := rows;
      this.current_levels := current_levels;
    }

    /** The rows of a progress with `from <= next_review < until`. */
    function Window(progress_id: int, from: int, until: int): seq<SessionLesson>
      reads this
    {
      Selects(WindowRows(rows, progress_id, from, until))
    }

    /** The rows due at `now`: `next_review <= now`. */
    function Due(progress_id: int, now: int): seq<SessionLesson>
      reads this
    {
      Selects(DueRows(rows, progress_id, now))
    }

    /** The first query: at most `take` due rows, latest first. */
    method FindDue(progress_id: int, now: int, take: nat) returns (ls: seq<SessionLesson>)
      ensures |ls| == Min(take, |Due(progress_id, now)|)
      ensures SortedBy(ls, Recency)
      ensures multiset(ls) <= multiset(Due(progress_id, now))
      ensures forall x, y :: x in ls && y in multiset(Due(progress_id, now)) - multiset(ls) ==> y.next_review <= x.next_review
      ensures forall l :: l in ls ==> l.next_review <= now
    {
      var due := Due(progress_id, now);
      assert SortedBy(SortBy(due, Recency), Recency) && multiset(SortBy(due, Recency)) == multiset(due);
      var ordered :| SortedBy(ordered, Recency) && multiset(ordered) == multiset(due);
      var n := Min(take, |ordered|);
      ls := ordered[..n];
      TakeLatest(ordered, due, n);
      DueBefore(rows, progress_id, now);
      forall l | l in ls ensures l.next_review <= now {
        assert l in multiset(due);
      }
    }

    /** The second query: the rows due within a day from `now`, latest first. */
    method FindNextDay(progress_id: int, now: int) returns (ls: seq<SessionLesson>)
      ensures SortedBy(ls, Recency)
      ensures multiset(ls) == multiset(Window(progress_id, now, now + DayMillis))
    {
      var window := Window(progress_id, now, now + DayMillis);
      assert SortedBy(SortBy(window, Recency), Recency) && multiset(SortBy(window, Recency)) == multiset(window);
      ls :| SortedBy(ls, Recency) && multiset(ls) == multiset(window);
    }

    /** The subject ids this progress already tracks at a level. */
    function TrackedAt(progress_id: int, level: int): (ids: seq<int>)
      reads this
      ensures forall id :: id in ids <==> (exists r :: r in rows && r.progress_id == progress_id && r.level == level && r.subject_id == id)
    {
      TrackedIds(rows, progress_id, level)
    }

    /** `subjectProgress.create`: the new record goes to the store. */
    method Create(row: ProgressRow)
      modifies this
      ensures rows == old(rows) + [row]
      ensures current_levels == old(current_levels)
    {
      rows := rows + [row];
    }
  }

  function WindowRows(rows: seq<ProgressRow>, progress_id: int, from: int, until: int): (rs: seq<ProgressRow>)
    ensures forall r :: r in rs <==> (r in rows && r.progress_id == progress_id && from <= r.next_review < until)
  {
    if rows == [] then []
    else
      var rest := WindowRows(rows[1..], progress_id, from, until);
      assert forall x :: x in rows <==> x == rows[0] || x in rows[1..];
      if rows[0].progress_id == progress_id && from <= rows[0].next_review < until then [rows[0]] + rest else rest
  }

  /** The rows of a progress with `next_review <= now`. */
  function DueRows(rows: seq<ProgressRow>, progress_id: int, now: int): (rs: seq<ProgressRow>)
    ensures forall r :: r in rs <==> (r in rows && r.progress_id == progress_id && r.next_review <= now)
  {
    if rows == [] then []
    else
      var rest := DueRows(rows[1..], progress_id, now);
      assert forall x :: x in rows <==> x == rows[0] || x in rows[1..];
      if rows[0].progress_id == progress_id && rows[0].next_review <= now then [rows[0]] + rest else rest
  }

  lemma DueBefore(rows: seq<ProgressRow>, progress_id: int, now: int)
    ensures forall l :: l in Selects(DueRows(rows, progress_id, now)) ==> l.next_review <= now
  {
    var rs := DueRows(rows, progress_id, now);
    forall l | l in Selects(rs) ensures l.next_review <= now {
      var i :| 0 <= i < |rs| && Selects(rs)[i] == l;
      assert rs[i] in rs;
    }
  }

  function TrackedIds(rows: seq<ProgressRow>, progress_id: int, level: int): (ids: seq<int>)
    ensures forall id :: id in ids <==> (exists r :: r in rows && r.progress_id == progress_id && r.level == level && r.subject_id == id)
  {
    if rows == [] then []
    else
      var rest := TrackedIds(rows[1..], progress_id, level);
      assert forall x :: x in rows <==> x == rows[0] || x in rows[1..];
      if rows[0].progress_id == progress_id && rows[0].level == level then [rows[0].subject_id] + rest else rest
  }

  /** The first n of a latest-first ordering of `due` are the latest n. */
  lemma TakeLatest(ordered: seq<SessionLesson>, due: seq<SessionLesson>, n: nat)
    requires SortedBy(ordered, Recency) && multiset(ordered) == multiset(due) && n <= |ordered|
    ensures SortedBy(ordered[..n], Recency)
    ensures multiset(ordered[..n]) <= multiset(due)
    ensures forall x, y :: x in ordered[..n] && y in multiset(due) - multiset(ordered[..n]) ==> y.next_review <= x.next_review
  {
    var ls := ordered[..n];
    SortedPrefixFirst(ordered, n, Recency);
    assert ordered == ls + ordered[n..];
    PrefixIsSubsequence(ordered, n);
    SubsequenceOfSorted(ls, ordered, Recency);
    forall x, y | x in ls && y in multiset(due) - multiset(ls) ensures y.next_review <= x.next_review {
      assert y in ordered[n..];
      assert Recency(x) <= Recency(y);
    }
  }

  lemma PrefixIsSubsequence<T>(s: seq<T>, n: nat)
    requires n <= |s|
    ensures IsSubsequence(s[..n], s)
  {
    if n > 0 {
      assert s[..n][1..] == s[1..][..n - 1];
      PrefixIsSubsequence(s[1..], n - 1);
    } else {
      assert s[..n] == [];
    }
  }

  // ---------------------------------------------------------------------
  // Backfill from the next day

  /** The rows a backfill admits: skill level above 5, in order. */
  function HighSkill(ls: seq<SessionLesson>): (r: seq<SessionLesson>)
    ensures forall l :: l in r <==> l in ls && l.skill_level > 5
  {
    if ls == [] then []
    else
      var init, last := ls[..|ls| - 1], ls[|ls| - 1];
      assert ls == init + [last];
      HighSkill(init) + (if last.skill_level > 5 then [last] else [])
  }

  lemma {:induction false} HighSkillAppend(a: seq<SessionLesson>, b: seq<SessionLesson>)
    ensures HighSkill(a + b) == HighSkill(a) + HighSkill(b)
  {
    if b == [] {
      assert a + b == a;
    } else {
      var init, last := b[..|b| - 1], b[|b| - 1];
      assert (a + b)[..|a + b| - 1] == a + init && (a + b)[|a + b| - 1] == last;
      HighSkillAppend(a, init);
    }
  }

  /** The first n elements, or all of them when there are fewer. */
  function Take<T>(s: seq<T>, n: int): (r: seq<T>)
    ensures |r| == if n < 0 then 0 else Min(n, |s|)
    ensures r == s[..|r|]
  {
    if n < 0 then [] else if n < |s| then s[..n] else s
  }

  /** One more row extends the admitted rows by that row when it is admitted. */
  lemma HighSkillStep(s: seq<SessionLesson>, i: nat)
    requires i < |s|
    ensures HighSkill(s[..i + 1]) == HighSkill(s[..i]) + (if s[i].skill_level > 5 then [s[i]] else [])
  {
    assert s[..i + 1][..i] == s[..i];
  }

  /** Stopping after the first i rows gives the first `room` admitted rows,
      whether the scan ran out of rows or of room. */
  lemma BackfillStops(next_day: seq<SessionLesson>, i: nat, room: nat)
    requires i <= |next_day|
    requires |HighSkill(next_day[..i])| <= room
    requires |HighSkill(next_day[..i])| < room ==> i == |next_day|
    ensures HighSkill(next_day[..i]) == Take(HighSkill(next_day), room)
  {
    assert next_day == next_day[..i] + next_day[i..];
    HighSkillAppend(next_day[..i], next_day[i..]);
    if |HighSkill(next_day[..i])| < room {
      assert next_day[..i] == next_day;
    }
  }

  /** One pass of the backfill loop keeps the batch equal to the lessons
      followed by the admitted rows seen so far. */
  lemma BackfillStep(lessons: seq<SessionLesson>, next_day: seq<SessionLesson>, i: nat, batch: seq<SessionLesson>)
    requires i < |next_day|
    requires batch == lessons + HighSkill(next_day[..i])
    ensures batch + (if next_day[i].skill_level > 5 then [next_day[i]] else []) == lessons + HighSkill(next_day[..i + 1])
  {
    HighSkillStep(next_day, i);
  }

  /** The backfill loop: rows with skill level above 5 are pushed, in
      order, until the batch holds `amount`. */
  method Backfill(lessons: seq<SessionLesson>, next_day: seq<SessionLesson>, amount: int) returns (batch: seq<SessionLesson>)
    requires |lessons| < amount
    ensures batch == lessons + Take(HighSkill(next_day), amount - |lessons|)
  {
    batch := lessons;
    var i := 0;
    while i < |next_day|
      invariant 0 <= i <= |next_day|
      invariant batch == lessons + HighSkill(next_day[..i])
      invariant |batch| <= amount
    {
      if |batch| >= amount {
        break;
      }
      BackfillStep(lessons, next_day, i, batch);
      batch := batch + (if next_day[i].skill_level > 5 then [next_day[i]] else []);
      i := i + 1;
    }
    BackfillStops(next_day, i, amount - |lessons|);
  }

  // ---------------------------------------------------------------------
  // New subjects

  function CatalogueAt(catalogue: map<int, seq<int>>, level: int): seq<int>
  {
    if level in catalogue then catalogue[level] else []
  }

  /** The catalogue ids not tracked yet, in catalogue order. */
  function Untracked(ids: seq<int>, tracked: seq<int>): (r: seq<int>)
    ensures forall id :: id in r <==> id in ids && id !in tracked
    ensures IsSubsequence(r, ids)
  {
    if ids == [] then []
    else
      var rest := Untracked(ids[1..], tracked);
      assert forall x :: x in ids <==> x == ids[0] || x in ids[1..];
      if ids[0] !in tracked then
        assert ([ids[0]] + rest)[1..] == rest;
        [ids[0]] + rest
      else rest
  }

  /** The created records, one per subject id, due now at the level. */
  function NewRows(ids: seq<int>, progress_id: int, now: int, level: int): (rs: seq<ProgressRow>)
    ensures |rs| == |ids| && forall i :: 0 <= i < |ids| ==> rs[i] == ProgressRow(progress_id, ids[i], InitialSkill, now, level)
  {
    seq(|ids|, i requires 0 <= i < |ids| => ProgressRow(progress_id, ids[i], InitialSkill, now, level))
  }

  /** The subjects to add: the first `amount_to_add` untracked subjects of
      the level. */
  function ToAdd(store_rows: seq<ProgressRow>, progress_id: int, level: int, amount_to_add: int,
                 catalogue: map<int, seq<int>>): seq<int>
  {
    Take(Untracked(CatalogueAt(catalogue, level), TrackedIds(store_rows, progress_id, level)), amount_to_add)
  }

  /** The new-subject stage: 500 without a current level, otherwise one
      record is created per subject to add and the created records are
      returned in that order. */
  method AddNewSubjects(store: ProgressStore, progress_id: int, now: int, amount_to_add: int, catalogue: map<int, seq<int>>)
    returns (r: Result<seq<SessionLesson>, HttpError>)
    modifies store
    ensures store.current_levels == old(store.current_levels)
    ensures progress_id !in store.current_levels ==> r == Err(HttpError(500)) && store.rows == old(store.rows)
    ensures progress_id in store.current_levels ==>
              var ids := ToAdd(old(store.rows), progress_id, store.current_levels[progress_id], amount_to_add, catalogue);
              var created := NewRows(ids, progress_id, now, store.current_levels[progress_id]);
              && store.rows == old(store.rows) + created
              && r == Ok(Selects(created))
  {
    if progress_id !in store.current_levels {
      return Err(HttpError(500));
    }
    var level := store.current_levels[progress_id];
    var existing := store.TrackedAt(progress_id, level);
    var possible := Untracked(CatalogueAt(catalogue, level), existing);
    var to_add := Take(possible, amount_to_add);
    var added := CreateRows(store, progress_id, to_add, now, level);
    r := Ok(added);
  }

  /** `subjectProgress.create` for each id in order, returning the created
      records' lessons. */
  method CreateRows(store: ProgressStore, progress_id: int, ids: seq<int>, now: int, level: int)
    returns (added: seq<SessionLesson>)
    modifies store
    ensures store.rows == old(store.rows) + NewRows(ids, progress_id, now, level)
    ensures store.current_levels == old(store.current_levels)
    ensures added == Selects(NewRows(ids, progress_id, now, level))
  {
    added := [];
    for i := 0 to |ids|
      invariant store.rows == old(store.rows) + NewRows(ids[..i], progress_id, now, level)
      invariant store.current_levels == old(store.current_levels)
      invariant added == Selects(NewRows(ids[..i], progress_id, now, level))
    {
      var row := ProgressRow(progress_id, ids[i], InitialSkill, now, level);
      store.Create(row);
      added := added + [Select(row)];
      assert NewRows(ids[..i + 1], progress_id, now, level) == NewRows(ids[..i], progress_id, now, level) + [row];
    }
    assert ids[..|ids|] == ids;
  }

  // ---------------------------------------------------------------------
  // De-duplication

  /** `subject_ids.indexOf(lesson.subject_id) === index`. */
  predicate FirstOccurrence(ls: seq<SessionLesson>, i: nat)
    requires i < |ls|
  {
    forall j :: 0 <= j < i ==> ls[j].subject_id != ls[i].subject_id
  }

  /** The `filter` that keeps each lesson whose subject id is seen first at
      its own index. */
  function Dedup(ls: seq<SessionLesson>): (r: seq<SessionLesson>)
    ensures |r| <= |ls|
  {
    if ls == [] then []
    else Dedup(ls[..|ls| - 1]) + (if FirstOccurrence(ls, |ls| - 1) then [ls[|ls| - 1]] else [])
  }

  lemma SubjectIdsSnoc(ls: seq<SessionLesson>, l: SessionLesson)
    ensures SubjectIds(ls + [l]) == SubjectIds(ls) + [l.subject_id]
  {
  }

  /** No subject id is lost, and none is added. */
  lemma {:induction false} DedupIds(ls: seq<SessionLesson>)
    ensures Elements(SubjectIds(Dedup(ls))) == Elements(SubjectIds(ls))
  {
    if ls != [] {
      var init, last := ls[..|ls| - 1], ls[|ls| - 1];
      DedupIds(init);
      var d := Dedup(init);
      assert Elements(SubjectIds(ls)) == Elements(SubjectIds(init)) + {last.subject_id} by {
        assert ls == init + [last];
        SubjectIdsSnoc(init, last);
        ElementsSnoc(SubjectIds(init), last.subject_id);
      }
      if FirstOccurrence(ls, |ls| - 1) {
        assert Dedup(ls) == d + [last];
        SubjectIdsSnoc(d, last);
        ElementsSnoc(SubjectIds(d), last.subject_id);
      } else {
        var j :| 0 <= j < |ls| - 1 && ls[j].subject_id == last.subject_id;
        assert SubjectIds(init)[j] == last.subject_id;
        assert Dedup(ls) == d + [];
        assert d + [] == d;
      }
    }
  }

  /** No subject id is kept twice. */
  lemma {:induction false} DedupDistinct(ls: seq<SessionLesson>)
    ensures Distinct(SubjectIds(Dedup(ls)))
  {
    if ls != [] {
      var init, last := ls[..|ls| - 1], ls[|ls| - 1];
      DedupDistinct(init);
      var d := Dedup(init);
      if FirstOccurrence(ls, |ls| - 1) {
        assert Dedup(ls) == d + [last];
        assert last.subject_id !in SubjectIds(d) by {
          DedupIds(init);
          forall j | 0 <= j < |init| ensures SubjectIds(init)[j] != last.subject_id {
            assert init[j] == ls[j];
          }
          assert last.subject_id !in Elements(SubjectIds(init));
        }
        SubjectIdsSnoc(d, last);
        DistinctAppend(SubjectIds(d), last.subject_id);
      } else {
        assert Dedup(ls) == d + [];
        assert d + [] == d;
      }
    }
  }

  /** Order is kept: the result is a subsequence of the batch. */
  lemma {:induction false} DedupSubsequence(ls: seq<SessionLesson>)
    ensures IsSubsequence(Dedup(ls), ls)
  {
    if ls != [] {
      var init, last := ls[..|ls| - 1], ls[|ls| - 1];
      DedupSubsequence(init);
      assert ls == init + [last];
      SubsequenceAppend(Dedup(init), init, last);
      if FirstOccurrence(ls, |ls| - 1) {
        assert Dedup(ls) == Dedup(init) + [last];
      } else {
        assert Dedup(ls) == Dedup(init) + [];
        assert Dedup(init) + [] == Dedup(init);
      }
    }
  }

  /** Dropping the last lesson leaves the earlier first occurrences as they are. */
  lemma FirstOccurrenceInit(ls: seq<SessionLesson>, i: nat)
    requires i < |ls| - 1
    ensures ls[..|ls| - 1][i] == ls[i]
    ensures FirstOccurrence(ls[..|ls| - 1], i) <==> FirstOccurrence(ls, i)
  {
    assert forall j :: 0 <= j <= i ==> ls[..|ls| - 1][j] == ls[j];
  }

  /** A lesson is kept exactly when it sits where its subject id first appears. */
  lemma {:induction false} DedupMember(ls: seq<SessionLesson>, l: SessionLesson)
    ensures l in Dedup(ls) <==> exists i :: 0 <= i < |ls| && ls[i] == l && FirstOccurrence(ls, i)
  {
    if ls != [] {
      var init, last := ls[..|ls| - 1], ls[|ls| - 1];
      DedupMember(init, l);
      var d := Dedup(init);
      assert Dedup(ls) == d + (if FirstOccurrence(ls, |ls| - 1) then [last] else []);
      if exists i :: 0 <= i < |ls| && ls[i] == l && FirstOccurrence(ls, i) {
        var i :| 0 <= i < |ls| && ls[i] == l && FirstOccurrence(ls, i);
        if i < |init| {
          FirstOccurrenceInit(ls, i);
          assert init[i] == l && FirstOccurrence(init, i);
        }
      }
      if l in d {
        var i :| 0 <= i < |init| && init[i] == l && FirstOccurrence(init, i);
        FirstOccurrenceInit(ls, i);
        assert ls[i] == l && FirstOccurrence(ls, i);
      }
    }
  }

  /** The copy kept of a repeated subject is its first: a lesson is kept
      exactly when it sits where its subject id first appears. */
  lemma DedupKeepsFirst(ls: seq<SessionLesson>)
    ensures forall l :: l in Dedup(ls) <==> exists i :: 0 <= i < |ls| && ls[i] == l && FirstOccurrence(ls, i)
  {
    forall l ensures l in Dedup(ls) <==> exists i :: 0 <= i < |ls| && ls[i] == l && FirstOccurrence(ls, i) {
      DedupMember(ls, l);
    }
  }

  /** A batch without repeated subjects is kept as it is. */
  lemma {:induction false} DedupOfDistinct(ls: seq<SessionLesson>)
    requires Distinct(SubjectIds(ls))
    ensures Dedup(ls) == ls
  {
    if ls != [] {
      var init, last := ls[..|ls| - 1], ls[|ls| - 1];
      assert Distinct(SubjectIds(init)) by {
        forall i, j | 0 <= i < j < |init| ensures SubjectIds(init)[i] != SubjectIds(init)[j] {
          assert SubjectIds(ls)[i] != SubjectIds(ls)[j];
        }
      }
      DedupOfDistinct(init);
      forall j | 0 <= j < |ls| - 1 ensures ls[j].subject_id != last.subject_id {
        assert SubjectIds(ls)[j] != SubjectIds(ls)[|ls| - 1];
      }
      assert ls == init + [last];
    }
  }

  // ---------------------------------------------------------------------
  // The endpoint

  /** Where a lesson of a session may come from: a due record, a record due
      within a day with skill level above 5, or a record created for an
      untracked subject of the current level. */
  ghost predicate Admissible(l: SessionLesson, rows: seq<ProgressRow>, progress_id: int, now: int,
                             levels: map<int, int>, catalogue: map<int, seq<int>>)
  {
    || l in Selects(DueRows(rows, progress_id, now))
    || (l in Selects(WindowRows(rows, progress_id, now, now + DayMillis)) && l.skill_level > 5)
    || (progress_id in levels && l.skill_level == InitialSkill && l.next_review == now
        && NewSubject(l.subject_id, rows, progress_id, levels[progress_id], catalogue))
  }

  /** A subject of the level's catalogue the progress does not track yet. */
  predicate NewSubject(id: int, rows: seq<ProgressRow>, progress_id: int, level: int, catalogue: map<int, seq<int>>)
  {
    id in CatalogueAt(catalogue, level) && id !in TrackedIds(rows, progress_id, level)
  }

  /** A record the endpoint may create. */
  predicate CreatedRow(row: ProgressRow, rows: seq<ProgressRow>, progress_id: int, now: int,
                       levels: map<int, int>, catalogue: map<int, seq<int>>)
  {
    && progress_id in levels
    && row == ProgressRow(progress_id, row.subject_id, InitialSkill, now, levels[progress_id])
    && NewSubject(row.subject_id, rows, progress_id, levels[progress_id], catalogue)
  }

  /** What the first query answers: the latest `take` due rows, latest first. */
  ghost predicate DueAnswer(ls: seq<SessionLesson>, rows: seq<ProgressRow>, progress_id: int, now: int, take: nat)
  {
    var due := Selects(DueRows(rows, progress_id, now));
    && |ls| == Min(take, |due|)
    && SortedBy(ls, Recency)
    && multiset(ls) <= multiset(due)
    && forall x, y :: x in ls && y in multiset(due) - multiset(ls) ==> y.next_review <= x.next_review
  }

  /** What the second query answers: the rows due within a day, latest first. */
  ghost predicate NextDayAnswer(ls: seq<SessionLesson>, rows: seq<ProgressRow>, progress_id: int, now: int)
  {
    SortedBy(ls, Recency) && multiset(ls) == multiset(Selects(WindowRows(rows, progress_id, now, now + DayMillis)))
  }

  /** The batch once the queries have answered: the due reviews, topped up
      from the next day when they fall short of `amount`. */
  function Backfilled(due: seq<SessionLesson>, next_day: seq<SessionLesson>, amount: int): seq<SessionLesson>
  {
    if |due| < amount then due + Take(HighSkill(next_day), amount - |due|) else due
  }

  /** The records the new-subject stage creates after the backfilled batch
      `filled`: none when the batch is full, a 500 when the progress has no
      current level, otherwise one per subject to add. */
  function Created(rows: seq<ProgressRow>, progress_id: int, now: int, amount: int, levels: map<int, int>,
                   catalogue: map<int, seq<int>>, filled: seq<SessionLesson>): Result<seq<ProgressRow>, HttpError>
  {
    if |filled| >= amount then Ok([])
    else if progress_id !in levels then Err(HttpError(500))
    else Ok(NewRows(ToAdd(rows, progress_id, levels[progress_id], amount - |filled|, catalogue), progress_id, now, levels[progress_id]))
  }

  /** Whatever the queries answer, the stages keep the session safe: the
      batch holds at most `amount` admissible lessons, every created record
      is one the endpoint may create, and the only failure is a 500 for a
      progress without a current level. */
  lemma StagesAdmissible(rows: seq<ProgressRow>, progress_id: int, now: int, amount: nat, levels: map<int, int>,
                         catalogue: map<int, seq<int>>, due: seq<SessionLesson>, next_day: seq<SessionLesson>)
    requires DueAnswer(due, rows, progress_id, now, amount)
    requires |due| < amount ==> NextDayAnswer(next_day, rows, progress_id, now)
    ensures var filled := Backfilled(due, next_day, amount);
            && |filled| <= amount
            && forall l :: l in filled ==> Admissible(l, rows, progress_id, now, levels, catalogue)
    ensures var filled := Backfilled(due, next_day, amount);
            var created := Created(rows, progress_id, now, amount, levels, catalogue, filled);
            && (created.Err? ==> created.error == HttpError(500) && |filled| < amount && progress_id !in levels)
            && (created.Ok? ==>
                  && |filled + Selects(created.value)| <= amount
                  && (forall l :: l in Selects(created.value) ==> Admissible(l, rows, progress_id, now, levels, catalogue))
                  && forall i :: 0 <= i < |created.value| ==> CreatedRow(created.value[i], rows, progress_id, now, levels, catalogue))
  {
    var filled := Backfilled(due, next_day, amount);
    forall l | l in due ensures Admissible(l, rows, progress_id, now, levels, catalogue) {
      assert l in multiset(Selects(DueRows(rows, progress_id, now)));
    }
    if |due| < amount {
      BackfillAdmissible(due, next_day, amount, rows, progress_id, now, levels, catalogue);
    }
    if |filled| < amount && progress_id in levels {
      var created := NewRows(ToAdd(rows, progress_id, levels[progress_id], amount - |filled|, catalogue), progress_id, now, levels[progress_id]);
      NewRowsAdmissible(rows, rows + created, progress_id, now, amount - |filled|, levels, catalogue);
      forall i | 0 <= i < |created| ensures CreatedRow(created[i], rows, progress_id, now, levels, catalogue) {
        assert (rows + created)[|rows| + i] == created[i];
      }
    }
  }

  /** `POST /api/user/get_lesson_subjects` for an authenticated progress:
      400 exactly for an amount outside 1..100; otherwise the due reviews
      (`due`, the first query's answer), the backfill from the next day
      (`next_day`, the second query's answer, read only when the due
      reviews fall short), then the records created for new subjects: 500
      exactly when those are needed and the progress has no current level,
      otherwise the whole batch de-duplicated by subject id. The lessons
      are at most `amount`, with distinct subject ids, each admissible; the
      store only gains the created records. */
  method AssembleSession(store: ProgressStore, progress_id: int, amount: int, now: int, catalogue: map<int, seq<int>>)
    returns (r: Result<seq<SessionLesson>, HttpError>, ghost due: seq<SessionLesson>, ghost next_day: seq<SessionLesson>)
    modifies store
    ensures store.current_levels == old(store.current_levels)
    ensures r == Err(HttpError(400)) <==> !(1 <= amount <= 100)
    ensures 1 <= amount <= 100 ==>
              && DueAnswer(due, old(store.rows), progress_id, now, amount)
              && (|due| < amount ==> NextDayAnswer(next_day, old(store.rows), progress_id, now))
    ensures 1 <= amount <= 100 ==>
              var filled := Backfilled(due, next_day, amount);
              var created := Created(old(store.rows), progress_id, now, amount, store.current_levels, catalogue, filled);
              && (created.Err? ==> r == Err(created.error) && store.rows == old(store.rows))
              && (created.Ok? ==> r == Ok(Dedup(filled + Selects(created.value))) && store.rows == old(store.rows) + created.value)
    ensures r == Err(HttpError(500)) <==>
              1 <= amount <= 100 && |Backfilled(due, next_day, amount)| < amount && progress_id !in store.current_levels
    ensures r.Err? ==> store.rows == old(store.rows)
    ensures r.Err? ==> r.error.status == 400 || (r.error.status == 500 && progress_id !in store.current_levels)
    ensures r.Ok? ==> Distinct(SubjectIds(r.value)) && |r.value| <= amount
    ensures r.Ok? ==> forall l :: l in r.value ==> Admissible(l, old(store.rows), progress_id, now, store.current_levels, catalogue)
    ensures |old(store.rows)| <= |store.rows| && store.rows[..|old(store.rows)|] == old(store.rows)
    ensures forall i :: |old(store.rows)| <= i < |store.rows| ==>
              CreatedRow(store.rows[i], old(store.rows), progress_id, now, store.current_levels, catalogue)
    ensures amount <= |old(store.Due(progress_id, now))| ==> store.rows == old(store.rows)
  {
    var checked := ValidateAmount(amount);
    if checked.Err? {
      return Err(checked.error), [], [];
    }
    var batch;
    batch, due, next_day := FillBatch(store, progress_id, checked.value, now, catalogue);
    if batch.Err? {
      return Err(batch.error), due, next_day;
    }
    var lessons := batch.value;
    DedupIds(lessons);
    DedupDistinct(lessons);
    DedupSubsequence(lessons);
    SubsequenceElements(Dedup(lessons), lessons);
    r := Ok(Dedup(lessons));
  }

  /** The batch before de-duplication: due reviews, then the backfill, then
      the created records' lessons. */
  method FillBatch(store: ProgressStore, progress_id: int, amount: nat, now: int, catalogue: map<int, seq<int>>)
    returns (r: Result<seq<SessionLesson>, HttpError>, ghost due: seq<SessionLesson>, ghost next_day: seq<SessionLesson>)
    modifies store
    ensures store.current_levels == old(store.current_levels)
    ensures DueAnswer(due, old(store.rows), progress_id, now, amount)
    ensures |due| < amount ==> NextDayAnswer(next_day, old(store.rows), progress_id, now)
    ensures var filled := Backfilled(due, next_day, amount);
            var created := Created(old(store.rows), progress_id, now, amount, store.current_levels, catalogue, filled);
            && (created.Err? ==> r == Err(created.error) && store.rows == old(store.rows))
            && (created.Ok? ==> r == Ok(filled + Selects(created.value)) && store.rows == old(store.rows) + created.value)
    ensures r.Err? ==> r == Err(HttpError(500)) && progress_id !in store.current_levels && store.rows == old(store.rows)
    ensures r.Ok? ==> |r.value| <= amount
    ensures r.Ok? ==> forall l :: l in r.value ==> Admissible(l, old(store.rows), progress_id, now, store.current_levels, catalogue)
    ensures |old(store.rows)| <= |store.rows| && store.rows[..|old(store.rows)|] == old(store.rows)
    ensures forall i :: |old(store.rows)| <= i < |store.rows| ==>
              CreatedRow(store.rows[i], old(store.rows), progress_id, now, store.current_levels, catalogue)
    ensures amount <= |old(store.Due(progress_id, now))| ==> store.rows == old(store.rows)
  {
    ghost var rows := store.rows;
    var lessons := store.FindDue(progress_id, now, amount);
    due, next_day := lessons, [];
    assert DueAnswer(due, rows, progress_id, now, amount);
    if |lessons| < amount {
      assert forall l :: l in lessons ==> Admissible(l, store.rows, progress_id, now, store.current_levels, catalogue) by {
        forall l | l in lessons ensures l in store.Due(progress_id, now) {
          assert l in multiset(store.Due(progress_id, now));
        }
      }
      r, next_day := TopUp(store, progress_id, lessons, amount, now, catalogue);
    } else {
      assert Selects([]) == [] && lessons + [] == lessons;
      r := Ok(lessons);
    }
    StagesAdmissible(rows, progress_id, now, amount, store.current_levels, catalogue, due, next_day);
  }

  /** The part of the batch after the due reviews, when they fall short of
      `amount`: backfill from the next day, then new subjects. */
  method TopUp(store: ProgressStore, progress_id: int, due: seq<SessionLesson>, amount: nat, now: int, catalogue: map<int, seq<int>>)
    returns (r: Result<seq<SessionLesson>, HttpError>, ghost next_day: seq<SessionLesson>)
    requires |due| < amount
    requires forall l :: l in due ==> Admissible(l, store.rows, progress_id, now, store.current_levels, catalogue)
    modifies store
    ensures store.current_levels == old(store.current_levels)
    ensures NextDayAnswer(next_day, old(store.rows), progress_id, now)
    ensures var filled := Backfilled(due, next_day, amount);
            var created := Created(old(store.rows), progress_id, now, amount, store.current_levels, catalogue, filled);
            && (created.Err? ==> r == Err(created.error) && store.rows == old(store.rows))
            && (created.Ok? ==> r == Ok(filled + Selects(created.value)) && store.rows == old(store.rows) + created.value)
    ensures r.Err? ==> r == Err(HttpError(500)) && progress_id !in store.current_levels && store.rows == old(store.rows)
    ensures r.Ok? ==> |r.value| <= amount
    ensures r.Ok? ==> forall l :: l in r.value ==> Admissible(l, old(store.rows), progress_id, now, store.current_levels, catalogue)
    ensures |old(store.rows)| <= |store.rows| && store.rows[..|old(store.rows)|] == old(store.rows)
    ensures forall i :: |old(store.rows)| <= i < |store.rows| ==>
              CreatedRow(store.rows[i], old(store.rows), progress_id, now, store.current_levels, catalogue)
  {
    ghost var rows, levels := store.rows, store.current_levels;
    var found := store.FindNextDay(progress_id, now);
    next_day := found;
    var lessons := Backfill(due, found, amount);
    assert lessons == Backfilled(due, next_day, amount);
    BackfillAdmissible(due, next_day, amount, rows, progress_id, now, levels, catalogue);
    ghost var created := Created(rows, progress_id, now, amount, levels, catalogue, lessons);
    if |lessons| < amount {
      var added := AddNewSubjects(store, progress_id, now, amount - |lessons|, catalogue);
      if added.Err? {
        assert created == Err(HttpError(500));
        return Err(added.error), next_day;
      }
      assert created.Ok? && added.value == Selects(created.value) && store.rows == rows + created.value;
      assert progress_id in levels;
      assert created.value == NewRows(ToAdd(rows, progress_id, levels[progress_id], amount - |lessons|, catalogue),
                                      progress_id, now, levels[progress_id]);
      NewRowsAdmissible(rows, store.rows, progress_id, now, amount - |lessons|, levels, catalogue);
      lessons := lessons + added.value;
    } else {
      assert Selects([]) == [] && lessons + [] == lessons;
    }
    r := Ok(lessons);
  }

  /** The backfilled batch stays admissible. */
  lemma BackfillAdmissible(due: seq<SessionLesson>, next_day: seq<SessionLesson>, amount: int,
                           rows: seq<ProgressRow>, progress_id: int, now: int,
                           levels: map<int, int>, catalogue: map<int, seq<int>>)
    requires |due| < amount
    requires multiset(next_day) == multiset(Selects(WindowRows(rows, progress_id, now, now + DayMillis)))
    requires forall l :: l in due ==> Admissible(l, rows, progress_id, now, levels, catalogue)
    ensures forall l :: l in due + Take(HighSkill(next_day), amount - |due|) ==> Admissible(l, rows, progress_id, now, levels, catalogue)
  {
    var extra := Take(HighSkill(next_day), amount - |due|);
    forall l | l in extra ensures l in next_day && l.skill_level > 5 {
      assert l in HighSkill(next_day);
    }
    forall l | l in extra ensures l in Selects(WindowRows(rows, progress_id, now, now + DayMillis)) {
      assert l in multiset(next_day);
    }
  }

  /** The lessons of the created records are admissible, and so are the
      records themselves. */
  lemma NewRowsAdmissible(rows: seq<ProgressRow>, after: seq<ProgressRow>, progress_id: int, now: int, amount_to_add: int,
                          levels: map<int, int>, catalogue: map<int, seq<int>>)
    requires progress_id in levels
    requires after == rows + NewRows(ToAdd(rows, progress_id, levels[progress_id], amount_to_add, catalogue), progress_id, now, levels[progress_id])
    ensures var created := NewRows(ToAdd(rows, progress_id, levels[progress_id], amount_to_add, catalogue), progress_id, now, levels[progress_id]);
            && |created| <= (if amount_to_add < 0 then 0 else amount_to_add)
            && (forall l :: l in Selects(created) ==> Admissible(l, rows, progress_id, now, levels, catalogue))
    ensures after[..|rows|] == rows
    ensures forall i :: |rows| <= i < |after| ==> CreatedRow(after[i], rows, progress_id, now, levels, catalogue)
  {
    var level := levels[progress_id];
    var ids := ToAdd(rows, progress_id, level, amount_to_add, catalogue);
    var created := NewRows(ids, progress_id, now, level);
    forall i | 0 <= i < |ids| ensures NewSubject(ids[i], rows, progress_id, level, catalogue) {
      assert ids[i] in Untracked(CatalogueAt(catalogue, level), TrackedIds(rows, progress_id, level));
    }
    forall l | l in Selects(created) ensures Admissible(l, rows, progress_id, now, levels, catalogue) {
      var i :| 0 <= i < |created| && Selects(created)[i] == l;
      assert l == SessionLesson(ids[i], InitialSkill, now);
    }
    forall i | |rows| <= i < |after| ensures CreatedRow(after[i], rows, progress_id, now, levels, catalogue) {
      assert after[i] == created[i - |rows|];
    }
  }
}

=== FILE: subject_kinds.dfy ===
/** The subject records of the web app (apps/web/src/lib/scripts/universal/datatypes.ts)
    and the field-presence test that tells kanji, vocabulary and radicals apart. */
module SubjectKinds {
  import opened Results

  datatype ReadingType = ONYOMI | KUNYOMI | NANORI

  datatype SubjectType = KANJI | VOCABULARY | RADICAL

  datatype Meaning = Meaning(id: string, accepted_answer: bool, meaning: string, primary: bool, subject_id: int)

  /** The union of the kanji and the vocabulary reading schemas. */
  datatype Reading =
    | KanjiReading(id: string, reading: string, reading_type: ReadingType, primary: bool, subject_id: int)
    | VocabularyReading(id: string, reading: string, primary: bool, accepted_answer: bool, subject_id: int)

  /** `r.reading_type`, which is `undefined` on a vocabulary reading. */
  function ReadingTypeOf(r: Reading): Option<ReadingType>
  {
    if r.KanjiReading? then Some(r.reading_type) else None
  }

  /** A parsed subject: one case per strict schema. Fields that no part of the
      lesson engine reads (mnemonic texts aside from their presence, component
      and similarity id lists, auxiliary meanings) are left out. */
  datatype SubjectData =
    | RadicalData(id: int, radical_characters: Option<string>, image_url: Option<string>,
                  level: int, lesson_position: int, meanings: seq<Meaning>)
    | KanjiData(id: int, characters: string, level: int, lesson_position: int,
                meanings: seq<Meaning>, meaning_hint: Option<string>,
                reading_hint: string, reading_mnemonic: string, readings: seq<Reading>)
    | VocabularyData(id: int, characters: string, level: int, lesson_position: int,
                     meanings: seq<Meaning>, reading_mnemonic: string, readings: seq<Reading>)

  /** The keys present on the parsed object: optional fields are present only
      when set, every other key of the strict schema always is. */
  function FieldNames(s: SubjectData): set<string>
  {
    match s
    case RadicalData(_, radical_characters, image_url, _, _, _) =>
      {"id", "amalgamation_subject_ids", "auxiliary_meanings", "lesson_position", "level",
       "meaning_mnemonic", "meanings"}
      + (if radical_characters.Some? then {"characters"} else {})
      + (if image_url.Some? then {"image_url"} else {})
    case KanjiData(_, _, _, _, _, meaning_hint, _, _, _) =>
      {"id", "amalgamation_subject_ids", "auxiliary_meanings", "characters",
       "component_subject_ids", "lesson_position", "level", "meaning_mnemonic", "meanings",
       "reading_hint", "reading_mnemonic", "readings", "visually_similar_subject_ids"}
      + (if meaning_hint.Some? then {"meaning_hint"} else {})
    case VocabularyData(_, _, _, _, _, _, _) =>
      {"id", "auxiliary_meanings", "characters", "component_subject_ids", "context_sentences",
       "lesson_position", "level", "meaning_mnemonic", "meanings", "reading_mnemonic", "readings"}
  }

  /** `get_subject_type`: a `reading_hint` key means KANJI, otherwise a
      `reading_mnemonic` key means VOCABULARY, anything else is a RADICAL.
      The field test agrees with the schema the object was parsed with. */
  function GetSubjectType(s: SubjectData): (t: SubjectType)
    ensures t == KANJI <==> s.KanjiData?
    ensures t == VOCABULARY <==> s.VocabularyData?
    ensures t == RADICAL <==> s.RadicalData?
  {
    if "reading_hint" in FieldNames(s) then KANJI
    else if "reading_mnemonic" in FieldNames(s) then VOCABULARY
    else RADICAL
  }

  predicate IsKanjiData(s: SubjectData)
  {
    GetSubjectType(s) == KANJI
  }

  predicate IsVocabularyData(s: SubjectData)
  {
    GetSubjectType(s) == VOCABULARY
  }

  predicate IsRadicalData(s: SubjectData)
  {
    GetSubjectType(s) == RADICAL
  }

  /** Exactly one of the three type guards holds for every subject. */
  lemma ExactlyOneKind(s: SubjectData)
    ensures IsKanjiData(s) || IsVocabularyData(s) || IsRadicalData(s)
    ensures !(IsKanjiData(s) && IsVocabularyData(s))
    ensures !(IsKanjiData(s) && IsRadicalData(s))
    ensures !(IsVocabularyData(s) && IsRadicalData(s))
  {
  }

  /** The radical schema makes both `characters` and `image_url` optional, so
      it accepts a radical with neither and one with both. */
  lemma RadicalSchemaAllowsNeitherAndBoth(id: int, level: int, c: string, u: string)
    ensures var neither := RadicalData(id, None, None, level, 0, []);
            "characters" !in FieldNames(neither) && "image_url" !in FieldNames(neither)
    ensures var both := RadicalData(id, Some(c), Some(u), level, 0, []);
            "characters" in FieldNames(both) && "image_url" in FieldNames(both)
  {
  }

  /** One element of the lesson-subject list sent by the session endpoint. */
  datatype LessonSubject = LessonSubject(subject_id: int, skill_level: nat, next_review: int, subject: SubjectData)

  /** `LessonSubjectDataSchema.parse`: the only check beyond the shape is
      `skill_level >= 0`. */
  function ParseLessonSubject(subject_id: int, skill_level: int, next_review: int, subject: SubjectData): (r: Option<LessonSubject>)
    ensures r.Some? <==> skill_level >= 0
    ensures r.Some? ==> r.value.skill_level == skill_level && r.value.subject_id == subject_id
                        && r.value.subject == subject && r.value.next_review == next_review
  {
    if skill_level >= 0 then Some(LessonSubject(subject_id, skill_level, next_review, subject)) else None
  }
}

=== FILE: unique_readings.dfy ===
/** The reading-uniqueness filter of apps/web/src/routes/lessons/get_lessons.ts
    (`has_duplicates`, `arr_identical`, `get_unique_readings`). */
module UniqueReadings {
  import opened Results
  import opened SeqUtil
  import opened SubjectKinds

  /** One subject in the reading-to-subjects map returned by the
      `get_by_readings` endpoint. */
  datatype MappedSubject = MappedSubject(id: int, readings: seq<Reading>, meanings: seq<Meaning>)

  type ReadingsMap = map<string, seq<MappedSubject>>

  datatype UniqueError =
    | DuplicatesInArrIdentical                 // the error raised by `arr_identical`
    | MissingReadingEntry(reading: string)     // `readings_map[r.reading]` is undefined

  /** `has_duplicates`: the Set of the array is smaller than the array. */
  function HasDuplicates<T(==)>(s: seq<T>): (b: bool)
    ensures b <==> exists i, j :: 0 <= i < j < |s| && s[i] == s[j]
  {
    ElementsCardinality(s);
    |Elements(s)| != |s|
  }

  /** `arr_identical`: an error if either array has a duplicate, otherwise
      whether both hold the same set of elements. */
  function ArrIdentical<T(==)>(a: seq<T>, b: seq<T>): (r: Result<bool, UniqueError>)
    ensures r.Err? <==> HasDuplicates(a) || HasDuplicates(b)
    ensures r.Err? ==> r.error == DuplicatesInArrIdentical
    ensures r.Ok? ==> (r.value <==> Elements(a) == Elements(b))
  {
    if HasDuplicates(a) || HasDuplicates(b) then Err(DuplicatesInArrIdentical)
    else
      var set1, set2 := Elements(a), Elements(b);
      var same := |set1| == |set2| && forall v :: v in set1 ==> v in set2;
      if same then SubsetSameSizeEqual(set1, set2); Ok(same) else Ok(same)
  }

  /** `mapped.every((m) => arr_identical(m.readings, readings))`: stops at the
      first false and throws at the first duplicate it reaches. */
  function EveryIdentical(mapped: seq<MappedSubject>, readings: seq<Reading>): (r: Result<bool, UniqueError>)
    ensures r.Ok? ==> (r.value <==> forall m :: m in mapped ==> Elements(m.readings) == Elements(readings))
    ensures r.Err? ==> HasDuplicates(readings) || exists m :: m in mapped && HasDuplicates(m.readings)
    ensures !HasDuplicates(readings) && (forall m :: m in mapped ==> !HasDuplicates(m.readings)) ==> r.Ok?
  {
    if mapped == [] then Ok(true)
    else
      match ArrIdentical(mapped[0].readings, readings)
      case Err(e) => Err(e)
      case Ok(same) =>
        if !same then Ok(false)
        else
          var rest := EveryIdentical(mapped[1..], readings);
          assert forall m :: m in mapped ==> m == mapped[0] || m in mapped[1..];
          rest
  }

  /** The uniqueness criterion: the reading maps to exactly one subject, or
      every subject it maps to has this subject's set of readings. */
  ghost predicate IsUnique(rd: string, readings: seq<Reading>, readings_map: ReadingsMap)
    requires rd in readings_map
  {
    || |readings_map[rd]| == 1
    || forall m :: m in readings_map[rd] ==> Elements(m.readings) == Elements(readings)
  }

  /** The filter callback of `get_unique_readings` for one reading. */
  function KeepReading(r: Reading, readings: seq<Reading>, readings_map: ReadingsMap): (k: Result<bool, UniqueError>)
    ensures k.Ok? ==> r.reading in readings_map && (k.value <==> IsUnique(r.reading, readings, readings_map))
    ensures k.Err? ==> r.reading !in readings_map || HasDuplicates(readings)
                       || exists m :: m in readings_map[r.reading] && HasDuplicates(m.readings)
  {
    if r.reading !in readings_map then Err(MissingReadingEntry(r.reading))
    else
      var mapped := readings_map[r.reading];
      if |mapped| == 1 then Ok(true)
      else EveryIdentical(mapped, readings)
  }

  /** Filters `candidates`, judging each against the subject's own `readings`. */
  function FilterUnique(candidates: seq<Reading>, readings: seq<Reading>, readings_map: ReadingsMap): (u: Result<seq<Reading>, UniqueError>)
    ensures u.Ok? ==> IsSubsequence(u.value, candidates)
    ensures u.Ok? ==> forall x :: x in candidates ==> x.reading in readings_map
    ensures u.Ok? ==> forall x :: x in candidates ==>
                        (x in u.value <==> IsUnique(x.reading, readings, readings_map))
  {
    if candidates == [] then Ok([])
    else
      var head := candidates[0];
      match KeepReading(head, readings, readings_map)
      case Err(e) => Err(e)
      case Ok(keep) =>
        match FilterUnique(candidates[1..], readings, readings_map)
        case Err(e) => Err(e)
        case Ok(rest) =>
          assert forall x :: x in candidates ==> x == head || x in candidates[1..];
          SubsequenceElements(rest, candidates[1..]);
          if keep then
            assert ([head] + rest)[1..] == rest;
            Ok([head] + rest)
          else
            Ok(rest)
  }

  /** `get_unique_readings`: keeps, in order, exactly the readings that are
      unique in the sense of `IsUnique`. */
  function GetUniqueReadings(readings: seq<Reading>, readings_map: ReadingsMap): (u: Result<seq<Reading>, UniqueError>)
    ensures u.Ok? ==> IsSubsequence(u.value, readings)
    ensures u.Ok? ==> forall x :: x in readings ==> x.reading in readings_map
    ensures u.Ok? ==> forall x :: x in readings ==>
                        (x in u.value <==> IsUnique(x.reading, readings, readings_map))
  {
    FilterUnique(readings, readings, readings_map)
  }

  /** The filter fails only on a reading missing from the map or on
      duplicate readings; without those it always succeeds. */
  lemma {:induction false} UniqueReadingsSucceed(candidates: seq<Reading>, readings: seq<Reading>, readings_map: ReadingsMap)
    requires forall x :: x in candidates ==> x.reading in readings_map
    requires !HasDuplicates(readings)
    requires forall x, m :: x in candidates && m in readings_map[x.reading] ==> !HasDuplicates(m.readings)
    ensures FilterUnique(candidates, readings, readings_map).Ok?
  {
    if candidates != [] {
      UniqueReadingsSucceed(candidates[1..], readings, readings_map);
    }
  }
}
